=== FILE: README.md ===
# Odoo model-inheritance resolver, modelled in Dafny

This project models the core of the Odoo model inspector and of the Odoo
icon maker, and proves properties of that model.

The model inspector answers one question: which addon modules define or
extend a model such as `sale.order`, and in which order? It does this in
four steps.

1. The **manifest reader** turns the dict display of each
   `__manifest__.py` into a value. It finds a module's directory among
   ordered addon roots and answers `depends` queries. It also computes the
   recursive dependency closure, using one shared visited set.
2. The **declaration extractor** walks a parsed source file. It recognises
   classes deriving from `models.Model`, `models.TransientModel` or
   `models.AbstractModel`. For each one it records `_name`, `_inherit`, the
   fields (by field-type substring) and the methods (with a flag saying
   whether the method calls `super()`).
3. The **chain builder** does the following:
   - collects one record per contributing module;
   - restricts the manifest dependency graph to the contributors;
   - orders them with its own Kahn-style topological sort;
   - forces the base definition (the first record that assigns `_name`)
     to the front;
   - appends any leftovers and numbers the nodes 1..n.
4. The **Markdown report** renders the result:
   - the field total;
   - a one-line-per-node tree;
   - the module whose method a `super()` call reaches;
   - the header, field and method lines of every node.

The icon maker's pure helpers are modelled too:
- module-name initials;
- `#rrggbb` parsing through Python's `int(x, 16)`;
- the background colours chosen by user colours or by description
  keywords;
- the drawing primitives chosen by description keywords.

The model is purely functional. Python dicts are insertion-ordered
sequences. The parsed source is an abstract `ast` datatype (`PyAst`). The
file system appears only as given inputs:
- addon roots with their children;
- module source files with their class lists;
- the discovery order of modules;
- the map from module to its `get_dependencies` answer.

Files:

| file | contents |
|---|---|
| `wrappers.dfy` | `Option`, `Result` |
| `seqs.dfy` | duplicate-freedom, counting, subsequences, `list.remove` |
| `strings.dfy` | substrings, ASCII case mapping, `split`/`join`, code-point order and `sorted` |
| `pyast.dfy` | the abstract syntax tree |
| `model_parser.dfy` | `ModelParser` |
| `manifest_parser.dfy` | `ManifestParser` |
| `recursive_deps.dfy` | `get_all_dependencies_recursive` |
| `topo_sort.dfy` | `_topological_sort` |
| `dependency_resolver.dfy` | `DependencyResolver` |
| `markdown_formatter.dfy` | the list logic of `MarkdownFormatter` |
| `make_icon.dfy` | the icon maker helpers |

## Behaviour modelled as written

Three places do not do what their docstrings or comments say. The model
follows the code and proves what the code does.

- **The topological sort.** Its release loop lowers the in-degree of the
  nodes that *depend on* the popped node. Only nodes with in-degree 0 are
  ever queued, which means no node depends on them, so the loop never
  releases anything. The sort therefore returns exactly the modules that
  no other contributor depends on, in descending name order
  (`TopoSort.TopologicalSort`, `TopoSort.TopoSortCharacterised`). Its
  circular-dependency warning fires whenever any contributor depends on
  another, even when the graph is acyclic.
- **The chain order.** Take three modules: base `a`, `b` depending on `a`,
  and `c` depending on `b`. The chain comes out as `[a, c, b]`, so `c`
  precedes its own dependency `b`
  (`DependencyResolver.ChainOfThreeIsNotDependencyOrder`). The docstring
  promises dependency order.
- **The parent-method lookup.** `_get_parent_methods` keeps the first
  occurrence of each method name among the earlier nodes. It therefore
  reports the *earliest* defining module, not the closest one its comment
  names (`MarkdownFormatter.ParentMethodsNotClosest`).

The recursive dependency closure keeps duplicate entries of a `depends`
list (`RecursiveDeps.DuplicateDependsSurvive`). It is duplicate-free only
when every `depends` list is (`RecursiveDeps.ClosureNoDup`).

## Model

Source paths are relative to the repository root.

| member | source | states |
|---|---|---|
| ModelParser.AttributeName | odoo/odoo_model_inspector/parsers/model_parser.py:315-332 | A name resolves to its identifier. An attribute access resolves to a name ending in its attribute, and to the bare attribute when the prefix does not resolve to a non-empty name. Every other expression resolves to nothing. |
| ModelParser.DottedNameRoundTrip | odoo/odoo_model_inspector/parsers/model_parser.py:325-331 | A dotted access chain of non-empty, dot-free identifiers resolves to the identifiers joined by dots, and splitting that name at the dots gives the identifiers back. |
| ModelParser.ExtractStringValue | odoo/odoo_model_inspector/parsers/model_parser.py:273-287 | There is a value exactly for a string constant, and the expression is then the literal spelling that value, so a value comes only from its own literal. |
| ModelParser.StringLiteralRoundTrip | odoo/odoo_model_inspector/parsers/model_parser.py:273-287 | Writing any string as a literal and extracting it gives the string back; a non-string constant or a name gives nothing. |
| ModelParser.ExtractInheritValue | odoo/odoo_model_inspector/parsers/model_parser.py:289-313 | A constant gives exactly `[s]` for a non-empty string `s` and nothing otherwise. A list gives its non-empty string elements: each name as often as its literal occurs. Anything else (a tuple, a name) gives nothing. Every name is non-empty. |
| ModelParser.NonEmptyStringsAppend | odoo/odoo_model_inspector/parsers/model_parser.py:305-311 | The names of a concatenation of list elements are the names of each part, so the list order is kept. |
| ModelParser.NonEmptyStringsSingle | odoo/odoo_model_inspector/parsers/model_parser.py:305-311 | A one-element list gives its element exactly when it is a non-empty string literal; with the concatenation rule this fixes the result. |
| ModelParser.InheritListRoundTrip | odoo/odoo_model_inspector/parsers/model_parser.py:305-311 | A list display of non-empty names is read back as exactly those names, order and duplicates included. |
| ModelParser.RequiredParamSpec | odoo/odoo_model_inspector/parsers/model_parser.py:252-271 | A field is required exactly when the first `required=` keyword with a constant value exists and that value is truthy. It is not required when there is no such keyword; a non-constant `required=` is passed over. |
| ModelParser.FirstContained | odoo/odoo_model_inspector/parsers/model_parser.py:235-242 | The type picked is a listed type that occurs in the callee name. None is picked exactly when no listed type occurs in it. |
| ModelParser.ExtractFieldInfo | odoo/odoo_model_inspector/parsers/model_parser.py:217-250 | A field is recorded exactly when the call has a non-empty dotted callee that contains some known field type. The recorded type is such a type (which one depends on the set's iteration order). Its `required` flag is the one the keywords decide. |
| ModelParser.HasSuperCallSpec | odoo/odoo_model_inspector/parsers/model_parser.py:183-198 | `has_super` holds exactly when some call anywhere in the function's subtree (decorators, defaults, nested definitions included) resolves to the name `super`. |
| ModelParser.AssignmentHeader | odoo/odoo_model_inspector/parsers/model_parser.py:140-162 | An assignment keeps the record's module, file, line and methods. It sets `is_base` exactly when `_name` is one of its plain-name targets, whatever the value. |
| ModelParser.AssignmentFields | odoo/odoo_model_inspector/parsers/model_parser.py:158-162 | An assignment records field `f` exactly when `f` is a plain-name target other than `_name` and `_inherit` and the value is a call the field extractor accepts. The field gets that info. Every other field is kept unchanged. |
| ModelParser.AssignmentNames | odoo/odoo_model_inspector/parsers/model_parser.py:140-156 | `inherits` becomes the extracted `_inherit` value exactly when `_inherit` is a target, and is kept otherwise. With only `_name` as target the name becomes the extracted string. With only `_inherit`, a missing name becomes the head of a non-empty value and an existing one is kept. A non-empty string literal assigned to `_name` always becomes the name. |
| ModelParser.ParseBodyHeader | odoo/odoo_model_inspector/parsers/model_parser.py:120-124 | Scanning a class body keeps the location. It sets `is_base` exactly when some statement assigns `_name`. |
| ModelParser.ParseBodyFields | odoo/odoo_model_inspector/parsers/model_parser.py:120-124 | Scanning a class body records exactly the fields some statement declares, plus those already present. Each declared field has the info of its last declaration. Undeclared fields are kept. |
| ModelParser.ParseBodyMethods | odoo/odoo_model_inspector/parsers/model_parser.py:164-181 | Scanning a class body records exactly the non-dunder methods it defines. Each gets the `has_super` flag of its last definition; methods not redefined keep their flag. |
| ModelParser.ParseBodyNames | odoo/odoo_model_inspector/parsers/model_parser.py:120-124 | `inherits` is the value of the last `_inherit` assignment, unchanged when there is none. The name is the last `_name` literal when it is a non-empty string. When that last `_name` value is unusable, the name is its extracted value, or the head of the next non-empty `_inherit` value after it. Without `_name`, the name is kept if present, else the head of the first non-empty `_inherit` value. |
| ModelParser.ParseClassNames | odoo/odoo_model_inspector/parsers/model_parser.py:90-156 | Only a model class gives a record, and it has a name or a non-empty `inherits`. The last `_inherit` assignment with a non-empty value gives a record with that `inherits`. The last `_name` assignment of a non-empty literal gives a record with that name. A model class assigning only `_name` gives a record exactly when the last `_name` is a non-empty literal. One assigning only `_inherit` gives a record exactly when some `_inherit` value is non-empty, named after the first such value's head. |
| ModelParser.ParseClassContents | odoo/odoo_model_inspector/parsers/model_parser.py:90-130 | A record carries the module, file and class line. `is_base` holds exactly when the body assigns `_name`. The fields are exactly those the body declares, each with its last declaration's info. The methods are exactly the non-dunder ones defined, each with its last definition's `has_super`. |
| ModelParser.ParseFile | odoo/odoo_model_inspector/parsers/model_parser.py:54-88 | Every record of a file belongs to the file and the module, and has a model name or a non-empty `inherits`. An unparsable file gives no record. A parsed file gives exactly the records of its model classes. |
| ModelParser.ParseClassesComplete | odoo/odoo_model_inspector/parsers/model_parser.py:78-82 | A record is in the file's list exactly when some class of the file gives it. |
| ModelParser.ParseClassesAppend | odoo/odoo_model_inspector/parsers/model_parser.py:78-82 | The records of a concatenation of class lists are those of each part, so they come in class order. |
| ModelParser.FilterModels | odoo/odoo_model_inspector/parsers/model_parser.py:359-361 | The filter keeps exactly the records named after the target or inheriting it, and everything when the target is empty. |
| ModelParser.FindModelsComplete | odoo/odoo_model_inspector/parsers/model_parser.py:334-365 | Every record found in a module belongs to that module and passes the filter. A record is found exactly when some file whose name does not start with `__` holds it and it passes the filter. |
| ModelParser.FindModelsAppend | odoo/odoo_model_inspector/parsers/model_parser.py:353-363 | The records found in a concatenation of file lists are those of each part, so they come in file order. |
| ManifestParser.PutLookup | odoo/odoo_model_inspector/parsers/manifest_parser.py:110 | After `d[k] = v`, looking up a key equal to `k` gives `v`. Every other key keeps its value (with Python's `1 == True` key equality). |
| ManifestParser.PutKeepsDistinct | odoo/odoo_model_inspector/parsers/manifest_parser.py:110 | Assigning a key keeps the keys of a dict pairwise distinct. |
| ManifestParser.ExtractValue | odoo/odoo_model_inspector/parsers/manifest_parser.py:114-137 | A constant maps to itself. A list maps to a list of the same length, and a dict display to a dict with no more entries. Every other expression maps to None. |
| ManifestParser.ExtractDictLookup | odoo/odoo_model_inspector/parsers/manifest_parser.py:85-112 | Looking a key up in the extracted dict gives the value of the last display entry with an equal constant key. `**` entries and non-constant keys are skipped. |
| ManifestParser.ExtractDictDistinct | odoo/odoo_model_inspector/parsers/manifest_parser.py:85-112 | The extracted dict never holds two equal keys. |
| ManifestParser.FindModulePath | odoo/odoo_model_inspector/parsers/manifest_parser.py:24-40 | The answer is the first root, in list order, whose child of that name is a directory with a manifest. There is no answer exactly when no root has one. |
| ManifestParser.ParseManifest | odoo/odoo_model_inspector/parsers/manifest_parser.py:42-83 | A manifest is the dict of its first dict display. It is the empty dict when the file cannot be read or holds no dict. Its keys are distinct. |
| ManifestParser.TruthyStringsCount | odoo/odoo_model_inspector/parsers/manifest_parser.py:157 | Filtering the `depends` list keeps every non-empty string exactly as often as it occurs. |
| ManifestParser.TruthyStringsAppend | odoo/odoo_model_inspector/parsers/manifest_parser.py:157 | The filtered entries of a concatenation are those of each part, so list order is kept. |
| ManifestParser.TruthyStringsSingle | odoo/odoo_model_inspector/parsers/manifest_parser.py:157 | A one-element list keeps its element exactly when it is a non-empty string; with the concatenation rule this fixes the result. |
| ManifestParser.TruthyStringKeysAppend | odoo/odoo_model_inspector/parsers/manifest_parser.py:157 | Iterating a dict value keeps its non-empty string keys in dict order, part by part. |
| ManifestParser.FilterDepends | odoo/odoo_model_inspector/parsers/manifest_parser.py:154-157 | Iterating `depends` fails exactly for a non-string constant (TypeError). A list gives its filtered entries, whose order, repeats and contents TruthyStringsAppend, TruthyStringsSingle and TruthyStringsCount fix: the non-empty strings, in list order. A dict gives its non-empty string keys in order (TruthyStringKeys). A string gives its one-character strings, one per character. |
| ManifestParser.GetDependencies | odoo/odoo_model_inspector/parsers/manifest_parser.py:139-157 | A module no root holds has no dependencies. Otherwise the answer is the filtered `depends` entry of its manifest (non-empty strings in list order, as the filter rows state), `[]` when the entry is missing. |
| ManifestParser.DependsListRoundTrip | odoo/odoo_model_inspector/parsers/manifest_parser.py:124-157 | A `depends` list display of non-empty names is read back as exactly those names, in order. |
| ManifestParser.DependsFromManifest | odoo/odoo_model_inspector/parsers/manifest_parser.py:139-157 | A module whose manifest is `{'depends': [names]}` has exactly `names` as dependencies. |
| ManifestParser.GetModuleInfo | odoo/odoo_model_inspector/parsers/manifest_parser.py:189-210 | There is no information exactly for a module no root holds. Otherwise `name` defaults to the module name, `version` to `'unknown'` and `depends` to `[]`. Each present manifest value is passed through, and the path is the module directory. |
| RecursiveDeps.From | odoo/odoo_model_inspector/parsers/manifest_parser.py:159-187 | The visited set only grows and then holds the module. A visited module gives `[]` and changes nothing. An unvisited one gives a list that starts with its direct dependencies in manifest order. |
| RecursiveDeps.Loop | odoo/odoo_model_inspector/parsers/manifest_parser.py:181-185 | The loop over the direct dependencies only appends to the list built so far and visits every dependency. |
| RecursiveDeps.FromCovers | odoo/odoo_model_inspector/parsers/manifest_parser.py:176-185 | Every listed module has been visited. Every module the call newly visits has all its direct dependencies listed. |
| RecursiveDeps.FromSound | odoo/odoo_model_inspector/parsers/manifest_parser.py:176-185 | Every listed module is reachable from the start along depends edges. |
| RecursiveDeps.ClosureIsReachable | odoo/odoo_model_inspector/parsers/manifest_parser.py:159-187 | The closure holds exactly the modules reachable by at least one depends edge. This includes the start module when it lies on a cycle. |
| RecursiveDeps.ClosureNoDup | odoo/odoo_model_inspector/parsers/manifest_parser.py:179-185 | The closure has no duplicates when no `depends` list has any. |
| RecursiveDeps.DuplicateDependsSurvive | odoo/odoo_model_inspector/parsers/manifest_parser.py:179 | A `depends` list naming a module twice gives a closure naming it twice. |
| RecursiveDeps.SelfLoopClosure | odoo/odoo_model_inspector/parsers/manifest_parser.py:173-176 | A module depending on itself ends, with itself as its closure. |
| RecursiveDeps.MutualClosure | odoo/odoo_model_inspector/parsers/manifest_parser.py:173-185 | Two mutually dependent modules end; the closure of `p` is `[q, p]`. |
| TopoSort.InDegrees | odoo/odoo_model_inspector/parsers/dependency_resolver.py:194-198 | Every node gets an in-degree. It is 0 exactly when no node lists it as a dependency. |
| TopoSort.ZeroIn | odoo/odoo_model_inspector/parsers/dependency_resolver.py:201 | The initial queue holds exactly the nodes with in-degree 0, without duplicates. |
| TopoSort.Least | odoo/odoo_model_inspector/parsers/dependency_resolver.py:206-207 | Sorting the queue and popping the front takes the least name in code-point order. |
| TopoSort.KahnLoopDrains | odoo/odoo_model_inspector/parsers/dependency_resolver.py:204-215 | The loop never releases a node, so it only drains the initial queue in ascending name order. |
| TopoSort.TopologicalSort | odoo/odoo_model_inspector/parsers/dependency_resolver.py:183-223 | The answer lists exactly the nodes nobody depends on, once each, in descending name order. The warning fires exactly when some node has a dependent. |
| TopoSort.TopoSortCharacterised | odoo/odoo_model_inspector/parsers/dependency_resolver.py:183-223 | Any descending list of the nodes without dependents is the sort's answer. |
| DependencyResolver.SearchModules | odoo/odoo_model_inspector/parsers/dependency_resolver.py:116-122 | With a non-empty context module, the search list is its recursive dependencies followed by itself. Otherwise it is every discovered module. |
| DependencyResolver.FirstNamed | odoo/odoo_model_inspector/parsers/dependency_resolver.py:133-136 | A module contributes the first of its records whose model name is the target, and nothing when none has it. |
| DependencyResolver.FindModulesWithModel | odoo/odoo_model_inspector/parsers/dependency_resolver.py:102-138 | There is at most one entry per module, each that module's first record named after the target. Entries exist for exactly the searched modules that have such a record. The entries come in order of first occurrence in the search list, which fixes the base module and the order of leftovers. |
| DependencyResolver.CollectOrder | odoo/odoo_model_inspector/parsers/dependency_resolver.py:125-136 | The dict's keys are the modules already present followed by each new contributing module at its first occurrence in the search list. |
| DependencyResolver.BuildDependencyGraph | odoo/odoo_model_inspector/parsers/dependency_resolver.py:163-181 | The graph has exactly the contributors as keys. Each key lists its manifest dependencies that are contributors, as a subsequence of the manifest list and each as often as the manifest lists it. |
| Seqs.KeepMembersUnique | odoo/odoo_model_inspector/parsers/dependency_resolver.py:175-179 | A subsequence of a list that holds each kept element as often as the list does is the filtered list itself, so the adjacency lists are determined by these properties. |
| Seqs.KeepMembersCount | odoo/odoo_model_inspector/parsers/dependency_resolver.py:175-179 | Filtering keeps each member of the key set exactly as often as it occurs and drops everything else. |
| Seqs.KeepMembersAppend | odoo/odoo_model_inspector/parsers/dependency_resolver.py:175-179 | Filtering a concatenation filters each part, so the order is kept. |
| DependencyResolver.BaseModule | odoo/odoo_model_inspector/parsers/dependency_resolver.py:62-66 | The base module is the first contributor, in discovery order, whose record assigns `_name`. There is none exactly when no record does. |
| DependencyResolver.MoveToFront | odoo/odoo_model_inspector/parsers/dependency_resolver.py:76-80 | Removing the base and inserting it at position 0 puts it first. The other elements are kept, in their original order, and no duplicate is introduced. |
| DependencyResolver.Front | odoo/odoo_model_inspector/parsers/dependency_resolver.py:74-80 | After step 5 the list has no duplicates, holds only contributors, and keeps every sorted module. With a non-empty base module it starts with the base, followed by the sorted modules in sorted order. Without one it is the sorted list unchanged. |
| DependencyResolver.ChainOrderIsPermutation | odoo/odoo_model_inspector/parsers/dependency_resolver.py:74-85 | After the leftovers are appended, every contributor is listed exactly once, the base module first. The step-5 list is an unchanged prefix, and the leftovers follow in dict order. |
| Seqs.AppendNewOrder | odoo/odoo_model_inspector/parsers/dependency_resolver.py:83-85 | The elements the loop appends come in the order they have in the iterated list. |
| DependencyResolver.MakeNodes | odoo/odoo_model_inspector/parsers/dependency_resolver.py:87-98 | Node `i` belongs to the `i`-th module of the order, is numbered `i + 1` and carries that module's record. Its `depends_on` is a subsequence of its manifest dependencies holding each contributor exactly as often as the manifest lists it, and nothing else. |
| DependencyResolver.BuildChain | odoo/odoo_model_inspector/parsers/dependency_resolver.py:58-100 | The chain is empty exactly when there are no contributors, and has one node per contributor. Nodes are numbered 1..n, each carrying a contributor's record. Its `depends_on` is a subsequence of the manifest dependencies holding each contributor as often as the manifest lists it. |
| DependencyResolver.BuildChainIsPermutation | odoo/odoo_model_inspector/parsers/dependency_resolver.py:74-98 | The chain's modules are a permutation of the contributors. |
| DependencyResolver.BuildChainBaseFirst | odoo/odoo_model_inspector/parsers/dependency_resolver.py:62-91 | When some contributor assigns `_name`, the first such contributor's record is node 1. |
| DependencyResolver.BuildInheritanceChain | odoo/odoo_model_inspector/parsers/dependency_resolver.py:44-100 | Every node's record is named after the target and is its module's first such record. The chain lists each searched module that has one, exactly once. |
| DependencyResolver.FindBaseDefinition | odoo/odoo_model_inspector/parsers/dependency_resolver.py:225-248 | The answer is a `_name` record of the target, from the first discovered module that has one. There is none exactly when no module has one. |
| DependencyResolver.ChainOfThreeIsNotDependencyOrder | odoo/odoo_model_inspector/parsers/dependency_resolver.py:44-100 | For base `a`, `b` depending on `a` and `c` depending on `b`, the chain is `[a, c, b]`: a node precedes one of its own dependencies. The circular warning fires on this acyclic graph. |
| MarkdownFormatter.TotalFields | odoo/odoo_model_inspector/formatters/markdown_formatter.py:39 | The total is 0 exactly when no node has fields, and no node has more fields than the total. Its value, the sum of the per-node field counts, is fixed by TotalFieldsAppend with TotalFieldsSingle. |
| MarkdownFormatter.TotalFieldsAppend | odoo/odoo_model_inspector/formatters/markdown_formatter.py:39 | The total of a chain is the sum of the totals of its parts. |
| MarkdownFormatter.TotalFieldsSingle | odoo/odoo_model_inspector/formatters/markdown_formatter.py:39 | A one-node chain totals that node's field count; with the concatenation rule, the total is the sum of the per-node field counts. |
| MarkdownFormatter.TreeLine | odoo/odoo_model_inspector/formatters/markdown_formatter.py:156-175 | The first line starts with the module and " (BASE) - ", whether or not the node is a base definition. Line `i > 0` starts with `2(i-1)` spaces, the arrow and the module. A line ends in " [CURRENT]" exactly when it is the last, not the first, and its module is the context module; it then ends in the field count followed by " fields [CURRENT]", and otherwise with the field count and " fields". Its length is that of the head, the count text and the marker, so nothing else is in it. |
| MarkdownFormatter.ChainTree | odoo/odoo_model_inspector/formatters/markdown_formatter.py:144-175 | The tree has exactly one line per node and nothing for an empty chain. Line `i` is the tree line of node `i`. |
| MarkdownFormatter.TreeLineDepth | odoo/odoo_model_inspector/formatters/markdown_formatter.py:166-172 | The line of position `i > 0` starts with exactly `2(i-1)` spaces. |
| MarkdownFormatter.FirstDefiners | odoo/odoo_model_inspector/formatters/markdown_formatter.py:192-196 | Each method defined by some node is mapped to the module of the first node that defines it. Entries already present are kept. |
| MarkdownFormatter.ParentMethods | odoo/odoo_model_inspector/formatters/markdown_formatter.py:178-198 | The map holds exactly the methods of the nodes before position `current_order - 1` (a Python slice), each with its first definer. |
| MarkdownFormatter.ParentMethodsAreEarlier | odoo/odoo_model_inspector/formatters/markdown_formatter.py:191-196 | For node `k` of a numbered chain, every reported method is defined at an earlier position by the module named. That is the earliest such position. |
| MarkdownFormatter.ParentMethodsNotClosest | odoo/odoo_model_inspector/formatters/markdown_formatter.py:193-196 | Suppose two earlier nodes of distinct modules define a method. The later, closer one is never reported. |
| MarkdownFormatter.NodeHeader | odoo/odoo_model_inspector/formatters/markdown_formatter.py:69-74 | The header starts with `### {order}. {module}`. It is tagged as the base definition exactly for a base record, and as the current context exactly for a non-base record of the (non-empty) context module. |
| MarkdownFormatter.FieldLine | odoo/odoo_model_inspector/formatters/markdown_formatter.py:92-95 | A field line starts with the name and type, and ends in " [required]" for a required field and with the type otherwise. Its length is that of the name-and-type head plus the marker, so nothing else is in it. |
| MarkdownFormatter.MethodLine | odoo/odoo_model_inspector/formatters/markdown_formatter.py:114-119 | A method line starts with the quoted name. It ends in "[super from M]" exactly when the method calls `super()` and an earlier node defines it, M being that node's module. Its length is that of the quoted name plus that marker, so a plain line is the quoted name alone. |
| MarkdownFormatter.FieldLines | odoo/odoo_model_inspector/formatters/markdown_formatter.py:84-103 | A module without fields gets the "no fields" note. Otherwise there is a heading with the action and count, then one line per field in ascending name order. |
| MarkdownFormatter.MethodLines | odoo/odoo_model_inspector/formatters/markdown_formatter.py:105-121 | A module without methods gets nothing. Otherwise there is a heading with the action and count, then one line per method in ascending name order. |
| Strings.SortedElemsAscending | odoo/odoo_model_inspector/formatters/markdown_formatter.py:90 | `sorted` lists the names in strictly ascending code-point order. |
| IconMaker.Initials | odoo/odoo_icon_maker/scripts/make_icon.py:643-648 | Initials are never empty and at most two characters. |
| IconMaker.HeadsOfSplit | odoo/odoo_icon_maker/scripts/make_icon.py:646-647 | The first characters of the non-empty `_`-separated parts are the characters that start a run of non-underscores. |
| IconMaker.InitialsAreRunStarts | odoo/odoo_icon_maker/scripts/make_icon.py:643-648 | The initials are the upper-cased starts of the first two runs of non-underscores, or "OD" when there are none. |
| IconMaker.InitialsFallback | odoo/odoo_icon_maker/scripts/make_icon.py:648 | A name made only of underscores (the empty name included) gets "OD". |
| IconMaker.ParseHexPair | odoo/odoo_icon_maker/scripts/make_icon.py:653 | Two hexadecimal digits parse with `int(x, 16)` to their value, in 0..255. |
| IconMaker.StripLeading | odoo/odoo_icon_maker/scripts/make_icon.py:652 | `lstrip('#')` removes a prefix made only of `#` and leaves a text not starting with `#`. |
| IconMaker.Components | odoo/odoo_icon_maker/scripts/make_icon.py:653 | The tuple exists exactly when all three conversions succeed. The first failing one is the error raised. |
| IconMaker.HexToRgb | odoo/odoo_icon_maker/scripts/make_icon.py:650-653 | A colour with at most four characters after the `#`s raises ValueError. |
| IconMaker.HexToRgbInRange | odoo/odoo_icon_maker/scripts/make_icon.py:650-653 | Six hexadecimal digits after the `#`s give a colour with every component in 0..255, whatever follows them. |
| IconMaker.HexRoundTrip | odoo/odoo_icon_maker/scripts/make_icon.py:650-653 | A colour written as `#rrggbb` (followed by any text) reads back as itself. |
| IconMaker.HexToRgbIgnoresHash | odoo/odoo_icon_maker/scripts/make_icon.py:652 | A leading `#` changes nothing. |
| IconMaker.Fired | odoo/odoo_icon_maker/scripts/make_icon.py:127-176 | The primitives chosen are those whose rule has a keyword occurring in the text, in rule order. Each is chosen once when the rule names are distinct. |
| IconMaker.SelectPrimitives | odoo/odoo_icon_maker/scripts/make_icon.py:122-176 | The primitives follow the canonical order without duplicates. Each is chosen exactly when one of its keywords occurs in the lower-cased description. |
| IconMaker.CategoryBackground | odoo/odoo_icon_maker/scripts/make_icon.py:189-218 | The first category with a keyword in the description gives the colours. With no match the default ((52,152,219),(41,128,185)) is used. |
| IconMaker.BackgroundColors | odoo/odoo_icon_maker/scripts/make_icon.py:184-218 | With fewer than two user colours, the description decides. With two or more, the first two are converted: this succeeds exactly when both convert, and the first failure is raised. |
| IconMaker.UserColorsRoundTrip | odoo/odoo_icon_maker/scripts/make_icon.py:186-187 | Two colours given as `#rrggbb` come back unchanged as the background, whatever else is given. |
| IconMaker.SmartIcon | odoo/odoo_icon_maker/scripts/make_icon.py:122-182 | The plan exists exactly when the background can be chosen. It holds the primitives of the description and the background chosen from the lower-cased description. |
| IconMaker.SmartIconIgnoresCase | odoo/odoo_icon_maker/scripts/make_icon.py:125 | The plan does not depend on the case of the description. |

## Left out

- Reading files, `ast.parse`, `rglob`/`iterdir`/`exists` and directory discovery are left out. `_get_all_modules` becomes the given module list. The model sources of each located module, each file's parsed classes and each manifest's first dict display are given as inputs. The model cannot see these system calls.
- `ast.walk` ordering is left out. A file's class definitions and a manifest's first dict display are inputs in walk order; the `super` search is stated over the set of subtree nodes.
- The memoisation caches of both parsers are left out: they are read-through and change no answer.
- Printed warnings and errors are left out. The circular-dependency warning is a boolean in the sort's answer.
- `format_inheritance_chain`'s assembly of the whole document is left out: the header and summary text, the base-definition and documentation sections, and the final `"\n".join`. Only its list rules are modelled (field total, tree, per-node header, field and method lines).
- The old string format of field entries is left out: the extractor always records the dict form.
- Python's full Unicode `lower()`/`upper()` and the Unicode whitespace of `strip()` are left out. Case mapping covers ASCII letters only, and whitespace covers the ASCII characters Python treats as such.
- `int(x, 16)` is modelled for signs, the `0x` prefix, ASCII hexadecimal digits and single underscores. Unicode digits are left out.
- Float, bytes and `...` constants are left out of the constant datatype.
- In `make_icon.py`, all drawing (`_compose_icon`, the primitives, the gradient), the manifest and menu rewrites, and `_find_module` are left out: they are image I/O, floats and regular expressions. `colors or []` is modelled by passing the list, `None` being `[]`.
- ModelParser.ExtractFieldInfo: the type chosen when several known types occur in the name depends on Python's set-iteration order. It is a parameter (`fieldOrder`, any order of the set), so the contract only says the type is one that occurs.
- ManifestParser.FilterDepends: non-string truthy list entries (numbers, non-empty lists) are dropped instead of kept, because the answer is a list of module names. The same holds for the non-string keys of a dict value.
- ManifestParser.ExtractValue: the contract gives the shape and lengths of converted lists and dicts. The per-key meaning of a dict is stated separately by ManifestParser.ExtractDictLookup.
- ManifestParser.GetModuleInfo: the path is the root path joined to the module name with `/`; `pathlib` normalisation is left out.
- IconMaker.Initials: at most two characters holds because upper-casing is ASCII-only; Python's `upper()` can lengthen some non-ASCII letters.
- DependencyResolver.FindModulesWithModel: a module searched twice (the context module on its own dependency cycle) is looked up once. Re-assigning the same record in Python changes neither the value nor the key order.
- Python version: the model follows the `ast` of Python 3.8 to 3.13. The fallbacks to `ast.Str`, `ast.Num` and `ast.NameConstant` (manifest_parser.py:104,126,128,134 and model_parser.py:268,285,300) never change the outcome there, because string, number and constant literals are all `ast.Constant` and the `ast.Constant` test comes first. Python 3.14 removed these names, so evaluating such a test raises AttributeError; that is not modelled.
- ModelParser.ParseFile: an exception raised partway through the class walk keeps the records collected before it (model_parser.py:71-87). The modelled class parser never raises, so the model has only the whole-file outcomes: every record, or none for a file that cannot be read or parsed.
- DependencyResolver.BuildInheritanceChain: `get_dependencies` raises TypeError when a manifest's `depends` entry is a non-iterable constant (ManifestParser.FilterDepends models that error). The resolver instead takes every module's answer as a given list (`Workspace.deps`), so the exception escaping `_build_dependency_graph` and the recursive closure is not modelled.
- ModelParser.AssignmentNames: take one assignment with both `_name` and `_inherit` as targets (`_name = _inherit = value`) whose value is not a non-empty string literal. The resulting name depends on the order of the two targets, and the contract only says where the name comes from: the old name, the extracted string, or the head of the `_inherit` value.
- ModelParser.ParseClassNames: whether a record exists is stated as an if-and-only-if only for classes that assign just one of `_name` and `_inherit`. For classes assigning both, the contract gives the two sufficient conditions (a usable last `_name` literal, a non-empty last `_inherit` value) and the soundness clause.

=== FILE: dependency_resolver.dfy ===
/** The inheritance-chain builder of the model inspector
    (parsers/dependency_resolver.py): finds the modules whose models
    declare a target model name, restricts the manifest dependency graph
    to them, orders them with the as-written topological sort, forces
    the base definition to the front and numbers the nodes. */
module DependencyResolver {
  import opened Wrappers
  import opened Seqs
  import opened Strings
  import opened ModelParser
  import opened RecursiveDeps
  import opened TopoSort

  /** What the resolver sees of the addon roots: the module directories
      in discovery order (`_get_all_modules`), the model source files of
      every module `find_module_path` finds, the `get_dependencies`
      answer of every module, and the iteration order of FIELD_TYPES. */
  datatype Workspace = Workspace(
    allModules: seq<string>,
    located: map<string, seq<SourceFile>>,
    deps: DepsMap,
    fieldOrder: seq<string>)

  // ---------------------------------------------------------------------
  // Contributors (_find_modules_with_model)
  // ---------------------------------------------------------------------

  /** One entry of the `modules_with_model` dict. */
  datatype Contributor = Contributor(moduleName: string, info: ModelInfo)

  /** The dict's keys, in insertion order. */
  function Keys(cs: seq<Contributor>): (r: seq<string>)
    ensures |r| == |cs|
    ensures forall i :: 0 <= i < |cs| ==> r[i] == cs[i].moduleName
  {
    seq(|cs|, i requires 0 <= i < |cs| => cs[i].moduleName)
  }

  /** The modules searched: the context module's recursive dependencies
      followed by the context module itself, or every module when no
      (non-empty) context module is given. */
  function SearchModules(ws: Workspace, ctx: Option<string>): (r: seq<string>)
    ensures ctx.Some? && ctx.value != "" ==>
              |r| >= 1 && r[|r| - 1] == ctx.value && r[..|r| - 1] == AllDependencies(ws.deps, ctx.value)
    ensures ctx.None? || ctx.value == "" ==> r == ws.allModules
  {
    if ctx.Some? && ctx.value != "" then AllDependencies(ws.deps, ctx.value) + [ctx.value]
    else ws.allModules
  }

  /** The first record whose model name is the target. */
  function FirstNamed(models: seq<ModelInfo>, target: string): (r: Option<ModelInfo>)
    ensures r.Some? ==> r.value in models && r.value.modelName == Some(target)
    ensures r.None? <==> forall m :: m in models ==> m.modelName != Some(target)
    ensures r.Some? ==> exists i :: 0 <= i < |models| && models[i] == r.value &&
                          forall j :: 0 <= j < i ==> models[j].modelName != Some(target)
    decreases |models|
  {
    if models == [] then None
    else if models[0].modelName == Some(target) then Some(models[0])
    else
      var r := FirstNamed(models[1..], target);
      assert forall m :: m in models ==> m == models[0] || m in models[1..];
      assert r.Some? ==> exists i :: 0 <= i < |models| && models[i] == r.value &&
                           forall j :: 0 <= j < i ==> models[j].modelName != Some(target) by {
        if r.Some? {
          var i :| 0 <= i < |models[1..]| && models[1..][i] == r.value &&
                   forall j :: 0 <= j < i ==> models[1..][j].modelName != Some(target);
          assert models[i + 1] == r.value;
          forall j | 0 <= j < i + 1 ensures models[j].modelName != Some(target) {
            if j > 0 { assert models[j] == models[1..][j - 1]; }
          }
        }
      }
      r
  }

  /** The record a module contributes: the first model found in it
      whose model name is the target, if the module can be located. */
  function ModuleRecord(ws: Workspace, m: string, target: string): (r: Option<ModelInfo>)
    requires IsIterationOrder(ws.fieldOrder)
    ensures r.Some? ==> m in ws.located && r.value.modelName == Some(target) && r.value.moduleName == m
  {
    if m !in ws.located then None
    else FirstNamed(FindModelsInModule(ws.located[m], m, target, ws.fieldOrder), target)
  }

  /** Appending an entry appends its module to the keys. */
  lemma KeysSnoc(cs: seq<Contributor>, c: Contributor)
    ensures Keys(cs + [c]) == Keys(cs) + [c.moduleName]
  {
  }

  /** Every entry is what its module contributes. */
  predicate Faithful(ws: Workspace, cs: seq<Contributor>, target: string)
    requires IsIterationOrder(ws.fieldOrder)
  {
    forall c :: c in cs ==> ModuleRecord(ws, c.moduleName, target) == Some(c.info)
  }

  /** The search loop of `_find_modules_with_model`, from the dict
      `acc` built so far. `result[m] = info` for a module already in the
      dict stores the record it already holds (a module's record does
      not depend on when it is looked up), so only new modules change
      the dict. */
  function Collect(ws: Workspace, ms: seq<string>, target: string, acc: seq<Contributor>): (r: seq<Contributor>)
    requires IsIterationOrder(ws.fieldOrder)
    requires NoDup(Keys(acc)) && Faithful(ws, acc, target)
    ensures NoDup(Keys(r)) && Faithful(ws, r, target)
    ensures forall m :: m in Keys(r) <==> m in Keys(acc) || (m in ms && ModuleRecord(ws, m, target).Some?)
    decreases |ms|
  {
    if ms == [] then acc
    else
      var rec := ModuleRecord(ws, ms[0], target);
      if rec.Some? && ms[0] !in Keys(acc) then
        var c := Contributor(ms[0], rec.value);
        KeysSnoc(acc, c);
        assert forall m :: m in ms <==> m == ms[0] || m in ms[1..];
        Collect(ws, ms[1..], target, acc + [c])
      else
        assert forall m :: m in ms <==> m == ms[0] || m in ms[1..];
        Collect(ws, ms[1..], target, acc)
  }

  /** The searched modules that contribute a record, in search order,
      repeats kept. */
  function WithRecord(ws: Workspace, ms: seq<string>, target: string): (r: seq<string>)
    requires IsIterationOrder(ws.fieldOrder)
    ensures forall m :: m in r <==> m in ms && ModuleRecord(ws, m, target).Some?
    decreases |ms|
  {
    if ms == [] then []
    else
      assert forall m :: m in ms <==> m == ms[0] || m in ms[1..];
      (if ModuleRecord(ws, ms[0], target).Some? then [ms[0]] else []) + WithRecord(ws, ms[1..], target)
  }

  /** The dict's keys come in order of first insertion: the modules
      already present, then every new contributing module at its first
      occurrence in the search list. */
  lemma {:induction false} CollectOrder(ws: Workspace, ms: seq<string>, target: string, acc: seq<Contributor>)
    requires IsIterationOrder(ws.fieldOrder)
    requires NoDup(Keys(acc)) && Faithful(ws, acc, target)
    ensures Keys(Collect(ws, ms, target, acc)) == AppendNew(Keys(acc), WithRecord(ws, ms, target))
    decreases |ms|
  {
    if ms != [] {
      var rec := ModuleRecord(ws, ms[0], target);
      var rest := WithRecord(ws, ms[1..], target);
      if rec.Some? {
        assert WithRecord(ws, ms, target) == [ms[0]] + rest;
        assert ([ms[0]] + rest)[0] == ms[0] && ([ms[0]] + rest)[1..] == rest;
        if ms[0] in Keys(acc) {
          CollectOrder(ws, ms[1..], target, acc);
        } else {
          var c := Contributor(ms[0], rec.value);
          KeysSnoc(acc, c);
          CollectOrder(ws, ms[1..], target, acc + [c]);
        }
      } else {
        assert WithRecord(ws, ms, target) == rest;
        CollectOrder(ws, ms[1..], target, acc);
      }
    }
  }

  /** `_find_modules_with_model`: at most one entry per module, each the
      first record of that module whose model name is the target, for
      exactly the searched modules that have one. */
  function FindModulesWithModel(ws: Workspace, target: string, ctx: Option<string>): (r: seq<Contributor>)
    requires IsIterationOrder(ws.fieldOrder)
    ensures NoDup(Keys(r))
    ensures forall c :: c in r ==> ModuleRecord(ws, c.moduleName, target) == Some(c.info)
    ensures forall c :: c in r ==> c.info.modelName == Some(target) && c.info.moduleName == c.moduleName
    ensures forall m :: m in Keys(r) <==> m in SearchModules(ws, ctx) && ModuleRecord(ws, m, target).Some?
    ensures Keys(r) == AppendNew([], WithRecord(ws, SearchModules(ws, ctx), target))
  {
    CollectOrder(ws, SearchModules(ws, ctx), target, []);
    assert Keys([]) == [];
    Collect(ws, SearchModules(ws, ctx), target, [])
  }

  // ---------------------------------------------------------------------
  // The chain (build_inheritance_chain, _build_dependency_graph)
  // ---------------------------------------------------------------------

  /** Contributor entries as the chain builder relies on them: one per
      module, each record belonging to its module. */
  predicate Consistent(cs: seq<Contributor>) {
    NoDup(Keys(cs)) && forall c :: c in cs ==> c.info.moduleName == c.moduleName
  }

  /** `_build_dependency_graph`: every contributor, with its manifest
      dependencies restricted to contributors. */
  function BuildDependencyGraph(deps: DepsMap, cs: seq<Contributor>): (g: Graph)
    requires NoDup(Keys(cs))
    ensures WellFormed(g)
    ensures g.nodes == Keys(cs)
    ensures forall m, d :: m in g.adj && d in g.adj[m] ==> d in Keys(cs)
    ensures forall m :: m in g.adj ==> IsSubsequence(g.adj[m], Direct(deps, m))
    ensures forall m, d :: m in g.adj ==> (d in g.adj[m] <==> d in Direct(deps, m) && d in Keys(cs))
    ensures forall m, d :: m in g.adj ==>
              Count(g.adj[m], d) == if d in Keys(cs) then Count(Direct(deps, m), d) else 0
  {
    var names := Keys(cs);
    var g := Graph(names, map m | m in names :: KeepMembers(Direct(deps, m), Elems(names)));
    forall m | m in g.adj
      ensures IsSubsequence(g.adj[m], Direct(deps, m))
      ensures forall d :: Count(g.adj[m], d) == if d in names then Count(Direct(deps, m), d) else 0
    {
      KeepMembersIsSubsequence(Direct(deps, m), Elems(names));
      KeepMembersCount(Direct(deps, m), Elems(names));
    }
    g
  }

  /** The base module: the first contributor, in dict order, whose
      record assigns `_name`. */
  function BaseModule(cs: seq<Contributor>): (r: Option<string>)
    ensures r.Some? ==> exists i :: 0 <= i < |cs| && cs[i].moduleName == r.value && cs[i].info.isBase &&
                          forall j :: 0 <= j < i ==> !cs[j].info.isBase
    ensures r.None? <==> forall i :: 0 <= i < |cs| ==> !cs[i].info.isBase
    decreases |cs|
  {
    if cs == [] then None
    else if cs[0].info.isBase then Some(cs[0].moduleName)
    else
      var r := BaseModule(cs[1..]);
      assert forall i :: 1 <= i < |cs| ==> cs[i] == cs[1..][i - 1];
      r
  }

  /** The base module is one of the contributors. */
  lemma BaseModuleIsKey(cs: seq<Contributor>)
    requires BaseModule(cs).Some?
    ensures BaseModule(cs).value in Keys(cs)
  {
    var i :| 0 <= i < |cs| && cs[i].moduleName == BaseModule(cs).value && cs[i].info.isBase &&
             forall j :: 0 <= j < i ==> !cs[j].info.isBase;
    assert Keys(cs)[i] == cs[i].moduleName;
  }

  /** Step 4: the contributors in the order the sort returns. */
  function Sorted(deps: DepsMap, cs: seq<Contributor>): (r: seq<string>)
    requires NoDup(Keys(cs))
    ensures NoDup(r)
    ensures forall m :: m in r ==> m in Keys(cs)
  {
    TopologicalSort(BuildDependencyGraph(deps, cs)).order
  }

  /** Step 5: the sorted modules, with the base module moved to the
      front when there is a (non-empty) one. */
  function Front(deps: DepsMap, cs: seq<Contributor>): (r: seq<string>)
    requires NoDup(Keys(cs))
    ensures NoDup(r)
    ensures forall m :: m in r ==> m in Keys(cs)
    ensures BaseModule(cs).Some? && BaseModule(cs).value != "" ==> r != [] && r[0] == BaseModule(cs).value
    ensures forall m :: m in Sorted(deps, cs) ==> m in r
    ensures BaseModule(cs).Some? && BaseModule(cs).value != "" ==> IsSubsequence(r[1..], Sorted(deps, cs))
    ensures BaseModule(cs).None? || BaseModule(cs).value == "" ==> r == Sorted(deps, cs)
  {
    var base := BaseModule(cs);
    if base.Some? && base.value != "" then
      BaseModuleIsKey(cs);
      MoveToFront(Sorted(deps, cs), base.value)
    else Sorted(deps, cs)
  }

  /** `if b in s: s.remove(b)` followed by `s.insert(0, b)`. */
  function MoveToFront(s: seq<string>, b: string): (r: seq<string>)
    requires NoDup(s)
    ensures NoDup(r)
    ensures r != [] && r[0] == b
    ensures forall m :: m in r <==> m == b || m in s
    ensures IsSubsequence(r[1..], s)
  {
    var rest := if b in s then RemoveFirst(s, b) else s;
    NoDupCons(b, rest);
    SubsequenceRefl(s);
    assert ([b] + rest)[1..] == rest;
    [b] + rest
  }

  /** Step 6: every contributor the sort left out, appended in dict
      order. */
  function ChainOrder(deps: DepsMap, cs: seq<Contributor>): (r: seq<string>)
    requires NoDup(Keys(cs))
  {
    AppendNew(Front(deps, cs), Keys(cs))
  }

  /** The chain order lists every contributor exactly once, the base
      module (when there is a non-empty one) first. */
  lemma ChainOrderIsPermutation(deps: DepsMap, cs: seq<Contributor>)
    requires NoDup(Keys(cs))
    ensures NoDup(ChainOrder(deps, cs))
    ensures forall m :: m in ChainOrder(deps, cs) <==> m in Keys(cs)
    ensures |ChainOrder(deps, cs)| == |cs|
    ensures BaseModule(cs).Some? && BaseModule(cs).value != "" ==> ChainOrder(deps, cs)[0] == BaseModule(cs).value
    ensures ChainOrder(deps, cs)[..|Front(deps, cs)|] == Front(deps, cs)
    ensures IsSubsequence(ChainOrder(deps, cs)[|Front(deps, cs)|..], Keys(cs))
  {
    var front := Front(deps, cs);
    var r := ChainOrder(deps, cs);
    AppendNewOrder(front, Keys(cs));
    assert Elems(r) == Elems(Keys(cs));
    NoDupCard(r, Keys(cs));
    if BaseModule(cs).Some? && BaseModule(cs).value != "" {
      assert r[..|front|][0] == front[0];
    }
  }

  /** Two duplicate-free sequences with the same elements have the same
      length. */
  lemma {:induction false} NoDupCard<T(!new)>(a: seq<T>, b: seq<T>)
    requires NoDup(a) && NoDup(b) && Elems(a) == Elems(b)
    ensures |a| == |b|
  {
    NoDupElemsCard(a);
    NoDupElemsCard(b);
  }

  lemma {:induction false} NoDupElemsCard<T(!new)>(s: seq<T>)
    requires NoDup(s)
    ensures |Elems(s)| == |s|
    decreases |s|
  {
    if s != [] {
      NoDupElemsCard(s[1..]);
      assert Elems(s) == Elems(s[1..]) + {s[0]};
    }
  }

  /** `InheritanceNode`: a record, its 1-based position and its
      manifest dependencies among the contributors. */
  datatype Node = Node(info: ModelInfo, order: nat, dependsOn: seq<string>)

  /** `modules_with_model[m]`. */
  function InfoOf(cs: seq<Contributor>, m: string): (r: ModelInfo)
    requires m in Keys(cs)
    ensures Contributor(m, r) in cs
    decreases |cs|
  {
    if cs[0].moduleName == m then cs[0].info
    else
      assert Keys(cs)[1..] == Keys(cs[1..]);
      InfoOf(cs[1..], m)
  }

  /** The module of each chain node. */
  function Modules(chain: seq<Node>): (r: seq<string>)
    ensures |r| == |chain|
    ensures forall i :: 0 <= i < |chain| ==> r[i] == chain[i].info.moduleName
  {
    seq(|chain|, i requires 0 <= i < |chain| => chain[i].info.moduleName)
  }

  /** `[d for d in dependencies.get(m, []) if d in modules_with_model]`. */
  function DependsAmong(deps: DepsMap, names: seq<string>, m: string): (r: seq<string>)
    ensures forall d :: d in r <==> d in Direct(deps, m) && d in names
    ensures forall d :: Count(r, d) == if d in names then Count(Direct(deps, m), d) else 0
    ensures IsSubsequence(r, Direct(deps, m))
  {
    KeepMembersIsSubsequence(Direct(deps, m), Elems(names));
    KeepMembersCount(Direct(deps, m), Elems(names));
    KeepMembers(Direct(deps, m), Elems(names))
  }

  /** Step 7: one node per module of `order`, numbered from 1. */
  function MakeNodes(deps: DepsMap, cs: seq<Contributor>, order: seq<string>): (r: seq<Node>)
    requires Consistent(cs)
    requires forall m :: m in order ==> m in Keys(cs)
    ensures |r| == |order|
    ensures Modules(r) == order
    ensures forall i :: 0 <= i < |r| ==> r[i].order == i + 1
    ensures forall i :: 0 <= i < |r| ==> Contributor(r[i].info.moduleName, r[i].info) in cs
    ensures forall i, d :: 0 <= i < |r| ==>
              (d in r[i].dependsOn <==> d in Direct(deps, r[i].info.moduleName) && d in Keys(cs))
    ensures forall i, d :: 0 <= i < |r| ==>
              Count(r[i].dependsOn, d) == if d in Keys(cs) then Count(Direct(deps, r[i].info.moduleName), d) else 0
    ensures forall i :: 0 <= i < |r| ==> IsSubsequence(r[i].dependsOn, Direct(deps, r[i].info.moduleName))
  {
    var r := seq(|order|, i requires 0 <= i < |order| => MakeNode(deps, cs, order[i], i + 1));
    assert forall i :: 0 <= i < |order| ==> Modules(r)[i] == order[i];
    r
  }

  /** The node of module `m` at 1-based position `k`. */
  function MakeNode(deps: DepsMap, cs: seq<Contributor>, m: string, k: nat): (r: Node)
    requires Consistent(cs)
    requires m in Keys(cs)
    ensures r.info.moduleName == m && r.order == k
    ensures Contributor(m, r.info) in cs
    ensures forall d :: d in r.dependsOn <==> d in Direct(deps, m) && d in Keys(cs)
    ensures forall d :: Count(r.dependsOn, d) == if d in Keys(cs) then Count(Direct(deps, m), d) else 0
    ensures IsSubsequence(r.dependsOn, Direct(deps, m))
  {
    Node(InfoOf(cs, m), k, DependsAmong(deps, Keys(cs), m))
  }

  /** Steps 2 to 7 of `build_inheritance_chain`, from the contributors:
      every node is a contributor's record, numbered by position, with
      its manifest dependencies among the contributors. */
  function BuildChain(deps: DepsMap, cs: seq<Contributor>): (r: seq<Node>)
    requires Consistent(cs)
    ensures r == [] <==> cs == []
    ensures |r| == |cs|
    ensures forall i :: 0 <= i < |r| ==> r[i].order == i + 1
    ensures forall i :: 0 <= i < |r| ==> Contributor(r[i].info.moduleName, r[i].info) in cs
    ensures forall i, d :: 0 <= i < |r| ==>
              (d in r[i].dependsOn <==> d in Direct(deps, r[i].info.moduleName) && d in Keys(cs))
    ensures forall i, d :: 0 <= i < |r| ==>
              Count(r[i].dependsOn, d) == if d in Keys(cs) then Count(Direct(deps, r[i].info.moduleName), d) else 0
    ensures forall i :: 0 <= i < |r| ==> IsSubsequence(r[i].dependsOn, Direct(deps, r[i].info.moduleName))
  {
    if cs == [] then []
    else
      ChainOrderIsPermutation(deps, cs);
      MakeNodes(deps, cs, ChainOrder(deps, cs))
  }

  /** The chain lists the modules in the chain order. */
  lemma ChainModules(deps: DepsMap, cs: seq<Contributor>)
    requires Consistent(cs)
    ensures Modules(BuildChain(deps, cs)) == ChainOrder(deps, cs)
  {
    ChainOrderIsPermutation(deps, cs);
  }

  /** Every contributor appears in the chain exactly once. */
  lemma BuildChainIsPermutation(deps: DepsMap, cs: seq<Contributor>)
    requires Consistent(cs)
    ensures NoDup(Modules(BuildChain(deps, cs)))
    ensures forall m :: m in Modules(BuildChain(deps, cs)) <==> m in Keys(cs)
  {
    ChainModules(deps, cs);
    ChainOrderIsPermutation(deps, cs);
  }

  /** When some contributor assigns a non-empty `_name`, the first such
      contributor's record heads the chain. */
  lemma BuildChainBaseFirst(deps: DepsMap, cs: seq<Contributor>)
    requires Consistent(cs)
    requires BaseModule(cs).Some? && BaseModule(cs).value != ""
    ensures BuildChain(deps, cs) != []
    ensures BuildChain(deps, cs)[0].info.moduleName == BaseModule(cs).value
    ensures BuildChain(deps, cs)[0].info.isBase
  {
    var r := BuildChain(deps, cs);
    ChainModules(deps, cs);
    ChainOrderIsPermutation(deps, cs);
    var b := BaseModule(cs).value;
    var i :| 0 <= i < |cs| && cs[i].moduleName == b && cs[i].info.isBase &&
             forall j :: 0 <= j < i ==> !cs[j].info.isBase;
    assert Modules(r)[0] == b;
    KeysUnique(cs, i, Contributor(b, r[0].info));
  }

  /** Contributor entries are identified by their module. */
  lemma KeysUnique(cs: seq<Contributor>, i: int, c: Contributor)
    requires NoDup(Keys(cs)) && 0 <= i < |cs| && c in cs && c.moduleName == cs[i].moduleName
    ensures c == cs[i]
  {
    var j :| 0 <= j < |cs| && cs[j] == c;
    assert Keys(cs)[j] == Keys(cs)[i];
  }

  /** `build_inheritance_chain`. */
  function BuildInheritanceChain(ws: Workspace, target: string, ctx: Option<string>): (r: seq<Node>)
    requires IsIterationOrder(ws.fieldOrder)
    ensures forall i :: 0 <= i < |r| ==> r[i].info.modelName == Some(target)
    ensures forall i :: 0 <= i < |r| ==> r[i].info.moduleName in SearchModules(ws, ctx)
    ensures forall i :: 0 <= i < |r| ==>
              ModuleRecord(ws, r[i].info.moduleName, target) == Some(r[i].info)
    ensures forall m :: m in Modules(r) <==> m in SearchModules(ws, ctx) && ModuleRecord(ws, m, target).Some?
    ensures NoDup(Modules(r))
  {
    var cs := FindModulesWithModel(ws, target, ctx);
    ChainOfContributors(ws, target, ctx);
    BuildChain(ws.deps, cs)
  }

  /** The chain built from the contributors found for `target`. */
  lemma ChainOfContributors(ws: Workspace, target: string, ctx: Option<string>)
    requires IsIterationOrder(ws.fieldOrder)
    ensures var r := BuildChain(ws.deps, FindModulesWithModel(ws, target, ctx));
      && (forall i :: 0 <= i < |r| ==> r[i].info.modelName == Some(target))
      && (forall i :: 0 <= i < |r| ==> r[i].info.moduleName in SearchModules(ws, ctx))
      && (forall i :: 0 <= i < |r| ==> ModuleRecord(ws, r[i].info.moduleName, target) == Some(r[i].info))
      && (forall m :: m in Modules(r) <==> m in SearchModules(ws, ctx) && ModuleRecord(ws, m, target).Some?)
      && NoDup(Modules(r))
  {
    var cs := FindModulesWithModel(ws, target, ctx);
    var r := BuildChain(ws.deps, cs);
    BuildChainIsPermutation(ws.deps, cs);
    forall i | 0 <= i < |r|
      ensures r[i].info.modelName == Some(target)
      ensures ModuleRecord(ws, r[i].info.moduleName, target) == Some(r[i].info)
      ensures r[i].info.moduleName in SearchModules(ws, ctx)
    {
      var c := Contributor(r[i].info.moduleName, r[i].info);
      assert c in cs;
      assert Modules(r)[i] == c.moduleName;
    }
  }

  // ---------------------------------------------------------------------
  // find_base_definition
  // ---------------------------------------------------------------------

  /** A record of module `m` that defines the target with `_name`. */
  function BaseRecordIn(ws: Workspace, m: string, target: string): (r: Option<ModelInfo>)
    requires IsIterationOrder(ws.fieldOrder)
    ensures r.Some? ==> m in ws.located && r.value.isBase && r.value.modelName == Some(target)
    ensures r.Some? ==> r.value in FindModelsInModule(ws.located[m], m, target, ws.fieldOrder)
    ensures r.None? && m in ws.located ==>
              forall x :: x in FindModelsInModule(ws.located[m], m, target, ws.fieldOrder) ==>
                !(x.isBase && x.modelName == Some(target))
  {
    if m !in ws.located then None
    else FirstBase(FindModelsInModule(ws.located[m], m, target, ws.fieldOrder), target)
  }

  function FirstBase(models: seq<ModelInfo>, target: string): (r: Option<ModelInfo>)
    ensures r.Some? ==> r.value in models && r.value.isBase && r.value.modelName == Some(target)
    ensures r.None? ==> forall x :: x in models ==> !(x.isBase && x.modelName == Some(target))
    decreases |models|
  {
    if models == [] then None
    else if models[0].isBase && models[0].modelName == Some(target) then Some(models[0])
    else
      assert forall x :: x in models ==> x == models[0] || x in models[1..];
      FirstBase(models[1..], target)
  }

  /** `find_base_definition`: the base record of the first module, in
      discovery order, that has one. */
  function FindBaseDefinition(ws: Workspace, target: string): (r: Option<ModelInfo>)
    requires IsIterationOrder(ws.fieldOrder)
    ensures r.Some? ==> r.value.isBase && r.value.modelName == Some(target)
    ensures r.Some? ==> exists i :: 0 <= i < |ws.allModules| &&
                          BaseRecordIn(ws, ws.allModules[i], target) == r &&
                          forall j :: 0 <= j < i ==> BaseRecordIn(ws, ws.allModules[j], target).None?
    ensures r.None? <==> forall i :: 0 <= i < |ws.allModules| ==> BaseRecordIn(ws, ws.allModules[i], target).None?
  {
    ScanBase(ws, ws.allModules, target)
  }

  function ScanBase(ws: Workspace, ms: seq<string>, target: string): (r: Option<ModelInfo>)
    requires IsIterationOrder(ws.fieldOrder)
    ensures r.Some? ==> r.value.isBase && r.value.modelName == Some(target)
    ensures r.Some? ==> exists i :: 0 <= i < |ms| && BaseRecordIn(ws, ms[i], target) == r &&
                          forall j :: 0 <= j < i ==> BaseRecordIn(ws, ms[j], target).None?
    ensures r.None? <==> forall i :: 0 <= i < |ms| ==> BaseRecordIn(ws, ms[i], target).None?
  {
    var recs := seq(|ms|, i requires 0 <= i < |ms| => BaseRecordIn(ws, ms[i], target));
    var r := FirstSome(recs);
    assert r.Some? ==> exists i :: 0 <= i < |ms| && BaseRecordIn(ws, ms[i], target) == r &&
                         forall j :: 0 <= j < i ==> BaseRecordIn(ws, ms[j], target).None? by {
      if r.Some? {
        var i :| 0 <= i < |recs| && recs[i] == r && forall j :: 0 <= j < i ==> recs[j].None?;
        assert BaseRecordIn(ws, ms[i], target) == r;
        forall j | 0 <= j < i ensures BaseRecordIn(ws, ms[j], target).None? {
          assert recs[j] == BaseRecordIn(ws, ms[j], target);
        }
      }
    }
    assert r.None? <==> forall i :: 0 <= i < |ms| ==> BaseRecordIn(ws, ms[i], target).None? by {
      forall i | 0 <= i < |ms| ensures recs[i] == BaseRecordIn(ws, ms[i], target) {
      }
    }
    r
  }

  /** The first present entry, scanning from the front. */
  function FirstSome<T>(xs: seq<Option<T>>): (r: Option<T>)
    ensures r.Some? ==> exists i :: 0 <= i < |xs| && xs[i] == r && forall j :: 0 <= j < i ==> xs[j].None?
    ensures r.None? <==> forall i :: 0 <= i < |xs| ==> xs[i].None?
    decreases |xs|
  {
    if xs == [] then None
    else if xs[0].Some? then xs[0]
    else
      var r := FirstSome(xs[1..]);
      assert forall i :: 1 <= i < |xs| ==> xs[i] == xs[1..][i - 1];
      assert r.Some? ==> exists i :: 0 <= i < |xs| && xs[i] == r && forall j :: 0 <= j < i ==> xs[j].None? by {
        if r.Some? {
          var i :| 0 <= i < |xs[1..]| && xs[1..][i] == r && forall j :: 0 <= j < i ==> xs[1..][j].None?;
          assert xs[i + 1] == r;
        }
      }
      r
  }

  // ---------------------------------------------------------------------
  // The promised dependency order does not hold
  // ---------------------------------------------------------------------

  /** Some node comes before one of its own dependencies. */
  predicate DependentBeforeDependency(chain: seq<Node>) {
    exists i, j :: 0 <= i < j < |chain| && chain[j].info.moduleName in chain[i].dependsOn
  }

  /** A base module `a` extended by `b` (which depends on `a`) and by
      `c` (which depends on `b`), found in that order. */
  predicate ThreeModules(deps: DepsMap, cs: seq<Contributor>) {
    && |cs| == 3
    && cs[0].moduleName != cs[1].moduleName
    && cs[1].moduleName != cs[2].moduleName
    && cs[0].moduleName != cs[2].moduleName
    && cs[0].moduleName != ""
    && (forall c :: c in cs ==> c.info.moduleName == c.moduleName)
    && cs[0].info.isBase
    && Direct(deps, cs[0].moduleName) == []
    && Direct(deps, cs[1].moduleName) == [cs[0].moduleName]
    && Direct(deps, cs[2].moduleName) == [cs[1].moduleName]
  }

  lemma ThreeKeys(deps: DepsMap, cs: seq<Contributor>)
    requires ThreeModules(deps, cs)
    ensures Keys(cs) == [cs[0].moduleName, cs[1].moduleName, cs[2].moduleName]
    ensures Consistent(cs)
    ensures BaseModule(cs) == Some(cs[0].moduleName)
  {
    assert Keys(cs) == [cs[0].moduleName, cs[1].moduleName, cs[2].moduleName];
  }

  /** The restricted graph: `b` lists `a`, `c` lists `b`, nobody lists
      `c`. */
  lemma ThreeGraph(deps: DepsMap, cs: seq<Contributor>)
    requires ThreeModules(deps, cs)
    ensures var g := BuildDependencyGraph(deps, cs);
      && (forall x :: x in g.nodes <==> x == cs[0].moduleName || x == cs[1].moduleName || x == cs[2].moduleName)
      && cs[0].moduleName in g.adj[cs[1].moduleName]
      && cs[1].moduleName in g.adj[cs[2].moduleName]
      && forall k :: k in g.nodes ==> cs[2].moduleName !in g.adj[k]
  {
    ThreeKeys(deps, cs);
    var g := BuildDependencyGraph(deps, cs);
    var a, b, c := cs[0].moduleName, cs[1].moduleName, cs[2].moduleName;
    assert g.nodes == [a, b, c];
    assert a in Direct(deps, b) && b in Direct(deps, c);
    forall k | k in g.nodes
      ensures c !in g.adj[k]
    {
      assert k == a || k == b || k == c;
      assert c !in Direct(deps, k);
    }
  }

  /** Of the three, only `c` has no dependent, and the warning fires
      although the graph is acyclic. */
  lemma ThreeSorted(deps: DepsMap, cs: seq<Contributor>)
    requires ThreeModules(deps, cs)
    ensures Sorted(deps, cs) == [cs[2].moduleName]
    ensures TopologicalSort(BuildDependencyGraph(deps, cs)).circularWarning
  {
    ThreeKeys(deps, cs);
    ThreeGraph(deps, cs);
    var g := BuildDependencyGraph(deps, cs);
    var c := cs[2].moduleName;
    assert HasDependent(g, cs[0].moduleName);
    assert forall x :: x in [c] <==> x in g.nodes && !HasDependent(g, x) by {
      assert HasDependent(g, cs[1].moduleName);
    }
    TopoSortCharacterised(g, [c]);
  }

  /** The base is forced in front of `c`, and `b` is appended last. */
  lemma ThreeOrder(deps: DepsMap, cs: seq<Contributor>)
    requires ThreeModules(deps, cs)
    ensures ChainOrder(deps, cs) == [cs[0].moduleName, cs[2].moduleName, cs[1].moduleName]
  {
    ThreeKeys(deps, cs);
    ThreeSorted(deps, cs);
    ThreeFront(deps, cs);
    AppendThree(cs[0].moduleName, cs[1].moduleName, cs[2].moduleName);
  }

  lemma ThreeFront(deps: DepsMap, cs: seq<Contributor>)
    requires ThreeModules(deps, cs)
    ensures Front(deps, cs) == [cs[0].moduleName, cs[2].moduleName]
  {
    ThreeFrontMoves(deps, cs);
    ThreeSorted(deps, cs);
    MoveBeforeSingle(cs[0].moduleName, cs[2].moduleName);
  }

  lemma ThreeFrontMoves(deps: DepsMap, cs: seq<Contributor>)
    requires ThreeModules(deps, cs)
    ensures Front(deps, cs) == MoveToFront(Sorted(deps, cs), cs[0].moduleName)
  {
    ThreeKeys(deps, cs);
  }

  lemma MoveBeforeSingle(a: string, c: string)
    requires a != c
    ensures MoveToFront([c], a) == [a, c]
  {
    assert a !in [c];
  }

  lemma AppendThree(a: string, b: string, c: string)
    requires a != b && b != c && a != c
    ensures AppendNew([a, c], [a, b, c]) == [a, c, b]
  {
    assert [a, b, c][0] == a && [a, b, c][1..] == [b, c];
    assert AppendNew([a, c], [a, b, c]) == AppendNew([a, c], [b, c]);
    assert [b, c][0] == b && [b, c][1..] == [c] && b !in [a, c];
    assert [a, c] + [b] == [a, c, b];
    assert AppendNew([a, c], [b, c]) == AppendNew([a, c, b], [c]);
    assert [c][0] == c && [c][1..] == [];
    assert AppendNew([a, c, b], [c]) == AppendNew([a, c, b], []);
  }

  /** On three such modules the sort keeps only `c`, the base is forced
      in front of it and `b` is appended last, so `c` precedes `b`
      although `c` depends on `b`. The circular-dependency warning fires
      on this acyclic graph. */
  lemma {:induction false} ChainOfThreeIsNotDependencyOrder(deps: DepsMap, cs: seq<Contributor>)
    requires ThreeModules(deps, cs)
    ensures TopologicalSort(BuildDependencyGraph(deps, cs)).circularWarning
    ensures Modules(BuildChain(deps, cs)) == [cs[0].moduleName, cs[2].moduleName, cs[1].moduleName]
    ensures DependentBeforeDependency(BuildChain(deps, cs))
  {
    ThreeKeys(deps, cs);
    ThreeSorted(deps, cs);
    ThreeOrder(deps, cs);
    ChainModules(deps, cs);
    var chain := BuildChain(deps, cs);
    assert chain[1].info.moduleName == cs[2].moduleName && chain[2].info.moduleName == cs[1].moduleName;
    assert cs[1].moduleName in chain[1].dependsOn;
  }

  /** Three concrete modules meet the shape. */
  lemma ThreeModulesExist()
    ensures ThreeModules(map["B" := ["A"], "C" := ["B"]],
      [Contributor("A", Record("A", true)), Contributor("B", Record("B", false)),
       Contributor("C", Record("C", false))])
  {
  }

  /** A record of module `m` for the example. */
  function Record(m: string, isBase: bool): ModelInfo {
    ModelInfo(m, m + "/models/x.py", 1, Some("x.model"), if isBase then [] else ["x.model"], isBase, map[], map[])
  }
}

=== FILE: make_icon.dfy ===
/** The string and lookup helpers of the icon maker
    (scripts/make_icon.py): module-name initials, `#rrggbb` colour
    parsing with Python's `int(x, 16)`, the background colour chosen by
    category keywords, and the drawing primitives chosen by keywords. */
module IconMaker {
  import opened Wrappers
  import opened Seqs
  import opened Strings

  // ---------------------------------------------------------------------
  // Initials (_get_initials)
  // ---------------------------------------------------------------------

  /** `[p[0].upper() for p in parts if p]`. */
  function UpperHeads(parts: seq<string>): (r: seq<char>)
    ensures |r| <= |parts|
    decreases |parts|
  {
    if parts == [] then []
    else (if parts[0] != [] then [UpperChar(parts[0][0])] else []) + UpperHeads(parts[1..])
  }

  /** `_get_initials`: the upper-cased first letters of the first two
      non-empty `_`-separated parts of the name, or "OD" when there are
      none. */
  function Initials(moduleName: string): (r: string)
    ensures 1 <= |r| <= 2
  {
    var firsts := UpperHeads(Split(moduleName, '_'));
    var two := if |firsts| > 2 then firsts[..2] else firsts;
    if two == [] then "OD" else two
  }

  /** The characters that start a run of non-underscores, scanning from
      a position that does (`atStart`) or does not follow a separator. */
  function RunStarts(s: string, atStart: bool): (r: seq<char>)
    decreases |s|
  {
    if s == [] then []
    else if s[0] == '_' then RunStarts(s[1..], true)
    else (if atStart then [s[0]] else []) + RunStarts(s[1..], false)
  }

  /** Upper-casing every character. */
  function UpperAll(s: seq<char>): (r: seq<char>)
    ensures |r| == |s|
    ensures forall i :: 0 <= i < |s| ==> r[i] == UpperChar(s[i])
  {
    seq(|s|, i requires 0 <= i < |s| => UpperChar(s[i]))
  }

  /** The heads of the non-empty parts of a split are the starts of the
      runs of non-separators: the parts after the first line up with
      the runs that follow a separator. */
  lemma {:induction false} HeadsOfSplit(s: string)
    ensures UpperHeads(Split(s, '_')) == UpperAll(RunStarts(s, true))
    ensures UpperHeads(Split(s, '_')[1..]) == UpperAll(RunStarts(s, false))
    decreases |s|
  {
    if s == [] {
      assert Split(s, '_') == [""];
      assert UpperHeads([""]) == UpperHeads([]);
    } else if s[0] == '_' {
      HeadsOfSplit(s[1..]);
      var rest := Split(s[1..], '_');
      assert Split(s, '_') == [""] + rest;
      assert ([""] + rest)[1..] == rest;
      assert UpperHeads([""] + rest) == UpperHeads(rest) by {
        assert ([""] + rest)[0] == "";
      }
    } else {
      HeadsOfSplit(s[1..]);
      var rest := Split(s[1..], '_');
      var parts := [[s[0]] + rest[0]] + rest[1..];
      assert Split(s, '_') == parts;
      assert parts[1..] == rest[1..];
      assert parts[0][0] == s[0];
      assert UpperHeads(parts) == [UpperChar(s[0])] + UpperHeads(rest[1..]);
      assert UpperAll([s[0]] + RunStarts(s[1..], false)) == [UpperChar(s[0])] + UpperAll(RunStarts(s[1..], false));
    }
  }

  /** A name has no run starts exactly when it is made of underscores. */
  lemma {:induction false} NoRunStarts(s: string)
    ensures RunStarts(s, true) == [] <==> forall i :: 0 <= i < |s| ==> s[i] == '_'
    decreases |s|
  {
    if s != [] {
      NoRunStarts(s[1..]);
      assert forall i :: 1 <= i < |s| ==> s[i] == s[1..][i - 1];
    }
  }

  /** The initials are the upper-cased characters that start the first
      two runs of non-underscores in the name, or "OD" when the name is
      nothing but underscores. */
  lemma InitialsAreRunStarts(moduleName: string)
    ensures var h := RunStarts(moduleName, true);
      && (h == [] ==> Initials(moduleName) == "OD")
      && (h != [] ==> |Initials(moduleName)| == (if |h| > 2 then 2 else |h|))
      && (h != [] ==> forall i :: 0 <= i < |Initials(moduleName)| ==> Initials(moduleName)[i] == UpperChar(h[i]))
  {
    HeadsOfSplit(moduleName);
  }

  /** A name made of underscores only (the empty name included) gets
      the fallback "OD". */
  lemma InitialsFallback(moduleName: string)
    requires forall i :: 0 <= i < |moduleName| ==> moduleName[i] == '_'
    ensures Initials(moduleName) == "OD"
  {
    NoRunStarts(moduleName);
    HeadsOfSplit(moduleName);
  }

  // ---------------------------------------------------------------------
  // Colours (_hex_to_rgb and Python's int(x, 16))
  // ---------------------------------------------------------------------

  predicate IsHexDigit(c: char) {
    '0' <= c <= '9' || 'a' <= c <= 'f' || 'A' <= c <= 'F'
  }

  function HexDigitValue(c: char): (v: nat)
    requires IsHexDigit(c)
    ensures v < 16
  {
    if '0' <= c <= '9' then c as int - '0' as int
    else if 'a' <= c <= 'f' then c as int - 'a' as int + 10
    else c as int - 'A' as int + 10
  }

  /** The value of a string of hexadecimal digits, most significant
      first. */
  function HexValue(s: string): nat
    requires forall i :: 0 <= i < |s| ==> IsHexDigit(s[i])
    decreases |s|
  {
    if s == [] then 0
    else HexValue(s[..|s| - 1]) * 16 + HexDigitValue(s[|s| - 1])
  }

  /** The ASCII characters `str.strip()` and `int()` treat as
      whitespace. */
  predicate IsSpace(c: char) {
    c == ' ' || '\t' <= c <= '\r' || '\U{1c}' <= c <= '\U{1f}'
  }

  /** `s.strip()`, first half: leading whitespace dropped. */
  function StripLeft(s: string): (r: string)
    ensures |r| <= |s|
    ensures r == [] || !IsSpace(r[0])
    decreases |s|
  {
    if s != [] && IsSpace(s[0]) then StripLeft(s[1..]) else s
  }

  /** `s.strip()`, second half: trailing whitespace dropped. */
  function StripRight(s: string): (r: string)
    ensures |r| <= |s|
    ensures r == [] || !IsSpace(r[|r| - 1])
    decreases |s|
  {
    if s != [] && IsSpace(s[|s| - 1]) then StripRight(s[..|s| - 1]) else s
  }

  /** Hexadecimal digits, single underscores allowed between two of
      them. */
  predicate DigitGroups(s: string) {
    && s != []
    && IsHexDigit(s[0])
    && IsHexDigit(s[|s| - 1])
    && (forall i :: 0 <= i < |s| ==> IsHexDigit(s[i]) || s[i] == '_')
    && !Contains(s, "__")
  }

  function DropUnderscores(s: string): (r: string)
    ensures forall i :: 0 <= i < |r| ==> r[i] != '_'
    ensures (forall i :: 0 <= i < |s| ==> s[i] != '_') ==> r == s
    ensures (forall i :: 0 <= i < |s| ==> IsHexDigit(s[i]) || s[i] == '_') ==>
              forall i :: 0 <= i < |r| ==> IsHexDigit(r[i])
    decreases |s|
  {
    if s == [] then []
    else
      var rest := DropUnderscores(s[1..]);
      assert forall i :: 1 <= i < |s| ==> s[i] == s[1..][i - 1];
      if s[0] == '_' then rest else [s[0]] + rest
  }

  /** Python's `int(s, 16)`: surrounding whitespace, one optional sign,
      an optional `0x` prefix (which may be followed by an underscore),
      then hexadecimal digits in underscore-separated groups; anything
      else raises ValueError. */
  function ParseHex(s: string): (r: Result<int>)
    ensures s == [] ==> r.Failure?
  {
    var t := StripRight(StripLeft(s));
    var digits := DigitPart(Unsigned(t));
    if DigitGroups(digits) then Success(GroupsValue(digits, t != [] && t[0] == '-'))
    else Failure("ValueError")
  }

  /** The text after an optional sign. */
  function Unsigned(t: string): (u: string)
    ensures |u| <= |t|
  {
    if t != [] && (t[0] == '+' || t[0] == '-') then t[1..] else t
  }

  /** The text after an optional `0x` or `0X` prefix and the underscore
      that may follow it. */
  function DigitPart(u: string): (d: string)
    ensures |d| <= |u|
  {
    if |u| >= 2 && u[0] == '0' && (u[1] == 'x' || u[1] == 'X') then
      if |u| > 2 && u[2] == '_' then u[3..] else u[2..]
    else u
  }

  /** The value of well-formed digit groups, negated after a minus. */
  function GroupsValue(digits: string, negative: bool): (v: int)
    requires DigitGroups(digits)
    ensures negative ==> v <= 0
    ensures !negative ==> v >= 0
  {
    var v: int := HexValue(DropUnderscores(digits));
    if negative then -v else v
  }

  /** Two hexadecimal digits parse to their value, in 0..255. */
  lemma ParseHexPair(p: string)
    requires |p| == 2 && IsHexDigit(p[0]) && IsHexDigit(p[1])
    ensures ParseHex(p) == Success(HexDigitValue(p[0]) * 16 + HexDigitValue(p[1]))
    ensures 0 <= HexDigitValue(p[0]) * 16 + HexDigitValue(p[1]) <= 255
  {
    var a, b := p[0], p[1];
    assert StripLeft(p) == p;
    assert StripRight(p) == p;
    assert Unsigned(p) == p;
    assert DigitPart(p) == p;
    assert !Contains(p, "__") by {
      assert p[0] != '_' && p[1..][1..] == [];
      assert !Contains(p[1..][1..], "__");
      assert !Contains(p[1..], "__");
    }
    assert DigitGroups(p);
    assert DropUnderscores(p) == p by {
      assert p[1..] == [b] && [b][1..] == [];
    }
    assert p[..1] == [a] && [a][..0] == [];
    assert HexValue([a]) == HexDigitValue(a);
    assert HexValue(p) == HexDigitValue(a) * 16 + HexDigitValue(b);
    assert GroupsValue(p, false) == HexDigitValue(a) * 16 + HexDigitValue(b);
  }

  /** Python's `s[i:j]` for `0 <= i <= j`. */
  function Slice(s: string, i: nat, j: nat): (r: string)
    requires i <= j
    ensures |r| <= j - i
    ensures j <= |s| ==> r == s[i..j]
    ensures |s| <= i ==> r == []
  {
    var lo := if i < |s| then i else |s|;
    var hi := if j < |s| then j else |s|;
    s[lo..hi]
  }

  /** `s.lstrip(c)`. */
  function StripLeading(s: string, c: char): (r: string)
    ensures |r| <= |s| && r == s[|s| - |r|..]
    ensures r == [] || r[0] != c
    ensures forall i :: 0 <= i < |s| - |r| ==> s[i] == c
    decreases |s|
  {
    if s != [] && s[0] == c then
      var r := StripLeading(s[1..], c);
      assert forall i :: 1 <= i < |s| - |r| ==> s[i] == s[1..][i - 1];
      r
    else s
  }

  datatype Color = Color(red: int, green: int, blue: int)

  /** `_hex_to_rgb`: leading `#` characters dropped, then the character
      pairs at offsets 0, 2 and 4 read with `int(x, 16)`; the first pair
      that does not parse raises ValueError. */
  function HexToRgb(hex: string): (r: Result<Color>)
    ensures |StripLeading(hex, '#')| <= 4 ==> r.Failure?
  {
    ReadPairs(StripLeading(hex, '#'))
  }

  /** The three pairs of `_hex_to_rgb`, once the `#` characters are
      gone. */
  function ReadPairs(t: string): (r: Result<Color>)
    ensures |t| <= 4 ==> r.Failure?
  {
    Components(ParseHex(Slice(t, 0, 2)), ParseHex(Slice(t, 2, 4)), ParseHex(Slice(t, 4, 6)))
  }

  /** The tuple built from three conversions, evaluated left to right:
      the first failure is the one raised. */
  function Components(red: Result<int>, green: Result<int>, blue: Result<int>): (r: Result<Color>)
    ensures r.Success? <==> red.Success? && green.Success? && blue.Success?
    ensures r.Success? ==> r.value == Color(red.value, green.value, blue.value)
    ensures red.Failure? ==> r == Failure(red.error)
  {
    var x :- red;
    var y :- green;
    var z :- blue;
    Success(Color(x, y, z))
  }

  /** The text starts with six hexadecimal digits. */
  predicate SixHexDigits(t: string) {
    && |t| >= 6
    && IsHexDigit(t[0]) && IsHexDigit(t[1]) && IsHexDigit(t[2])
    && IsHexDigit(t[3]) && IsHexDigit(t[4]) && IsHexDigit(t[5])
  }

  /** Six hexadecimal digits after the `#` characters give a colour with
      every component in 0..255, whatever follows them. */
  lemma HexToRgbInRange(hex: string)
    requires SixHexDigits(StripLeading(hex, '#'))
    ensures HexToRgb(hex).Success?
    ensures var c := HexToRgb(hex).value;
      0 <= c.red <= 255 && 0 <= c.green <= 255 && 0 <= c.blue <= 255
  {
    var t := StripLeading(hex, '#');
    assert HexToRgb(hex) == ReadPairs(t);
    var x, y, z := ThreePairs(t);
    ReadPairsOf(t, x, y, z);
  }

  /** The three pairs of six hexadecimal digits each parse to a byte. */
  lemma ThreePairs(t: string) returns (x: int, y: int, z: int)
    requires SixHexDigits(t)
    ensures ParseHex(Slice(t, 0, 2)) == Success(x) && 0 <= x <= 255
    ensures ParseHex(Slice(t, 2, 4)) == Success(y) && 0 <= y <= 255
    ensures ParseHex(Slice(t, 4, 6)) == Success(z) && 0 <= z <= 255
  {
    x := PairAt(t, 0);
    y := PairAt(t, 2);
    z := PairAt(t, 4);
  }

  /** The pair at offset `k` parses, to a value in 0..255. */
  lemma PairAt(t: string, k: nat) returns (v: int)
    requires k + 2 <= |t| && IsHexDigit(t[k]) && IsHexDigit(t[k + 1])
    ensures ParseHex(Slice(t, k, k + 2)) == Success(v)
    ensures 0 <= v <= 255
  {
    var p := Slice(t, k, k + 2);
    assert |p| == 2 && p[0] == t[k] && p[1] == t[k + 1];
    ParseHexPair(p);
    v := HexDigitValue(p[0]) * 16 + HexDigitValue(p[1]);
  }

  lemma ReadPairsOf(t: string, x: int, y: int, z: int)
    requires ParseHex(Slice(t, 0, 2)) == Success(x)
    requires ParseHex(Slice(t, 2, 4)) == Success(y)
    requires ParseHex(Slice(t, 4, 6)) == Success(z)
    ensures ReadPairs(t) == Success(Color(x, y, z))
  {
  }

  /** A lower-case hexadecimal digit. */
  function HexDigitChar(d: nat): (c: char)
    requires d < 16
    ensures IsHexDigit(c) && HexDigitValue(c) == d
  {
    if d < 10 then ('0' as int + d) as char else ('a' as int + d - 10) as char
  }

  /** A byte as two hexadecimal digits. */
  function HexByte(n: nat): (r: string)
    requires n < 256
    ensures |r| == 2 && IsHexDigit(r[0]) && IsHexDigit(r[1])
  {
    [HexDigitChar(n / 16), HexDigitChar(n % 16)]
  }

  /** `#rrggbb` for a colour with components in 0..255. */
  function RgbToHex(c: Color): (r: string)
    requires 0 <= c.red < 256 && 0 <= c.green < 256 && 0 <= c.blue < 256
    ensures |r| == 7 && r[0] == '#'
  {
    "#" + HexByte(c.red) + HexByte(c.green) + HexByte(c.blue)
  }

  /** A byte written as two hexadecimal digits reads back as itself. */
  lemma HexByteParses(n: nat)
    requires n < 256
    ensures ParseHex(HexByte(n)) == Success(n)
  {
    var hi, lo := n / 16, n % 16;
    assert HexByte(n) == [HexDigitChar(hi), HexDigitChar(lo)];
    DigitsParse(hi, lo);
    assert hi * 16 + lo == n;
  }

  lemma DigitsParse(hi: nat, lo: nat)
    requires hi < 16 && lo < 16
    ensures ParseHex([HexDigitChar(hi), HexDigitChar(lo)]) == Success(hi * 16 + lo)
  {
    ParseHexPair([HexDigitChar(hi), HexDigitChar(lo)]);
  }

  /** Writing a colour as `#rrggbb` and reading it back gives the colour,
      whatever text follows. */
  lemma {:induction false} HexRoundTrip(c: Color, tail: string)
    requires 0 <= c.red < 256 && 0 <= c.green < 256 && 0 <= c.blue < 256
    ensures HexToRgb(RgbToHex(c) + tail) == Success(c)
  {
    var t := HexByte(c.red) + HexByte(c.green) + HexByte(c.blue) + tail;
    assert RgbToHex(c) + tail == "#" + t;
    HexToRgbIgnoresHash(t);
    assert StripLeading(t, '#') == t by {
      assert t[0] == HexByte(c.red)[0];
    }
    BytesRead(c, tail);
  }

  /** Three bytes as hexadecimal pairs read back as the colour. */
  lemma BytesRead(c: Color, tail: string)
    requires 0 <= c.red < 256 && 0 <= c.green < 256 && 0 <= c.blue < 256
    ensures ReadPairs(HexByte(c.red) + HexByte(c.green) + HexByte(c.blue) + tail) == Success(c)
  {
    var r, g, b := HexByte(c.red), HexByte(c.green), HexByte(c.blue);
    var t := r + g + b + tail;
    assert Slice(t, 0, 2) == r && Slice(t, 2, 4) == g && Slice(t, 4, 6) == b;
    HexByteParses(c.red);
    HexByteParses(c.green);
    HexByteParses(c.blue);
    ReadPairsOf(t, c.red, c.green, c.blue);
  }

  /** Any number of leading `#` characters is ignored. */
  lemma HexToRgbIgnoresHash(s: string)
    ensures HexToRgb("#" + s) == HexToRgb(s)
  {
    assert ("#" + s)[1..] == s;
    assert StripLeading("#" + s, '#') == StripLeading(s, '#');
  }

  // ---------------------------------------------------------------------
  // Keyword matching shared by primitive and colour selection

  /** `any(kw in text for kw in keywords)`: some keyword is a substring. */
  predicate AnyIn(text: string, keywords: seq<string>) {
    exists kw :: kw in keywords && Contains(text, kw)
  }

  /** One `if any(...): primitives.append(name)` of `_create_smart_icon`. */
  datatype Rule = Rule(name: string, keywords: seq<string>)

  function Names(rules: seq<Rule>): (r: seq<string>)
    ensures |r| == |rules|
    ensures forall k :: 0 <= k < |rules| ==> r[k] == rules[k].name
  {
    seq(|rules|, k requires 0 <= k < |rules| => rules[k].name)
  }

  /** The twelve keyword tests of `_create_smart_icon`, in source order. */
  const PrimitiveRules: seq<Rule> := [
    Rule("gear", ["workcenter", "manufacturing", "machine", "production", "gear"]),
    Rule("calendar", ["calendar", "schedule", "planning", "event", "date"]),
    Rule("checkbox", ["task", "checklist", "todo", "check"]),
    Rule("document", ["document", "file", "paper", "form"]),
    Rule("folder", ["folder", "directory"]),
    Rule("user", ["user", "people", "person", "team", "employee"]),
    Rule("chart", ["chart", "analytics", "graph", "report", "statistics"]),
    Rule("box", ["warehouse", "inventory", "stock", "box", "package"]),
    Rule("message", ["message", "chat", "telegram", "communication", "notification"]),
    Rule("settings", ["settings", "config", "setup", "preferences"]),
    Rule("arrow", ["arrow", "flow", "process", "workflow"]),
    Rule("lock", ["lock", "security", "secure", "protection"])
  ]

  /** Some rule named `p` fires on `text`. */
  predicate Fires(rules: seq<Rule>, text: string, p: string) {
    exists k :: 0 <= k < |rules| && rules[k].name == p && AnyIn(text, rules[k].keywords)
  }

  lemma FiresCons(rules: seq<Rule>, text: string, p: string)
    requires rules != []
    ensures Fires(rules, text, p) <==>
      (rules[0].name == p && AnyIn(text, rules[0].keywords)) || Fires(rules[1..], text, p)
  {
    if Fires(rules, text, p) && !(rules[0].name == p && AnyIn(text, rules[0].keywords)) {
      var k :| 0 <= k < |rules| && rules[k].name == p && AnyIn(text, rules[k].keywords);
      assert rules[1..][k - 1] == rules[k];
    }
    if Fires(rules[1..], text, p) {
      var k :| 0 <= k < |rules| - 1 && rules[1..][k].name == p && AnyIn(text, rules[1..][k].keywords);
      assert rules[k + 1] == rules[1..][k];
    }
  }

  lemma NamesTail(rules: seq<Rule>)
    requires rules != []
    ensures Names(rules) == [rules[0].name] + Names(rules[1..])
    ensures NoDup(Names(rules)) ==> NoDup(Names(rules[1..])) && rules[0].name !in Names(rules[1..])
  {
    assert Names(rules) == [rules[0].name] + Names(rules[1..]);
  }

  /** The names of the rules that fire on `text`, each tested once, in rule
      order. */
  function Fired(rules: seq<Rule>, text: string): (r: seq<string>)
    ensures IsSubsequence(r, Names(rules))
    ensures forall p :: p in r <==> Fires(rules, text, p)
    ensures NoDup(Names(rules)) ==> NoDup(r)
  {
    if rules == [] then []
    else
      var rest := Fired(rules[1..], text);
      NamesTail(rules);
      forall p ensures Fires(rules, text, p) <==>
        (rules[0].name == p && AnyIn(text, rules[0].keywords)) || Fires(rules[1..], text, p)
      {
        FiresCons(rules, text, p);
      }
      if AnyIn(text, rules[0].keywords) then
        assert NoDup(Names(rules)) ==> NoDup([rules[0].name] + rest) by {
          if NoDup(Names(rules)) {
            assert rules[0].name !in rest;
            NoDupCons(rules[0].name, rest);
          }
        }
        [rules[0].name] + rest
      else
        SubsequenceCons(rest, rules[0].name, Names(rules[1..]));
        rest
  }

  /** Each primitive is named by one rule only. */
  lemma PrimitiveNamesDistinct()
    ensures NoDup(Names(PrimitiveRules))
  {
    assert Names(PrimitiveRules) == ["gear", "calendar", "checkbox", "document", "folder", "user",
      "chart", "box", "message", "settings", "arrow", "lock"];
  }

  /** The primitives `_create_smart_icon` composes for a description: the
      description is lower-cased and every rule is tested in turn. */
  function SelectPrimitives(description: string): (r: seq<string>)
    ensures IsSubsequence(r, Names(PrimitiveRules))
    ensures NoDup(r)
    ensures forall p :: p in r <==> Fires(PrimitiveRules, Lower(description), p)
  {
    PrimitiveNamesDistinct();
    Fired(PrimitiveRules, Lower(description))
  }

  // ---------------------------------------------------------------------
  // Background colours

  /** A pair of gradient colours for the icon's circle. */
  datatype Background = Background(top: Color, bottom: Color)

  /** One `if any(...): return (...)` of `_get_background_colors`. */
  datatype Category = Category(keywords: seq<string>, background: Background)

  /** The category tests of `_get_background_colors`, in source order. */
  const Categories: seq<Category> := [
    Category(["manufacturing", "production", "workcenter"], Background(Color(52, 73, 94), Color(41, 128, 185))),
    Category(["calendar", "schedule", "planning"], Background(Color(231, 76, 60), Color(192, 57, 43))),
    Category(["task", "checklist", "todo"], Background(Color(46, 204, 113), Color(39, 174, 96))),
    Category(["message", "chat", "telegram"], Background(Color(0, 136, 204), Color(0, 108, 163))),
    Category(["document", "file", "folder"], Background(Color(155, 89, 182), Color(142, 68, 173))),
    Category(["warehouse", "inventory", "stock"], Background(Color(243, 156, 18), Color(230, 126, 34))),
    Category(["analytics", "chart", "report"], Background(Color(26, 188, 156), Color(22, 160, 133)))
  ]

  /** The colours used when no category matches. */
  const DefaultBackground := Background(Color(52, 152, 219), Color(41, 128, 185))

  /** Category `k` is the first whose keywords occur in `text`. */
  predicate FirstMatch(cats: seq<Category>, text: string, k: int) {
    && 0 <= k < |cats|
    && AnyIn(text, cats[k].keywords)
    && forall j :: 0 <= j < k ==> !AnyIn(text, cats[j].keywords)
  }

  /** The background of the first matching category, or the default. */
  function CategoryBackground(cats: seq<Category>, text: string): (r: Background)
    ensures forall k :: FirstMatch(cats, text, k) ==> r == cats[k].background
    ensures (forall k :: 0 <= k < |cats| ==> !AnyIn(text, cats[k].keywords)) ==> r == DefaultBackground
  {
    if cats == [] then DefaultBackground
    else if AnyIn(text, cats[0].keywords) then cats[0].background
    else
      var r := CategoryBackground(cats[1..], text);
      forall k | FirstMatch(cats, text, k)
        ensures FirstMatch(cats[1..], text, k - 1)
      {
        forall j | 0 <= j < k - 1
          ensures !AnyIn(text, cats[1..][j].keywords)
        {
          assert cats[1..][j] == cats[j + 1];
        }
      }
      assert (forall k :: 0 <= k < |cats| ==> !AnyIn(text, cats[k].keywords))
        ==> (forall k :: 0 <= k < |cats| - 1 ==> !AnyIn(text, cats[1..][k].keywords)) by {
        if forall k :: 0 <= k < |cats| ==> !AnyIn(text, cats[k].keywords) {
          forall k | 0 <= k < |cats| - 1
            ensures !AnyIn(text, cats[1..][k].keywords)
          {
            assert cats[1..][k] == cats[k + 1];
          }
        }
      }
      r
  }

  /** `_get_background_colors`: two or more user colours win (the first two,
      each through `_hex_to_rgb`, evaluated left to right); otherwise the
      lower-cased description picks a category. */
  function BackgroundColors(colors: seq<string>, descLower: string): (r: Result<Background>)
    ensures |colors| < 2 ==> r == Success(CategoryBackground(Categories, descLower))
    ensures |colors| >= 2 ==>
      (r.Success? <==> HexToRgb(colors[0]).Success? && HexToRgb(colors[1]).Success?)
    ensures |colors| >= 2 && r.Success? ==>
      r.value == Background(HexToRgb(colors[0]).value, HexToRgb(colors[1]).value)
    ensures |colors| >= 2 && HexToRgb(colors[0]).Failure? ==> r == Failure(HexToRgb(colors[0]).error)
  {
    if |colors| >= 2 then
      var top :- HexToRgb(colors[0]);
      var bottom :- HexToRgb(colors[1]);
      Success(Background(top, bottom))
    else
      Success(CategoryBackground(Categories, descLower))
  }

  /** Colours written as `#rrggbb` come back unchanged as the background,
      whatever further colours or description are given. */
  lemma UserColorsRoundTrip(top: Color, bottom: Color, more: seq<string>, descLower: string)
    requires 0 <= top.red < 256 && 0 <= top.green < 256 && 0 <= top.blue < 256
    requires 0 <= bottom.red < 256 && 0 <= bottom.green < 256 && 0 <= bottom.blue < 256
    ensures BackgroundColors([RgbToHex(top), RgbToHex(bottom)] + more, descLower)
      == Success(Background(top, bottom))
  {
    HexRoundTrip(top, "");
    HexRoundTrip(bottom, "");
    assert RgbToHex(top) + "" == RgbToHex(top);
    assert RgbToHex(bottom) + "" == RgbToHex(bottom);
  }

  // ---------------------------------------------------------------------
  // The smart icon

  /** What `_create_smart_icon` hands to the drawing code. */
  datatype IconPlan = IconPlan(primitives: seq<string>, background: Background)

  /** `_create_smart_icon` up to the drawing: the primitives and the
      background both read the lower-cased description. */
  function SmartIcon(description: string, colors: seq<string>): (r: Result<IconPlan>)
    ensures r.Success? <==> BackgroundColors(colors, Lower(description)).Success?
    ensures r.Success? ==> r.value.primitives == SelectPrimitives(description)
    ensures r.Success? ==> r.value.background == BackgroundColors(colors, Lower(description)).value
  {
    var descLower := Lower(description);
    var background :- BackgroundColors(colors, descLower);
    Success(IconPlan(SelectPrimitives(description), background))
  }

  /** The plan ignores the case of the description. */
  lemma SmartIconIgnoresCase(description: string, colors: seq<string>)
    ensures SmartIcon(Lower(description), colors) == SmartIcon(description, colors)
  {
    LowerTwice(description);
  }
}

=== FILE: manifest_parser.dfy ===
/** The manifest reader of the model inspector
    (parsers/manifest_parser.py): turns the literal dict of a
    `__manifest__.py` into a value, finds a module's directory among the
    addon roots, and answers `depends` and metadata queries. */
module ManifestParser {
  import opened Wrappers
  import opened Seqs
  import opened PyAst

  // ---------------------------------------------------------------------
  // Python values produced from literals (_extract_value, _extract_dict)
  // ---------------------------------------------------------------------

  /** A Python value built from a literal: a constant, a list, or a dict
      whose entries keep insertion order. */
  datatype Value = Atom(c: Const) | VList(items: seq<Value>) | VDict(entries: seq<Entry>)

  datatype Entry = Entry(key: Const, value: Value)

  /** The numeric value of an `int` or a `bool` (`True == 1`). */
  function NumValue(c: Const): Option<int> {
    match c
    case Int(i) => Some(i)
    case Bool(b) => Some(if b then 1 else 0)
    case _ => None
  }

  /** Python's key equality for constant dict keys: `1`, `True` (and
      `0`, `False`) are the same key. */
  predicate KeyEq(a: Const, b: Const) {
    a == b || (NumValue(a).Some? && NumValue(a) == NumValue(b))
  }

  /** The value stored under a key equal to `k`, if any. */
  function Lookup(es: seq<Entry>, k: Const): (r: Option<Value>)
    ensures r.Some? <==> exists i :: 0 <= i < |es| && KeyEq(es[i].key, k)
    decreases |es|
  {
    if es == [] then None
    else if KeyEq(es[0].key, k) then Some(es[0].value)
    else
      var r := Lookup(es[1..], k);
      assert forall i :: 1 <= i < |es| ==> es[i] == es[1..][i - 1];
      r
  }

  /** `d[k] = v`: an entry with an equal key gets the new value and keeps
      its position and its original key; otherwise the entry is appended. */
  function Put(es: seq<Entry>, k: Const, v: Value): (r: seq<Entry>)
    ensures |r| == |es| || |r| == |es| + 1
    ensures forall j :: 0 <= j < |es| ==> r[j].key == es[j].key
    ensures |r| == |es| + 1 <==> forall i :: 0 <= i < |es| ==> !KeyEq(es[i].key, k)
    ensures |r| == |es| + 1 ==> r[|es|] == Entry(k, v)
    decreases |es|
  {
    if es == [] then [Entry(k, v)]
    else if KeyEq(es[0].key, k) then [Entry(es[0].key, v)] + es[1..]
    else [es[0]] + Put(es[1..], k, v)
  }

  /** No two entries have equal keys. */
  predicate DistinctKeys(es: seq<Entry>) {
    forall i, j :: 0 <= i < j < |es| ==> !KeyEq(es[i].key, es[j].key)
  }

  /** After `d[k] = v`, `d[k]` is `v` and every other key keeps its value. */
  lemma {:induction false} PutLookup(es: seq<Entry>, k: Const, v: Value, k2: Const)
    ensures Lookup(Put(es, k, v), k2) == if KeyEq(k, k2) then Some(v) else Lookup(es, k2)
    decreases |es|
  {
    if es != [] && !KeyEq(es[0].key, k) {
      PutLookup(es[1..], k, v, k2);
    }
  }

  /** `d[k] = v` keeps the keys of a dict pairwise distinct. */
  lemma {:induction false} PutKeepsDistinct(es: seq<Entry>, k: Const, v: Value)
    requires DistinctKeys(es)
    ensures DistinctKeys(Put(es, k, v))
    decreases |es|
  {
    if es != [] && !KeyEq(es[0].key, k) {
      PutKeepsDistinct(es[1..], k, v);
    }
  }

  /** `_extract_value`: a constant maps to itself, a list and a dict
      display are converted element-wise, and every other expression
      (a tuple, a name, a call, ...) maps to None. */
  function ExtractValue(e: Expr): (v: Value)
    ensures e.Constant? ==> v == Atom(e.c)
    ensures e.List? ==> v.VList? && |v.items| == |e.elts|
    ensures e.Dict? ==> v.VDict? && |v.entries| <= |e.items|
    ensures !e.Constant? && !e.List? && !e.Dict? ==> v == Atom(NoneConst)
    decreases e, 0
  {
    match e
    case Constant(c) => Atom(c)
    case List(elts) => VList(ExtractValues(elts))
    case Dict(items) => VDict(ExtractDict(items, []))
    case _ => Atom(NoneConst)
  }

  function ExtractValues(es: seq<Expr>): (r: seq<Value>)
    ensures |r| == |es|
    ensures forall i :: 0 <= i < |es| ==> r[i] == ExtractValue(es[i])
    decreases es, 0
  {
    if es == [] then [] else [ExtractValue(es[0])] + ExtractValues(es[1..])
  }

  /** The key of a dict entry when it is a constant; `**mapping`
      entries and non-constant keys have none. */
  function ConstKey(item: DictItem): (r: Option<Const>)
    ensures r.Some? <==> item.key.Some? && item.key.value.Constant?
  {
    if item.key.Some? && item.key.value.Constant? then Some(item.key.value.c) else None
  }

  /** One entry of the `_extract_dict` loop. */
  function ExtractItem(item: DictItem, acc: seq<Entry>): (r: seq<Entry>)
    ensures |r| <= |acc| + 1
    ensures ConstKey(item).None? ==> r == acc
    decreases item, 0
  {
    match item
    case DictItem(key, value) =>
      if key.Some? && key.value.Constant? then Put(acc, key.value.c, ExtractValue(value)) else acc
  }

  /** `_extract_dict`, continuing from the entries `acc` built so far. */
  function ExtractDict(items: seq<DictItem>, acc: seq<Entry>): (r: seq<Entry>)
    ensures |r| <= |acc| + |items|
    decreases items, 1
  {
    if items == [] then acc else ExtractDict(items[1..], ExtractItem(items[0], acc))
  }

  /** The value of the LAST entry of the display whose key is a constant
      equal to `k`: the reference meaning of a dict display. */
  function LastValue(items: seq<DictItem>, k: Const): Option<Value>
    decreases |items|
  {
    if items == [] then None
    else
      var last := items[|items| - 1];
      var key := ConstKey(last);
      if key.Some? && KeyEq(key.value, k) then Some(ExtractValue(last.value))
      else LastValue(items[..|items| - 1], k)
  }

  lemma {:induction false} ExtractDictSnoc(items: seq<DictItem>, it: DictItem, acc: seq<Entry>)
    ensures ExtractDict(items + [it], acc) == ExtractItem(it, ExtractDict(items, acc))
    decreases |items|
  {
    if items != [] {
      assert (items + [it])[1..] == items[1..] + [it];
      ExtractDictSnoc(items[1..], it, ExtractItem(items[0], acc));
    }
  }

  /** Looking a key up in the extracted dict gives the value of the last
      display entry with an equal constant key: `**` entries and
      non-constant keys are skipped and later duplicates overwrite. */
  lemma {:induction false} ExtractDictLookup(items: seq<DictItem>, k: Const)
    ensures Lookup(ExtractDict(items, []), k) == LastValue(items, k)
    decreases |items|
  {
    if items != [] {
      var init := items[..|items| - 1];
      var last := items[|items| - 1];
      assert items == init + [last];
      ExtractDictSnoc(init, last, []);
      ExtractDictLookup(init, k);
      match last
      case DictItem(key, value) =>
        if key.Some? && key.value.Constant? {
          PutLookup(ExtractDict(init, []), key.value.c, ExtractValue(value), k);
        }
    }
  }

  /** The extracted dict never holds two equal keys. */
  lemma {:induction false} ExtractDictDistinct(items: seq<DictItem>, acc: seq<Entry>)
    requires DistinctKeys(acc)
    ensures DistinctKeys(ExtractDict(items, acc))
    decreases |items|
  {
    if items != [] {
      match items[0]
      case DictItem(key, value) =>
        if key.Some? && key.value.Constant? {
          PutKeepsDistinct(acc, key.value.c, ExtractValue(value));
        }
      ExtractDictDistinct(items[1..], ExtractItem(items[0], acc));
    }
  }

  /** Python's `bool(value)`. */
  predicate TruthyValue(v: Value) {
    match v
    case Atom(c) => Truthy(c)
    case VList(xs) => xs != []
    case VDict(es) => es != []
  }

  // ---------------------------------------------------------------------
  // Addon roots (find_module_path, parse_manifest)
  // ---------------------------------------------------------------------

  /** What reading `__manifest__.py` gives: a read or syntax error, or
      the first dict display of the file in `ast.walk` order, if any. */
  datatype ManifestFile = Unreadable | Parsed(firstDict: Option<seq<DictItem>>)

  /** A child of an addon root: a directory (with or without a
      manifest), or anything else. */
  datatype Child = ModuleDir(manifest: Option<ManifestFile>) | OtherChild

  /** An addon root: its path and its children by name. */
  datatype Root = Root(path: string, children: map<string, Child>)

  /** `root / name` is a directory holding `__manifest__.py`. */
  predicate HasManifest(root: Root, name: string) {
    name in root.children && root.children[name].ModuleDir? && root.children[name].manifest.Some?
  }

  /** `find_module_path`: the index of the first root, in list order,
      whose child `name` is a module directory. */
  function FindModulePath(roots: seq<Root>, name: string): (r: Option<nat>)
    ensures r.Some? ==> r.value < |roots| && HasManifest(roots[r.value], name)
    ensures r.Some? ==> forall j :: 0 <= j < r.value ==> !HasManifest(roots[j], name)
    ensures r.None? <==> forall j :: 0 <= j < |roots| ==> !HasManifest(roots[j], name)
    decreases |roots|
  {
    if roots == [] then None
    else if HasManifest(roots[0], name) then Some(0)
    else
      var r := FindModulePath(roots[1..], name);
      assert forall j :: 1 <= j < |roots| ==> roots[j] == roots[1..][j - 1];
      if r.Some? then Some(r.value + 1) else None
  }

  /** `str(addon_path / module_name)`. */
  function ModulePath(root: Root, name: string): string {
    root.path + "/" + name
  }

  /** `parse_manifest`: the entries of the first dict display, or the
      empty dict when the file cannot be read or holds no dict. */
  function ParseManifest(f: ManifestFile): (r: seq<Entry>)
    ensures DistinctKeys(r)
    ensures f.Parsed? && f.firstDict.Some? ==> r == ExtractDict(f.firstDict.value, [])
    ensures f.Unreadable? || f.firstDict.None? ==> r == []
  {
    match f
    case Unreadable => []
    case Parsed(d) =>
      if d.None? then []
      else
        ExtractDictDistinct(d.value, []);
        ExtractDict(d.value, [])
  }

  /** The manifest of the module as `find_module_path` locates it. */
  function ManifestOf(roots: seq<Root>, name: string): (r: Option<seq<Entry>>)
    ensures r.Some? <==> FindModulePath(roots, name).Some?
  {
    var i := FindModulePath(roots, name);
    if i.None? then None else Some(ParseManifest(roots[i.value].children[name].manifest.value))
  }

  // ---------------------------------------------------------------------
  // Queries (get_dependencies, get_module_info)
  // ---------------------------------------------------------------------

  /** The non-empty strings of a list, in order, duplicates kept. */
  function TruthyStrings(xs: seq<Value>): (r: seq<string>)
    ensures |r| <= |xs|
    ensures forall s :: s in r <==> s != "" && Atom(Str(s)) in xs
    decreases |xs|
  {
    if xs == [] then []
    else
      var rest := TruthyStrings(xs[1..]);
      assert forall x :: x in xs <==> x == xs[0] || x in xs[1..];
      if xs[0].Atom? && xs[0].c.Str? && xs[0].c.s != "" then [xs[0].c.s] + rest else rest
  }

  /** Filtering keeps every non-empty string as often as it occurs. */
  lemma {:induction false} TruthyStringsCount(xs: seq<Value>, s: string)
    requires s != ""
    ensures Count(TruthyStrings(xs), s) == Count(xs, Atom(Str(s)))
    decreases |xs|
  {
    if xs != [] {
      TruthyStringsCount(xs[1..], s);
    }
  }

  /** The filter works element by element: filtering a concatenation
      filters each part, so the kept strings stay in list order. With
      the one-element case this determines the result completely. */
  lemma {:induction false} TruthyStringsAppend(a: seq<Value>, b: seq<Value>)
    ensures TruthyStrings(a + b) == TruthyStrings(a) + TruthyStrings(b)
    decreases |a|
  {
    if a == [] {
      assert a + b == b;
    } else {
      var ab := a + b;
      assert ab[0] == a[0] && ab[1..] == a[1..] + b;
      TruthyStringsAppend(a[1..], b);
      if a[0].Atom? && a[0].c.Str? && a[0].c.s != "" {
        assert TruthyStrings(ab) == [a[0].c.s] + TruthyStrings(a[1..] + b);
      } else {
        assert TruthyStrings(ab) == TruthyStrings(a[1..] + b);
      }
    }
  }

  /** A one-element list keeps its element exactly when it is a
      non-empty string. */
  lemma TruthyStringsSingle(x: Value)
    ensures TruthyStrings([x]) == if x.Atom? && x.c.Str? && x.c.s != "" then [x.c.s] else []
  {
    assert [x][1..] == [];
  }

  /** The non-empty string keys of a dict, in order. */
  function TruthyStringKeys(es: seq<Entry>): (r: seq<string>)
    ensures |r| <= |es|
    ensures forall s :: s in r <==> s != "" && exists i :: 0 <= i < |es| && es[i].key == Str(s)
    decreases |es|
  {
    if es == [] then []
    else
      var rest := TruthyStringKeys(es[1..]);
      assert forall i :: 1 <= i < |es| ==> es[i] == es[1..][i - 1];
      if es[0].key.Str? && es[0].key.s != "" then [es[0].key.s] + rest else rest
  }

  /** Reading the keys of a dict works entry by entry, so the kept keys
      stay in dict order. */
  lemma {:induction false} TruthyStringKeysAppend(a: seq<Entry>, b: seq<Entry>)
    ensures TruthyStringKeys(a + b) == TruthyStringKeys(a) + TruthyStringKeys(b)
    decreases |a|
  {
    if a == [] {
      assert a + b == b;
    } else {
      var ab := a + b;
      assert ab[0] == a[0] && ab[1..] == a[1..] + b;
      TruthyStringKeysAppend(a[1..], b);
      if a[0].key.Str? && a[0].key.s != "" {
        assert TruthyStringKeys(ab) == [a[0].key.s] + TruthyStringKeys(a[1..] + b);
      } else {
        assert TruthyStringKeys(ab) == TruthyStringKeys(a[1..] + b);
      }
    }
  }

  /** Iterating over a string gives its one-character strings. */
  function Chars(s: string): (r: seq<string>)
    ensures |r| == |s|
    ensures forall i :: 0 <= i < |s| ==> r[i] == [s[i]]
  {
    seq(|s|, i requires 0 <= i < |s| => [s[i]])
  }

  /** `[dep for dep in depends if dep]` for the value of `depends`:
      lists and dicts are iterated (a dict by its keys), a string by its
      characters, and iterating any other constant raises TypeError. */
  function FilterDepends(depends: Value): (r: Result<seq<string>>)
    ensures r.Failure? <==> depends.Atom? && !depends.c.Str?
    ensures depends.VList? ==> r == Success(TruthyStrings(depends.items))
    ensures depends.VDict? ==> r == Success(TruthyStringKeys(depends.entries))
    ensures depends.Atom? && depends.c.Str? ==> r == Success(Chars(depends.c.s))
  {
    match depends
    case VList(xs) => Success(TruthyStrings(xs))
    case VDict(es) => Success(TruthyStringKeys(es))
    case Atom(c) => if c.Str? then Success(Chars(c.s)) else Failure("TypeError")
  }

  /** `get_dependencies`: [] for a module no root holds; otherwise the
      truthy entries of `depends` (default []), order and duplicates
      kept. */
  function GetDependencies(roots: seq<Root>, name: string): (r: Result<seq<string>>)
    ensures FindModulePath(roots, name).None? ==> r == Success([])
    ensures ManifestOf(roots, name).Some? ==>
              r == FilterDepends(Lookup(ManifestOf(roots, name).value, Str("depends")).GetOr(VList([])))
  {
    var manifest := ManifestOf(roots, name);
    if manifest.None? then Success([])
    else FilterDepends(Lookup(manifest.value, Str("depends")).GetOr(VList([])))
  }

  /** A `depends` list written as a display of non-empty module names is
      read back as exactly those names, in order. */
  lemma {:induction false} DependsListRoundTrip(names: seq<string>)
    requires forall i :: 0 <= i < |names| ==> names[i] != ""
    ensures FilterDepends(ExtractValue(StringList(names))) == Success(names)
    decreases |names|
  {
    var atoms := seq(|names|, i requires 0 <= i < |names| => Atom(Str(names[i])));
    assert ExtractValue(StringList(names)).items == atoms;
    StringAtomsRoundTrip(names);
  }

  lemma {:induction false} StringAtomsRoundTrip(names: seq<string>)
    requires forall i :: 0 <= i < |names| ==> names[i] != ""
    ensures TruthyStrings(seq(|names|, i requires 0 <= i < |names| => Atom(Str(names[i])))) == names
    decreases |names|
  {
    if names != [] {
      StringAtomsRoundTrip(names[1..]);
      var atoms := seq(|names|, i requires 0 <= i < |names| => Atom(Str(names[i])));
      assert atoms[1..] == seq(|names[1..]|, i requires 0 <= i < |names[1..]| => Atom(Str(names[1..][i])));
    }
  }

  /** A module whose manifest is `{'depends': [names...]}` and that sits
      in the first root holding it has exactly `names` as dependencies. */
  lemma DependsFromManifest(roots: seq<Root>, name: string, names: seq<string>)
    requires forall i :: 0 <= i < |names| ==> names[i] != ""
    requires FindModulePath(roots, name).Some?
    requires roots[FindModulePath(roots, name).value].children[name].manifest
             == Some(Parsed(Some([DictItem(Some(Constant(Str("depends"))), StringList(names))])))
    ensures GetDependencies(roots, name) == Success(names)
  {
    var items := [DictItem(Some(Constant(Str("depends"))), StringList(names))];
    ExtractDictLookup(items, Str("depends"));
    assert LastValue(items, Str("depends")) == Some(ExtractValue(StringList(names)));
    DependsListRoundTrip(names);
  }

  /** The `get_module_info` dict. */
  datatype ModuleInfo = ModuleInfo(name: Value, version: Value, depends: Value, path: string)

  /** `get_module_info`: None (the empty dict) for a module no root
      holds; otherwise the manifest's name, version and depends with
      their defaults, and the module directory. */
  function GetModuleInfo(roots: seq<Root>, name: string): (r: Option<ModuleInfo>)
    ensures r.None? <==> FindModulePath(roots, name).None?
    ensures r.Some? ==> r.value.path == ModulePath(roots[FindModulePath(roots, name).value], name)
    ensures r.Some? ==>
              var m := ManifestOf(roots, name).value;
              && (Lookup(m, Str("name")).None? ==> r.value.name == Atom(Str(name)))
              && (Lookup(m, Str("version")).None? ==> r.value.version == Atom(Str("unknown")))
              && (Lookup(m, Str("depends")).None? ==> r.value.depends == VList([]))
              && (Lookup(m, Str("name")).Some? ==> r.value.name == Lookup(m, Str("name")).value)
              && (Lookup(m, Str("version")).Some? ==> r.value.version == Lookup(m, Str("version")).value)
              && (Lookup(m, Str("depends")).Some? ==> r.value.depends == Lookup(m, Str("depends")).value)
  {
    var i := FindModulePath(roots, name);
    if i.None? then None
    else
      var m := ManifestOf(roots, name).value;
      Some(ModuleInfo(
        Lookup(m, Str("name")).GetOr(Atom(Str(name))),
        Lookup(m, Str("version")).GetOr(Atom(Str("unknown"))),
        Lookup(m, Str("depends")).GetOr(VList([])),
        ModulePath(roots[i.value], name)))
  }
}

=== FILE: markdown_formatter.dfy ===
/** The list logic of the Markdown report (formatters/markdown_formatter.py):
    the field total, the one-line-per-node chain tree, the lookup of the
    module a method overrides, and the lines rendered for a node's
    header, fields and methods. */
module MarkdownFormatter {
  import opened Wrappers
  import opened Seqs
  import opened Strings
  import opened ModelParser
  import opened DependencyResolver

  // ---------------------------------------------------------------------
  // Field total
  // ---------------------------------------------------------------------

  /** `sum(len(node.model_info.fields) for node in chain)`. */
  function TotalFields(chain: seq<Node>): (n: nat)
    ensures n == 0 <==> forall i :: 0 <= i < |chain| ==> chain[i].info.fields == map[]
    ensures forall i :: 0 <= i < |chain| ==> |chain[i].info.fields| <= n
    decreases |chain|
  {
    if chain == [] then 0
    else
      var rest := TotalFields(chain[1..]);
      assert forall i :: 1 <= i < |chain| ==> chain[i] == chain[1..][i - 1];
      assert |chain[0].info.fields| == 0 <==> chain[0].info.fields == map[] by {
        if chain[0].info.fields != map[] {
          var k :| k in chain[0].info.fields;
          assert k in chain[0].info.fields.Keys;
        }
      }
      |chain[0].info.fields| + rest
  }

  /** The total of a chain is the sum of the totals of its parts. */
  lemma {:induction false} TotalFieldsAppend(a: seq<Node>, b: seq<Node>)
    ensures TotalFields(a + b) == TotalFields(a) + TotalFields(b)
    decreases |a|
  {
    if a != [] {
      TotalFieldsAppend(a[1..], b);
      assert (a + b)[0] == a[0];
      assert (a + b)[1..] == a[1..] + b;
    } else {
      assert a + b == b;
    }
  }

  /** A one-node chain totals that node's fields; with the
      concatenation rule this makes the total the sum of the field
      counts. */
  lemma TotalFieldsSingle(x: Node)
    ensures TotalFields([x]) == |x.info.fields|
  {
    assert [x][1..] == [];
  }

  // ---------------------------------------------------------------------
  // Chain tree (_build_chain_tree)
  // ---------------------------------------------------------------------

  /** `"  " * k`. */
  function Indent(k: nat): (r: string)
    ensures |r| == 2 * k
    ensures forall i :: 0 <= i < |r| ==> r[i] == ' '
  {
    if k == 0 then "" else "  " + Indent(k - 1)
  }

  /** The arrow that introduces every node after the first. */
  const Arrow: string := "\U{2514}\U{2500}> "

  /** Whether the node at position `i` of an `n`-node chain is marked as
      the current context: only the last node, only past the first
      line, and only when its module is the context module. */
  predicate MarkedCurrent(i: nat, n: nat, moduleName: string, ctx: Option<string>) {
    i != 0 && i == n - 1 && ctx == Some(moduleName)
  }

  /** What a tree line starts with: the module tagged as the base on the
      first line, else the indented arrow and the module. */
  function TreeHead(i: nat, moduleName: string): string {
    if i == 0 then moduleName + " (BASE) - " else Indent(i - 1) + Arrow + moduleName + " - +"
  }

  /** The tree line of the node at position `i`: the head, the field
      count, and the `[CURRENT]` marker on a marked line. */
  function TreeLine(i: nat, n: nat, moduleName: string, count: nat, ctx: Option<string>): (r: string)
    ensures i == 0 ==> IsPrefix(moduleName + " (BASE) - ", r)
    ensures i > 0 ==> IsPrefix(Indent(i - 1) + Arrow + moduleName + " - +", r)
    ensures IsSuffix(" [CURRENT]", r) <==> MarkedCurrent(i, n, moduleName, ctx)
    ensures IsSuffix(NatToString(count) + " fields", r) <==> !MarkedCurrent(i, n, moduleName, ctx)
    ensures MarkedCurrent(i, n, moduleName, ctx) ==> IsSuffix(NatToString(count) + " fields [CURRENT]", r)
    ensures |r| == |TreeHead(i, moduleName)| + |NatToString(count) + " fields"|
                   + (if MarkedCurrent(i, n, moduleName, ctx) then |" [CURRENT]"| else 0)
  {
    var head := TreeHead(i, moduleName);
    var body := NatToString(count) + " fields";
    var marked := MarkedCurrent(i, n, moduleName, ctx);
    var tail := if marked then " [CURRENT]" else "";
    var r := head + body + tail;
    ConcatParts(head, body, tail);
    assert body[|body| - 1] == 's';
    if marked then
      assert r[|r| - 1] == ']';
      assert body + tail == NatToString(count) + " fields [CURRENT]" by {
        assert " fields" + " [CURRENT]" == " fields [CURRENT]";
      }
      assert !IsSuffix(body, r) by {
        if IsSuffix(body, r) {
          SuffixLast(body, r);
        }
      }
      r
    else
      assert tail == "" && body + tail == body;
      assert r[|r| - 1] == 's';
      assert !IsSuffix(" [CURRENT]", r) by {
        if IsSuffix(" [CURRENT]", r) {
          SuffixLast(" [CURRENT]", r);
        }
      }
      r
  }

  /** A non-empty suffix ends with the last character of the text. */
  lemma SuffixLast(p: string, s: string)
    requires |p| > 0 && IsSuffix(p, s)
    ensures s[|s| - 1] == p[|p| - 1]
  {
    assert s[|s| - |p|..][|p| - 1] == s[|s| - 1];
  }

  /** A concatenation starts with its first part and ends with its last
      two, and its length is the sum of theirs. */
  lemma ConcatParts(head: string, body: string, tail: string)
    ensures var r := head + body + tail;
      && |r| == |head| + |body| + |tail|
      && IsPrefix(head, r)
      && IsSuffix(tail, r)
      && IsSuffix(body + tail, r)
  {
    var r := head + body + tail;
    assert r[..|head|] == head;
    assert r[|r| - |tail|..] == tail;
    assert r[|r| - |body + tail|..] == body + tail;
  }

  /** `_build_chain_tree`: one line per node, the first unindented and
      marked as the base, the others indented by depth. */
  function ChainTree(chain: seq<Node>, ctx: Option<string>): (r: seq<string>)
    ensures |r| == |chain|
    ensures forall i :: 0 <= i < |chain| ==>
              r[i] == TreeLine(i, |chain|, chain[i].info.moduleName, |chain[i].info.fields|, ctx)
  {
    seq(|chain|, i requires 0 <= i < |chain| =>
      TreeLine(i, |chain|, chain[i].info.moduleName, |chain[i].info.fields|, ctx))
  }

  /** The tree marks at most one node, the last, as the current context,
      and every other line ends with the node's field count. */
  lemma ChainTreeMarksLastOnly(chain: seq<Node>, ctx: Option<string>)
    ensures forall i :: 0 <= i < |chain| && IsSuffix(" [CURRENT]", ChainTree(chain, ctx)[i]) ==>
              i == |chain| - 1 && i > 0 && ctx == Some(chain[i].info.moduleName)
    ensures forall i :: 0 <= i < |chain| - 1 ==>
              IsSuffix(NatToString(|chain[i].info.fields|) + " fields", ChainTree(chain, ctx)[i])
  {
  }

  /** The number of spaces a line starts with. */
  function LeadingSpaces(s: string): (n: nat)
    ensures n <= |s|
    decreases |s|
  {
    if s != [] && s[0] == ' ' then 1 + LeadingSpaces(s[1..]) else 0
  }

  lemma {:induction false} LeadingSpacesOfIndent(k: nat, rest: string)
    requires rest == [] || rest[0] != ' '
    ensures LeadingSpaces(Indent(k) + rest) == 2 * k
    decreases k
  {
    if k > 0 {
      LeadingSpacesOfIndent(k - 1, rest);
      assert Indent(k) + rest == "  " + (Indent(k - 1) + rest);
      assert ("  " + (Indent(k - 1) + rest))[2..] == Indent(k - 1) + rest;
    }
  }

  /** A node's depth in the chain can be read back from its tree line:
      the line of position `i > 0` starts with `2 * (i - 1)` spaces. */
  lemma TreeLineDepth(i: nat, n: nat, moduleName: string, count: nat, ctx: Option<string>)
    requires i > 0
    ensures LeadingSpaces(TreeLine(i, n, moduleName, count, ctx)) == 2 * (i - 1)
  {
    var r := TreeLine(i, n, moduleName, count, ctx);
    assert IsPrefix(TreeHead(i, moduleName), r);
    HeadDepth(i, moduleName, r);
  }

  /** Any text starting with the head of a line past the first starts
      with exactly `2 * (i - 1)` spaces. */
  lemma HeadDepth(i: nat, moduleName: string, r: string)
    requires i > 0 && IsPrefix(TreeHead(i, moduleName), r)
    ensures LeadingSpaces(r) == 2 * (i - 1)
  {
    var head := TreeHead(i, moduleName);
    var k := 2 * (i - 1);
    assert head == Indent(i - 1) + (Arrow + moduleName + " - +");
    assert head[..k] == Indent(i - 1) && head[k] == Arrow[0];
    var rest := r[k..];
    assert r[..k] == Indent(i - 1);
    assert r == r[..k] + rest;
    assert rest[0] == Arrow[0];
    LeadingSpacesOfIndent(i - 1, rest);
  }

  // ---------------------------------------------------------------------
  // Parent methods (_get_parent_methods)
  // ---------------------------------------------------------------------

  /** Method `m` is defined by some node of `nodes`. */
  predicate DefinedIn(nodes: seq<Node>, m: string) {
    exists i :: 0 <= i < |nodes| && m in nodes[i].info.methods
  }

  /** Node `i` is the first of `nodes` to define `m`. */
  predicate FirstDefiner(nodes: seq<Node>, m: string, i: int) {
    0 <= i < |nodes| && m in nodes[i].info.methods &&
    forall j :: 0 <= j < i ==> m !in nodes[j].info.methods
  }

  /** The inner loop over one node's methods: names not yet recorded are
      attributed to this node's module. */
  function Claim(acc: map<string, string>, info: ModelInfo): (r: map<string, string>)
    ensures forall m :: m in r <==> m in acc || m in info.methods
    ensures forall m :: m in acc ==> r[m] == acc[m]
    ensures forall m :: m !in acc && m in info.methods ==> r[m] == info.moduleName
  {
    acc + map m | m in info.methods && m !in acc :: info.moduleName
  }

  /** The outer loop over the earlier nodes, from the dict built so
      far: a name keeps the module of the first node that defines it. */
  function FirstDefiners(nodes: seq<Node>, acc: map<string, string>): (r: map<string, string>)
    ensures forall m :: m in r <==> m in acc || DefinedIn(nodes, m)
    ensures forall m :: m in acc ==> r[m] == acc[m]
    ensures forall m, i :: m !in acc && FirstDefiner(nodes, m, i) ==> m in r && r[m] == nodes[i].info.moduleName
    decreases |nodes|
  {
    if nodes == [] then acc
    else
      var next := Claim(acc, nodes[0].info);
      var r := FirstDefiners(nodes[1..], next);
      assert forall m :: DefinedIn(nodes, m) <==> m in nodes[0].info.methods || DefinedIn(nodes[1..], m) by {
        forall m | DefinedIn(nodes, m) && m !in nodes[0].info.methods ensures DefinedIn(nodes[1..], m) {
          var i :| 0 <= i < |nodes| && m in nodes[i].info.methods;
          assert nodes[1..][i - 1] == nodes[i];
        }
        forall m | DefinedIn(nodes[1..], m) ensures DefinedIn(nodes, m) {
          var i :| 0 <= i < |nodes[1..]| && m in nodes[1..][i].info.methods;
          assert nodes[i + 1] == nodes[1..][i];
        }
      }
      assert forall m, i :: m !in acc && FirstDefiner(nodes, m, i) ==> m in r && r[m] == nodes[i].info.moduleName by {
        forall m, i | m !in acc && FirstDefiner(nodes, m, i) ensures m in r && r[m] == nodes[i].info.moduleName {
          assert DefinedIn(nodes, m);
          if i > 0 {
            assert m !in nodes[0].info.methods;
            assert FirstDefiner(nodes[1..], m, i - 1);
          }
        }
      }
      r
  }

  /** `_get_parent_methods(chain, current_order)`: the nodes before
      position `current_order - 1` (a Python slice, so a non-positive
      order counts from the end), each method name mapped to the module
      of the first of them that defines it. */
  function ParentMethods(chain: seq<Node>, currentOrder: int): (r: map<string, string>)
    ensures forall m :: m in r <==> DefinedIn(Take(chain, currentOrder - 1), m)
    ensures forall m, i :: FirstDefiner(Take(chain, currentOrder - 1), m, i) ==>
              m in r && r[m] == chain[i].info.moduleName
  {
    var earlier := Take(chain, currentOrder - 1);
    var r := FirstDefiners(earlier, map[]);
    assert forall i :: 0 <= i < |earlier| ==> earlier[i] == chain[i];
    r
  }

  /** On a numbered chain, the lookup for the node at position `k` sees
      only the nodes before it: every name it reports is defined at an
      earlier position, by the module it names, and that is the earliest
      such position, not the closest. */
  lemma {:induction false} ParentMethodsAreEarlier(chain: seq<Node>, k: int)
    requires 0 <= k < |chain|
    requires forall i :: 0 <= i < |chain| ==> chain[i].order == i + 1
    ensures var r := ParentMethods(chain, chain[k].order);
      forall m :: m in r ==>
        exists i :: 0 <= i < k && FirstDefiner(chain[..k], m, i) && r[m] == chain[i].info.moduleName
  {
    var r := ParentMethods(chain, chain[k].order);
    var earlier := Take(chain, chain[k].order - 1);
    assert earlier == chain[..k];
    forall m | m in r
      ensures exists i :: 0 <= i < k && FirstDefiner(chain[..k], m, i) && r[m] == chain[i].info.moduleName
    {
      var i := FirstIndex(earlier, m);
      assert FirstDefiner(earlier, m, i);
    }
  }

  /** The lookup does not name the closest earlier definer: when two
      earlier nodes of distinct modules define a method, the later of
      them is never the one reported. */
  lemma {:induction false} ParentMethodsNotClosest(chain: seq<Node>, k: int, i: int, j: int, m: string)
    requires 0 <= i < j < k < |chain|
    requires forall t :: 0 <= t < |chain| ==> chain[t].order == t + 1
    requires NoDup(Modules(chain))
    requires m in chain[i].info.methods && m in chain[j].info.methods
    ensures m in ParentMethods(chain, chain[k].order)
    ensures ParentMethods(chain, chain[k].order)[m] != chain[j].info.moduleName
  {
    var earlier := Take(chain, chain[k].order - 1);
    assert |earlier| == k;
    assert earlier[i] == chain[i];
    var f := FirstIndex(earlier, m);
    assert f <= i;
    ReportsFirstDefiner(chain, chain[k].order, m, f);
    assert Modules(chain)[f] != Modules(chain)[j];
  }

  lemma ReportsFirstDefiner(chain: seq<Node>, currentOrder: int, m: string, f: int)
    requires FirstDefiner(Take(chain, currentOrder - 1), m, f)
    ensures m in ParentMethods(chain, currentOrder)
    ensures ParentMethods(chain, currentOrder)[m] == chain[f].info.moduleName
  {
  }

  /** The first node that defines `m`, found by scanning. */
  function FirstIndex(nodes: seq<Node>, m: string): (i: int)
    requires DefinedIn(nodes, m)
    ensures FirstDefiner(nodes, m, i)
    decreases |nodes|
  {
    if m in nodes[0].info.methods then 0
    else
      assert DefinedIn(nodes[1..], m) by {
        var i :| 0 <= i < |nodes| && m in nodes[i].info.methods;
        assert nodes[1..][i - 1] == nodes[i];
      }
      var j := FirstIndex(nodes[1..], m);
      assert forall t :: 1 <= t <= j ==> nodes[t] == nodes[1..][t - 1];
      j + 1
  }

  // ---------------------------------------------------------------------
  // Per-node lines
  // ---------------------------------------------------------------------

  /** "Defined" for the base definition, "Added" for an extension. */
  function Action(isBase: bool): string {
    if isBase then "Defined" else "Added"
  }

  /** `context_module and module == context_module`: an empty context
      name is falsy and marks nothing. */
  predicate IsCurrent(moduleName: string, ctx: Option<string>) {
    ctx.Some? && ctx.value != "" && moduleName == ctx.value
  }

  /** The `### {order}. {module}` heading, tagged as the base definition
      or, failing that, as the current context. */
  function NodeHeader(node: Node, ctx: Option<string>): (r: string)
    ensures var head := "### " + NatToString(node.order) + ". " + node.info.moduleName;
      && IsPrefix(head, r)
      && (r[|head|..] == " (base definition)" <==> node.info.isBase)
      && (r[|head|..] == " (current context)" <==> !node.info.isBase && IsCurrent(node.info.moduleName, ctx))
      && (r == head <==> !node.info.isBase && !IsCurrent(node.info.moduleName, ctx))
  {
    var head := "### " + NatToString(node.order) + ". " + node.info.moduleName;
    var tag :=
      if node.info.isBase then " (base definition)"
      else if IsCurrent(node.info.moduleName, ctx) then " (current context)"
      else "";
    var r := head + tag;
    assert r[..|head|] == head && r[|head|..] == tag;
    assert " (base definition)" != " (current context)" by {
      assert " (base definition)"[2] != " (current context)"[2];
    }
    r
  }

  /** One field line: its name, its type and the `[required]` marker. */
  function FieldLine(name: string, f: FieldInfo): (r: string)
    ensures IsPrefix("- `" + name + "`: " + f.fieldType, r)
    ensures f.required ==> IsSuffix(" [required]", r)
    ensures !f.required ==> IsSuffix(f.fieldType, r)
    ensures |r| == |"- `" + name + "`: " + f.fieldType| + (if f.required then |" [required]"| else 0)
  {
    var head := "- `" + name + "`: " + f.fieldType;
    var r := head + (if f.required then " [required]" else "");
    assert r[..|head|] == head;
    assert r[|r| - |f.fieldType|..] == f.fieldType || f.required;
    r
  }

  /** One method line, citing the module it overrides when the method
      calls `super()` and an earlier node defines it. */
  function MethodLine(name: string, hasSuper: bool, parents: map<string, string>): (r: string)
    ensures IsPrefix("- `" + name + "`", r)
    ensures IsSuffix("]", r) <==> hasSuper && name in parents
    ensures hasSuper && name in parents ==> IsSuffix(" [super from " + parents[name] + "]", r)
    ensures |r| == |"- `" + name + "`"| + (if hasSuper && name in parents then |" [super from " + parents[name] + "]"| else 0)
  {
    var head := "- `" + name + "`";
    if hasSuper && name in parents then
      var r := head + " [super from " + parents[name] + "]";
      assert r[..|head|] == head;
      assert r[|r| - |" [super from " + parents[name] + "]"|..] == " [super from " + parents[name] + "]";
      r
    else
      assert head[|head| - 1] == '`';
      head
  }

  /** The lines of the fields named in `names`, in that order. */
  function FieldLinesOf(names: seq<string>, fields: map<string, FieldInfo>): (r: seq<string>)
    requires forall x :: x in names ==> x in fields
    ensures |r| == |names|
    ensures forall i :: 0 <= i < |names| ==> r[i] == FieldLine(names[i], fields[names[i]])
  {
    seq(|names|, i requires 0 <= i < |names| => FieldLine(names[i], fields[names[i]]))
  }

  /** A markdown block: a heading, a blank line, the lines, a blank
      line. */
  function Block(heading: string, lines: seq<string>): (r: seq<string>)
    ensures |r| == |lines| + 3 && r[0] == heading && r[1] == "" && r[|r| - 1] == ""
    ensures forall i :: 0 <= i < |lines| ==> r[i + 2] == lines[i]
  {
    [heading, ""] + lines + [""]
  }

  /** The fields block of a node: a counted heading, then one line per
      field in ascending name order, or a note that the module adds
      none. */
  function FieldLines(info: ModelInfo): (r: seq<string>)
    ensures |info.fields| == 0 ==> r == ["*No fields added in this module*", ""]
    ensures |info.fields| > 0 ==>
              var names := SortedElems(info.fields.Keys);
              && |r| == |info.fields| + 3
              && r[0] == "**Fields " + Action(info.isBase) + " (" + NatToString(|info.fields|) + "):**"
              && forall i :: 0 <= i < |names| ==> r[i + 2] == FieldLine(names[i], info.fields[names[i]])
  {
    if |info.fields| == 0 then ["*No fields added in this module*", ""]
    else
      assert |info.fields.Keys| == |info.fields|;
      FieldBlock(info, SortedElems(info.fields.Keys))
  }

  /** The fields block for the field names `names`, in that order. */
  function FieldBlock(info: ModelInfo, names: seq<string>): (r: seq<string>)
    requires forall x :: x in names ==> x in info.fields
    ensures |r| == |names| + 3
    ensures r[0] == "**Fields " + Action(info.isBase) + " (" + NatToString(|info.fields|) + "):**"
    ensures forall i :: 0 <= i < |names| ==> r[i + 2] == FieldLine(names[i], info.fields[names[i]])
  {
    Block("**Fields " + Action(info.isBase) + " (" + NatToString(|info.fields|) + "):**", FieldLinesOf(names, info.fields))
  }

  /** The lines of the methods named in `names`, in that order. */
  function MethodLinesOf(names: seq<string>, methods: map<string, bool>, parents: map<string, string>): (r: seq<string>)
    requires forall x :: x in names ==> x in methods
    ensures |r| == |names|
    ensures forall i :: 0 <= i < |names| ==> r[i] == MethodLine(names[i], methods[names[i]], parents)
  {
    seq(|names|, i requires 0 <= i < |names| => MethodLine(names[i], methods[names[i]], parents))
  }

  /** The methods block of a node: a counted heading, then one line per
      method in ascending name order; nothing when the module defines
      none. */
  function MethodLines(info: ModelInfo, parents: map<string, string>): (r: seq<string>)
    ensures |info.methods| == 0 ==> r == []
    ensures |info.methods| > 0 ==>
              var names := SortedElems(info.methods.Keys);
              && |r| == |info.methods| + 3
              && r[0] == "**Methods " + Action(info.isBase) + " (" + NatToString(|info.methods|) + "):**"
              && forall i :: 0 <= i < |names| ==> r[i + 2] == MethodLine(names[i], info.methods[names[i]], parents)
  {
    if |info.methods| == 0 then []
    else
      assert |info.methods.Keys| == |info.methods|;
      MethodBlock(info, SortedElems(info.methods.Keys), parents)
  }

  /** The methods block for the method names `names`, in that order. */
  function MethodBlock(info: ModelInfo, names: seq<string>, parents: map<string, string>): (r: seq<string>)
    requires forall x :: x in names ==> x in info.methods
    ensures |r| == |names| + 3
    ensures r[0] == "**Methods " + Action(info.isBase) + " (" + NatToString(|info.methods|) + "):**"
    ensures forall i :: 0 <= i < |names| ==> r[i + 2] == MethodLine(names[i], info.methods[names[i]], parents)
  {
    Block("**Methods " + Action(info.isBase) + " (" + NatToString(|info.methods|) + "):**",
      MethodLinesOf(names, info.methods, parents))
  }
}

=== FILE: model_parser.dfy ===
/** The declaration extractor of the model inspector
    (parsers/model_parser.py): recognises Odoo model classes in a parsed
    source file and records their `_name`, `_inherit`, fields and
    methods. */
module ModelParser {
  import opened Wrappers
  import opened Seqs
  import opened Strings
  import opened PyAst

  /** The `{type, required}` entry recorded for one field. */
  datatype FieldInfo = FieldInfo(fieldType: string, required: bool)

  /** ModelInfo: one model-like class found in one file. */
  datatype ModelInfo = ModelInfo(
    moduleName: string,
    file: string,
    line: nat,
    modelName: Option<string>,
    inherits: seq<string>,
    isBase: bool,
    fields: map<string, FieldInfo>,
    methods: map<string, bool>)

  /** Python truthiness of `model_info.model_name`. */
  predicate HasName(info: ModelInfo) {
    info.modelName.Some? && info.modelName.value != ""
  }

  /** ModelParser.FIELD_TYPES. */
  const FieldTypes: set<string> := {
    "Char", "Text", "Html", "Integer", "Float", "Monetary",
    "Boolean", "Date", "Datetime", "Binary", "Selection",
    "Many2one", "One2many", "Many2many", "Reference",
    "Json", "Properties"
  }

  /** The three base classes that make a class an Odoo model. */
  const ModelMarkers: set<string> := {"models.Model", "models.TransientModel", "models.AbstractModel"}

  /** An order in which `for ft in FIELD_TYPES` may visit the set: each
      type exactly once. Python fixes it per process (string hashing), so
      the model takes it as a parameter. */
  predicate IsIterationOrder(order: seq<string>) {
    NoDup(order) && Elems(order) == FieldTypes
  }

  // ---------------------------------------------------------------------
  // Dotted names (_get_attribute_name)
  // ---------------------------------------------------------------------

  /** `_get_attribute_name`: a Name gives its id, an Attribute gives
      `prefix.attr` (or just `attr` when the prefix does not resolve to a
      non-empty name), anything else gives None. */
  function AttributeName(e: Expr): (r: Option<string>)
    ensures r.Some? <==> e.Name? || e.Attribute?
    ensures e.Name? ==> r == Some(e.id)
    ensures e.Attribute? ==> r.Some? && IsPrefix(Reverse(e.attr), Reverse(r.value))
    ensures e.Attribute? && (AttributeName(e.value).None? || AttributeName(e.value) == Some(""))
            ==> r == Some(e.attr)
  {
    match e
    case Name(id) => Some(id)
    case Attribute(v, attr) =>
      var prefix := AttributeName(v);
      var r := if prefix.Some? && prefix.value != "" then prefix.value + "." + attr else attr;
      assert Reverse(r)[..|attr|] == Reverse(attr);
      Some(r)
    case _ => None
  }

  /** The expression `p0.p1. ... .pn` written as nested Attribute nodes
      over a Name. */
  function Dotted(parts: seq<string>): Expr
    requires |parts| >= 1
  {
    if |parts| == 1 then Name(parts[0])
    else Attribute(Dotted(parts[..|parts| - 1]), parts[|parts| - 1])
  }

  lemma {:induction false} JoinSnoc(parts: seq<string>, sep: char)
    requires |parts| >= 2
    ensures Join(parts, sep) == Join(parts[..|parts| - 1], sep) + [sep] + parts[|parts| - 1]
    decreases |parts|
  {
    if |parts| > 2 {
      JoinSnoc(parts[1..], sep);
      assert parts[1..][..|parts| - 2] == parts[..|parts| - 1][1..];
    }
  }

  /** Resolving a dotted access chain of non-empty identifiers gives the
      identifiers joined by dots, and splitting that name at the dots
      gives the identifiers back. */
  lemma {:induction false} DottedNameRoundTrip(parts: seq<string>)
    requires |parts| >= 1
    requires forall i :: 0 <= i < |parts| ==> parts[i] != "" && '.' !in parts[i]
    ensures AttributeName(Dotted(parts)) == Some(Join(parts, '.'))
    ensures Split(Join(parts, '.'), '.') == parts
    decreases |parts|
  {
    if |parts| > 1 {
      var init := parts[..|parts| - 1];
      DottedNameRoundTrip(init);
      JoinSnoc(parts, '.');
      assert Join(init, '.') != "" by {
        JoinNonEmpty(init, '.');
      }
    }
    SplitJoin(parts, '.');
  }

  lemma {:induction false} JoinNonEmpty(parts: seq<string>, sep: char)
    requires |parts| >= 1 && parts[0] != ""
    ensures Join(parts, sep) != ""
  {
  }

  // ---------------------------------------------------------------------
  // Literal extraction (_extract_string_value, _extract_inherit_value)
  // ---------------------------------------------------------------------

  /** `_extract_string_value`: the text of a string constant, else None.
      A value comes back only from the literal that spells it, so the
      extractor inverts `Constant(Str(_))` (see StringLiteralRoundTrip). */
  function ExtractStringValue(e: Expr): (r: Option<string>)
    ensures r.Some? <==> e.Constant? && e.c.Str?
    ensures r.Some? ==> e == Constant(Str(r.value))
  {
    if e.Constant? && e.c.Str? then Some(e.c.s) else None
  }

  /** Writing a string as a literal and extracting it gives the string
      back, and no other constant (a number, a boolean, None) gives a
      string. */
  lemma StringLiteralRoundTrip(s: string, c: Const)
    ensures ExtractStringValue(Constant(Str(s))) == Some(s)
    ensures !c.Str? ==> ExtractStringValue(Constant(c)).None?
    ensures ExtractStringValue(Name(s)).None?
  {
  }

  /** The value is a non-empty string literal. */
  predicate NonEmptyLiteral(e: Expr) {
    e.Constant? && e.c.Str? && e.c.s != ""
  }

  /** The text of `e` when it is a non-empty string literal. */
  function LiteralText(e: Expr): (r: seq<string>)
    ensures |r| <= 1
    ensures forall s :: s in r <==> s != "" && e == Constant(Str(s))
  {
    if NonEmptyLiteral(e) then [e.c.s] else []
  }

  /** The non-empty string literals among `es`, in order. */
  function NonEmptyStrings(es: seq<Expr>): (r: seq<string>)
    ensures |r| <= |es|
    ensures forall i :: 0 <= i < |r| ==> r[i] != ""
    ensures forall s :: s in r <==> s != "" && Constant(Str(s)) in es
  {
    if es == [] then []
    else
      assert forall x :: x in es <==> x == es[0] || x in es[1..];
      LiteralText(es[0]) + NonEmptyStrings(es[1..])
  }

  /** Each non-empty string is kept as often as its literal occurs. */
  lemma {:induction false} NonEmptyStringsCount(es: seq<Expr>)
    ensures forall s :: s != "" ==> Count(NonEmptyStrings(es), s) == Count(es, Constant(Str(s)))
    decreases |es|
  {
    if es != [] {
      NonEmptyStringsCount(es[1..]);
      var head := LiteralText(es[0]);
      var rest := NonEmptyStrings(es[1..]);
      forall s | s != ""
        ensures Count(NonEmptyStrings(es), s) == Count(es, Constant(Str(s)))
      {
        if head == [] {
          assert NonEmptyStrings(es) == rest;
        } else {
          assert NonEmptyStrings(es) == [head[0]] + rest;
          assert ([head[0]] + rest)[1..] == rest;
        }
      }
    }
  }

  /** The list is read element by element: the strings of a concatenation
      are the strings of each part, so they keep their list order. With
      the one-element case this determines the result completely. */
  lemma {:induction false} NonEmptyStringsAppend(a: seq<Expr>, b: seq<Expr>)
    ensures NonEmptyStrings(a + b) == NonEmptyStrings(a) + NonEmptyStrings(b)
    decreases |a|
  {
    if a == [] {
      assert a + b == b;
    } else {
      var ab := a + b;
      assert ab[0] == a[0];
      assert ab[1..] == a[1..] + b;
      NonEmptyStringsAppend(a[1..], b);
      var head := LiteralText(a[0]);
      assert NonEmptyStrings(ab) == head + NonEmptyStrings(a[1..] + b);
    }
  }

  /** A one-element list gives its element exactly when it is a
      non-empty string literal. */
  lemma NonEmptyStringsSingle(e: Expr)
    ensures NonEmptyStrings([e]) == if NonEmptyLiteral(e) then [e.c.s] else []
  {
    assert [e][1..] == [];
  }

  /** `_extract_inherit_value`: a non-empty string gives a singleton, a
      list display gives its non-empty string elements in order, and
      anything else (a tuple, a name, an empty string) gives []. */
  function ExtractInheritValue(e: Expr): (r: seq<string>)
    ensures forall i :: 0 <= i < |r| ==> r[i] != ""
    ensures e.Constant? ==> |r| <= 1 && (r != [] <==> NonEmptyLiteral(e))
    ensures NonEmptyLiteral(e) ==> r == [e.c.s]
    ensures r != [] ==> e.Constant? || e.List?
    ensures e.List? ==> forall s :: s in r <==> s != "" && Constant(Str(s)) in e.elts
    ensures e.List? ==> forall s :: s != "" ==> Count(r, s) == Count(e.elts, Constant(Str(s)))
    ensures e.List? ==> r == NonEmptyStrings(e.elts)
  {
    match e
    case Constant(_) =>
      var v := ExtractStringValue(e);
      if v.Some? && v.value != "" then [v.value] else []
    case List(elts) =>
      NonEmptyStringsCount(elts);
      NonEmptyStrings(elts)
    case _ => []
  }

  /** Writing non-empty names as a list display and extracting them gives
      the names back, order and duplicates included. */
  lemma {:induction false} InheritListRoundTrip(names: seq<string>)
    requires forall i :: 0 <= i < |names| ==> names[i] != ""
    ensures ExtractInheritValue(StringList(names)) == names
    decreases |names|
  {
    LiteralStrings(names);
  }

  /** The non-empty literals of a display of non-empty names are the
      names themselves. */
  lemma {:induction false} LiteralStrings(names: seq<string>)
    requires forall i :: 0 <= i < |names| ==> names[i] != ""
    ensures NonEmptyStrings(StringList(names).elts) == names
    decreases |names|
  {
    if names != [] {
      var es := StringList(names).elts;
      LiteralStrings(names[1..]);
      assert es[1..] == StringList(names[1..]).elts;
      assert NonEmptyLiteral(es[0]);
      assert NonEmptyStrings(es) == [names[0]] + NonEmptyStrings(es[1..]);
    }
  }

  // ---------------------------------------------------------------------
  // Fields (_is_field_assignment, _extract_field_info, _extract_required_param)
  // ---------------------------------------------------------------------

  /** The keyword is `required=<constant>`. */
  predicate IsConstRequired(k: Keyword) {
    k.arg == Some("required") && k.value.Constant?
  }

  /** Keyword `i` is the first `required=<constant>` of the call. */
  predicate DecidesRequired(kws: seq<Keyword>, i: int) {
    0 <= i < |kws| && IsConstRequired(kws[i]) &&
    forall j :: 0 <= j < i ==> !IsConstRequired(kws[j])
  }

  /** `_extract_required_param`: the truthiness of the first
      `required=` keyword whose value is a constant; false when there is
      none (a non-constant `required=` is passed over). */
  function ExtractRequiredParam(kws: seq<Keyword>): (r: bool)
  {
    if kws == [] then false
    else if IsConstRequired(kws[0]) then Truthy(kws[0].value.c)
    else ExtractRequiredParam(kws[1..])
  }

  lemma {:induction false} RequiredParamSpec(kws: seq<Keyword>)
    ensures ExtractRequiredParam(kws) <==>
            exists i :: DecidesRequired(kws, i) && Truthy(kws[i].value.c)
    ensures (forall i :: 0 <= i < |kws| ==> !IsConstRequired(kws[i])) ==> !ExtractRequiredParam(kws)
    decreases |kws|
  {
    if kws != [] {
      RequiredParamSpec(kws[1..]);
      if IsConstRequired(kws[0]) {
        assert DecidesRequired(kws, 0);
        forall i | DecidesRequired(kws, i) ensures i == 0 {
        }
      } else {
        forall i | DecidesRequired(kws[1..], i) ensures DecidesRequired(kws, i + 1) {
        }
        forall i | DecidesRequired(kws, i) ensures DecidesRequired(kws[1..], i - 1) {
          assert i != 0;
        }
      }
    }
  }

  /** The non-empty dotted name of a call's callee, if it has one
      (`func_name` being truthy). */
  function CalleeName(e: Expr): (r: Option<string>)
    ensures r.Some? ==> e.Call? && r.value != "" && AttributeName(e.func) == r
  {
    if e.Call? then
      var n := AttributeName(e.func);
      if n.Some? && n.value != "" then n else None
    else None
  }

  /** Some known field type occurs in `name`. */
  predicate MentionsFieldType(name: string) {
    exists ft :: ft in FieldTypes && Contains(name, ft)
  }

  /** `_is_field_assignment`: a call whose dotted callee contains
      "fields." or the name of a known field type. */
  predicate IsFieldAssignment(e: Expr) {
    var n := CalleeName(e);
    n.Some? && (Contains(n.value, "fields.") || MentionsFieldType(n.value))
  }

  /** The first type of `order` that occurs in `name`. */
  function FirstContained(order: seq<string>, name: string): (r: Option<string>)
    ensures r.Some? ==> r.value in order && Contains(name, r.value)
    ensures r.None? <==> forall ft :: ft in order ==> !Contains(name, ft)
  {
    if order == [] then None
    else if Contains(name, order[0]) then Some(order[0])
    else FirstContained(order[1..], name)
  }

  /** `_extract_field_info`: a field is recorded exactly when the callee
      name contains some known type; the recorded type is one such type
      (which one depends on the set's iteration order). */
  function ExtractFieldInfo(e: Expr, order: seq<string>): (r: Option<FieldInfo>)
    requires IsIterationOrder(order)
    ensures r.Some? <==> CalleeName(e).Some? && MentionsFieldType(CalleeName(e).value)
    ensures r.Some? ==>
              && r.value.fieldType in FieldTypes
              && Contains(CalleeName(e).value, r.value.fieldType)
              && r.value.required == ExtractRequiredParam(e.keywords)
  {
    var n := CalleeName(e);
    if n.None? then None
    else
      var ft := FirstContained(order, n.value);
      if ft.None? then
        assert !MentionsFieldType(n.value);
        None
      else Some(FieldInfo(ft.value, ExtractRequiredParam(e.keywords)))
  }

  // ---------------------------------------------------------------------
  // Methods (_parse_method, _has_super_call)
  // ---------------------------------------------------------------------

  /** A call whose callee resolves to the name `super`. */
  predicate IsSuperCall(e: Expr) {
    e.Call? && AttributeName(e.func) == Some("super")
  }

  /** Some node of the expression's subtree is a `super` call. */
  predicate ExprHasSuper(e: Expr)
    decreases e
  {
    IsSuperCall(e) ||
    match e
    case Name(_) => false
    case Constant(_) => false
    case Attribute(v, _) => ExprHasSuper(v)
    case List(es) => ExprsHaveSuper(es)
    case Tuple(es) => ExprsHaveSuper(es)
    case Dict(items) => ItemsHaveSuper(items)
    case Call(f, args, kws) => ExprHasSuper(f) || ExprsHaveSuper(args) || KeywordsHaveSuper(kws)
    case OtherExpr(cs) => ExprsHaveSuper(cs)
  }

  predicate ExprsHaveSuper(es: seq<Expr>)
    decreases es
  {
    es != [] && (ExprHasSuper(es[0]) || ExprsHaveSuper(es[1..]))
  }

  predicate ItemHasSuper(item: DictItem)
    decreases item
  {
    match item
    case DictItem(k, v) =>
      (match k
       case Some(ke) => ExprHasSuper(ke)
       case None => false) || ExprHasSuper(v)
  }

  predicate ItemsHaveSuper(items: seq<DictItem>)
    decreases items
  {
    items != [] && (ItemHasSuper(items[0]) || ItemsHaveSuper(items[1..]))
  }

  predicate KeywordHasSuper(kw: Keyword)
    decreases kw
  {
    match kw
    case Keyword(_, v) => ExprHasSuper(v)
  }

  predicate KeywordsHaveSuper(kws: seq<Keyword>)
    decreases kws
  {
    kws != [] && (KeywordHasSuper(kws[0]) || KeywordsHaveSuper(kws[1..]))
  }

  predicate StmtHasSuper(s: Stmt)
    decreases s
  {
    match s
    case Assign(ts, v) => ExprsHaveSuper(ts) || ExprHasSuper(v)
    case FunctionDef(_, h, b) => ExprsHaveSuper(h) || StmtsHaveSuper(b)
    case OtherStmt(es, b) => ExprsHaveSuper(es) || StmtsHaveSuper(b)
  }

  predicate StmtsHaveSuper(ss: seq<Stmt>)
    decreases ss
  {
    ss != [] && (StmtHasSuper(ss[0]) || StmtsHaveSuper(ss[1..]))
  }

  /** `_has_super_call` on a `def` statement. */
  predicate HasSuperCall(f: Stmt) {
    StmtHasSuper(f)
  }

  /** Every expression node of a subtree, as `ast.walk` visits them. */
  ghost function ExprNodes(e: Expr): set<Expr>
    decreases e
  {
    {e} +
    match e
    case Name(_) => {}
    case Constant(_) => {}
    case Attribute(v, _) => ExprNodes(v)
    case List(es) => ExprsNodes(es)
    case Tuple(es) => ExprsNodes(es)
    case Dict(items) => ItemsNodes(items)
    case Call(f, args, kws) => ExprNodes(f) + ExprsNodes(args) + KeywordsNodes(kws)
    case OtherExpr(cs) => ExprsNodes(cs)
  }

  ghost function ExprsNodes(es: seq<Expr>): set<Expr>
    decreases es
  {
    if es == [] then {} else ExprNodes(es[0]) + ExprsNodes(es[1..])
  }

  ghost function ItemNodes(item: DictItem): set<Expr>
    decreases item
  {
    match item
    case DictItem(k, v) =>
      (match k
       case Some(ke) => ExprNodes(ke)
       case None => {}) + ExprNodes(v)
  }

  ghost function ItemsNodes(items: seq<DictItem>): set<Expr>
    decreases items
  {
    if items == [] then {} else ItemNodes(items[0]) + ItemsNodes(items[1..])
  }

  ghost function KeywordNodes(kw: Keyword): set<Expr>
    decreases kw
  {
    match kw
    case Keyword(_, v) => ExprNodes(v)
  }

  ghost function KeywordsNodes(kws: seq<Keyword>): set<Expr>
    decreases kws
  {
    if kws == [] then {} else KeywordNodes(kws[0]) + KeywordsNodes(kws[1..])
  }

  ghost function StmtNodes(s: Stmt): set<Expr>
    decreases s
  {
    match s
    case Assign(ts, v) => ExprsNodes(ts) + ExprNodes(v)
    case FunctionDef(_, h, b) => ExprsNodes(h) + StmtsNodes(b)
    case OtherStmt(es, b) => ExprsNodes(es) + StmtsNodes(b)
  }

  ghost function StmtsNodes(ss: seq<Stmt>): set<Expr>
    decreases ss
  {
    if ss == [] then {} else StmtNodes(ss[0]) + StmtsNodes(ss[1..])
  }

  ghost predicate SomeSuperCall(nodes: set<Expr>) {
    exists x :: x in nodes && IsSuperCall(x)
  }

  lemma {:induction false} ExprHasSuperSpec(e: Expr)
    ensures ExprHasSuper(e) <==> SomeSuperCall(ExprNodes(e))
    decreases e
  {
    assert e in ExprNodes(e);
    match e
    case Name(_) =>
    case Constant(_) =>
    case Attribute(v, _) => ExprHasSuperSpec(v);
    case List(es) => ExprsHaveSuperSpec(es);
    case Tuple(es) => ExprsHaveSuperSpec(es);
    case Dict(items) => ItemsHaveSuperSpec(items);
    case Call(f, args, kws) =>
      ExprHasSuperSpec(f);
      ExprsHaveSuperSpec(args);
      KeywordsHaveSuperSpec(kws);
    case OtherExpr(cs) => ExprsHaveSuperSpec(cs);
  }

  lemma {:induction false} ExprsHaveSuperSpec(es: seq<Expr>)
    ensures ExprsHaveSuper(es) <==> SomeSuperCall(ExprsNodes(es))
    decreases es
  {
    if es != [] {
      ExprHasSuperSpec(es[0]);
      ExprsHaveSuperSpec(es[1..]);
    }
  }

  lemma {:induction false} ItemHasSuperSpec(item: DictItem)
    ensures ItemHasSuper(item) <==> SomeSuperCall(ItemNodes(item))
    decreases item
  {
    match item
    case DictItem(k, v) =>
      match k {
        case Some(ke) => ExprHasSuperSpec(ke);
        case None =>
      }
      ExprHasSuperSpec(v);
  }

  lemma {:induction false} ItemsHaveSuperSpec(items: seq<DictItem>)
    ensures ItemsHaveSuper(items) <==> SomeSuperCall(ItemsNodes(items))
    decreases items
  {
    if items != [] {
      ItemHasSuperSpec(items[0]);
      ItemsHaveSuperSpec(items[1..]);
    }
  }

  lemma {:induction false} KeywordHasSuperSpec(kw: Keyword)
    ensures KeywordHasSuper(kw) <==> SomeSuperCall(KeywordNodes(kw))
    decreases kw
  {
    match kw
    case Keyword(_, v) => ExprHasSuperSpec(v);
  }

  lemma {:induction false} KeywordsHaveSuperSpec(kws: seq<Keyword>)
    ensures KeywordsHaveSuper(kws) <==> SomeSuperCall(KeywordsNodes(kws))
    decreases kws
  {
    if kws != [] {
      KeywordHasSuperSpec(kws[0]);
      KeywordsHaveSuperSpec(kws[1..]);
    }
  }

  lemma {:induction false} StmtHasSuperSpec(s: Stmt)
    ensures StmtHasSuper(s) <==> SomeSuperCall(StmtNodes(s))
    decreases s
  {
    match s
    case Assign(ts, v) =>
      ExprsHaveSuperSpec(ts);
      ExprHasSuperSpec(v);
    case FunctionDef(_, h, b) =>
      ExprsHaveSuperSpec(h);
      StmtsHaveSuperSpec(b);
    case OtherStmt(es, b) =>
      ExprsHaveSuperSpec(es);
      StmtsHaveSuperSpec(b);
  }

  lemma {:induction false} StmtsHaveSuperSpec(ss: seq<Stmt>)
    ensures StmtsHaveSuper(ss) <==> SomeSuperCall(StmtsNodes(ss))
    decreases ss
  {
    if ss != [] {
      StmtHasSuperSpec(ss[0]);
      StmtsHaveSuperSpec(ss[1..]);
    }
  }

  /** `has_super` holds exactly when some call anywhere in the function's
      subtree (decorators, defaults, nested definitions included)
      resolves to the name `super`. */
  lemma HasSuperCallSpec(f: Stmt)
    requires f.FunctionDef?
    ensures HasSuperCall(f) <==> exists x :: x in StmtNodes(f) && IsSuperCall(x)
  {
    StmtHasSuperSpec(f);
  }

  // ---------------------------------------------------------------------
  // Class bodies (_parse_assignment, _parse_method, _parse_class)
  // ---------------------------------------------------------------------

  /** One target of an assignment, as the loop body of `_parse_assignment`. */
  function ParseTarget(t: Expr, value: Expr, info: ModelInfo, order: seq<string>): ModelInfo
    requires IsIterationOrder(order)
  {
    if !t.Name? then info
    else if t.id == "_name" then
      info.(modelName := ExtractStringValue(value), isBase := true)
    else if t.id == "_inherit" then
      var inherits := ExtractInheritValue(value);
      var info' := info.(inherits := inherits);
      if !HasName(info) && inherits != [] then info'.(modelName := Some(inherits[0])) else info'
    else if IsFieldAssignment(value) then
      var fi := ExtractFieldInfo(value, order);
      if fi.Some? then info.(fields := info.fields[t.id := fi.value]) else info
    else info
  }

  /** `_parse_assignment`: every target of `t1 = t2 = value`, left to right. */
  function ParseAssignment(targets: seq<Expr>, value: Expr, info: ModelInfo, order: seq<string>): ModelInfo
    requires IsIterationOrder(order)
    decreases |targets|
  {
    if targets == [] then info
    else ParseAssignment(targets[1..], value, ParseTarget(targets[0], value, info, order), order)
  }

  /** `_parse_method`: methods whose names start with `__` are skipped;
      any other records its `has_super` flag, a later definition of the
      same name replacing an earlier one. */
  function ParseMethod(f: Stmt, info: ModelInfo): ModelInfo
    requires f.FunctionDef?
  {
    if IsPrefix("__", f.name) then info
    else info.(methods := info.methods[f.name := HasSuperCall(f)])
  }

  /** One statement of the class body. */
  function ParseStmt(s: Stmt, info: ModelInfo, order: seq<string>): ModelInfo
    requires IsIterationOrder(order)
  {
    match s
    case Assign(ts, v) => ParseAssignment(ts, v, info, order)
    case FunctionDef(_, _, _) => ParseMethod(s, info)
    case OtherStmt(_, _) => info
  }

  /** Statement `s` assigns to the plain name `n`. */
  predicate AssignsName(s: Stmt, n: string) {
    s.Assign? && Name(n) in s.targets
  }

  /** The body directly declares field `f` with info `fi`. */
  ghost predicate DeclaresField(body: seq<Stmt>, f: string, fi: FieldInfo, order: seq<string>)
    requires IsIterationOrder(order)
  {
    exists i :: 0 <= i < |body| && AssignsName(body[i], f) &&
      ExtractFieldInfo(body[i].value, order) == Some(fi)
  }

  /** Statement `s` defines a recorded (non-dunder) method `m`. */
  predicate DefinesMethod(s: Stmt, m: string) {
    s.FunctionDef? && s.name == m && !IsPrefix("__", m)
  }

  /** Statement `i` is the last definition of method `m` in the body. */
  predicate LastDefinition(body: seq<Stmt>, m: string, i: int) {
    0 <= i < |body| && DefinesMethod(body[i], m) &&
    forall j :: i < j < |body| ==> !DefinesMethod(body[j], m)
  }

  /** The source of a non-empty model name: a `_name` string literal or
      the first entry of some `_inherit`. */
  ghost predicate NameSource(body: seq<Stmt>, n: string) {
    exists i :: 0 <= i < |body| &&
      ((AssignsName(body[i], "_name") && ExtractStringValue(body[i].value) == Some(n)) ||
       (AssignsName(body[i], "_inherit") && ExtractInheritValue(body[i].value) != [] &&
        ExtractInheritValue(body[i].value)[0] == n))
  }

  lemma {:induction false} AssignmentHeader(targets: seq<Expr>, value: Expr, info: ModelInfo, order: seq<string>)
    requires IsIterationOrder(order)
    ensures var r := ParseAssignment(targets, value, info, order);
      && r.moduleName == info.moduleName && r.file == info.file && r.line == info.line
      && r.methods == info.methods
      && (r.isBase <==> info.isBase || Name("_name") in targets)
    decreases |targets|
  {
    if targets != [] {
      AssignmentHeader(targets[1..], value, ParseTarget(targets[0], value, info, order), order);
    }
  }

  /** The assignment `targets = value` records field `f`: `f` is one of
      its plain-name targets, not `_name` or `_inherit`, and the value is
      a call the extractor recognises as a field. */
  predicate DeclaresFieldIn(targets: seq<Expr>, f: string, value: Expr, order: seq<string>)
    requires IsIterationOrder(order)
  {
    Name(f) in targets && f != "_name" && f != "_inherit" && ExtractFieldInfo(value, order).Some?
  }

  /** An assignment records exactly the fields it declares, each with the
      extracted info, and leaves every other field as it was. */
  lemma {:induction false} AssignmentFields(targets: seq<Expr>, value: Expr, info: ModelInfo, order: seq<string>)
    requires IsIterationOrder(order)
    ensures var r := ParseAssignment(targets, value, info, order);
      && (forall f :: f in r.fields <==> f in info.fields || DeclaresFieldIn(targets, f, value, order))
      && (forall f :: DeclaresFieldIn(targets, f, value, order) ==>
            r.fields[f] == ExtractFieldInfo(value, order).value)
      && (forall f :: f in info.fields && !DeclaresFieldIn(targets, f, value, order) ==>
            r.fields[f] == info.fields[f])
    decreases |targets|
  {
    if targets != [] {
      var info1 := ParseTarget(targets[0], value, info, order);
      TargetFields(targets[0], value, info, order);
      AssignmentFields(targets[1..], value, info1, order);
      assert forall e :: e in targets <==> e == targets[0] || e in targets[1..];
      assert forall f :: DeclaresFieldIn(targets, f, value, order) <==>
                         TargetDeclares(targets[0], f, value, order) || DeclaresFieldIn(targets[1..], f, value, order);
    }
  }

  /** Target `t` of `t = value` records field `f`. */
  predicate TargetDeclares(t: Expr, f: string, value: Expr, order: seq<string>)
    requires IsIterationOrder(order)
  {
    t == Name(f) && f != "_name" && f != "_inherit" && ExtractFieldInfo(value, order).Some?
  }

  /** One target adds or replaces at most the field it names. */
  lemma TargetFields(t: Expr, value: Expr, info: ModelInfo, order: seq<string>)
    requires IsIterationOrder(order)
    ensures var r := ParseTarget(t, value, info, order);
      && (forall f :: f in r.fields <==> f in info.fields || TargetDeclares(t, f, value, order))
      && (forall f :: TargetDeclares(t, f, value, order) ==>
            r.fields[f] == ExtractFieldInfo(value, order).value)
      && (forall f :: f in info.fields && !TargetDeclares(t, f, value, order) ==>
            r.fields[f] == info.fields[f])
  {
    if t.Name? && t.id != "_name" && t.id != "_inherit" && IsFieldAssignment(value) {
      var fi := ExtractFieldInfo(value, order);
      assert fi.Some? ==> ParseTarget(t, value, info, order).fields == info.fields[t.id := fi.value];
    }
  }

  /** Where an assignment can take a non-empty model name from. */
  predicate NameFromAssignment(targets: seq<Expr>, value: Expr, n: Option<string>) {
    (Name("_name") in targets && ExtractStringValue(value) == n) ||
    (Name("_inherit") in targets && ExtractInheritValue(value) != [] &&
     n == Some(ExtractInheritValue(value)[0]))
  }

  /** What one target does to the model name and `inherits`: `_name`
      overwrites the name, `_inherit` overwrites `inherits` and fills in
      a missing name with its head, and any other target touches
      neither. */
  lemma TargetNames(t: Expr, value: Expr, info: ModelInfo, order: seq<string>)
    requires IsIterationOrder(order)
    ensures var r := ParseTarget(t, value, info, order);
      && (t == Name("_name") ==> r.modelName == ExtractStringValue(value) && r.inherits == info.inherits)
      && (t == Name("_inherit") ==> r.inherits == ExtractInheritValue(value))
      && (t == Name("_inherit") && (HasName(info) || ExtractInheritValue(value) == []) ==>
            r.modelName == info.modelName)
      && (t == Name("_inherit") && !HasName(info) && ExtractInheritValue(value) != [] ==>
            r.modelName == Some(ExtractInheritValue(value)[0]))
      && (t != Name("_name") && t != Name("_inherit") ==>
            r.modelName == info.modelName && r.inherits == info.inherits)
  {
  }

  /** The naming rule of `_parse_assignment` for a whole `t1 = t2 = value`:
      `_name` always sets the name (None for a value that is not a string
      literal), `_inherit` always sets `inherits` and supplies its head as
      the name only when no name is set yet, and a non-empty string
      assigned to both ends up as the name whatever the target order. */
  lemma {:induction false} AssignmentNameRule(targets: seq<Expr>, value: Expr, info: ModelInfo, order: seq<string>)
    requires IsIterationOrder(order)
    ensures var r := ParseAssignment(targets, value, info, order);
      var assignsName := Name("_name") in targets;
      var assignsInherit := Name("_inherit") in targets;
      && (assignsInherit ==> r.inherits == ExtractInheritValue(value))
      && (!assignsInherit ==> r.inherits == info.inherits)
      && (!assignsName && !assignsInherit ==> r.modelName == info.modelName)
      && (assignsName && !assignsInherit ==> r.modelName == ExtractStringValue(value))
      && (!assignsName && assignsInherit && (HasName(info) || ExtractInheritValue(value) == []) ==>
            r.modelName == info.modelName)
      && (!assignsName && assignsInherit && !HasName(info) && ExtractInheritValue(value) != [] ==>
            r.modelName == Some(ExtractInheritValue(value)[0]))
      && (assignsName && NonEmptyLiteral(value) ==> r.modelName == Some(value.c.s))
    decreases |targets|
  {
    if targets != [] {
      var info1 := ParseTarget(targets[0], value, info, order);
      TargetNames(targets[0], value, info, order);
      AssignmentNameRule(targets[1..], value, info1, order);
      assert forall x :: x in targets <==> x == targets[0] || x in targets[1..];
    }
  }

  /** Where an assignment's name and `inherits` come from, and the naming
      rule it follows. */
  lemma AssignmentNames(targets: seq<Expr>, value: Expr, info: ModelInfo, order: seq<string>)
    requires IsIterationOrder(order)
    ensures var r := ParseAssignment(targets, value, info, order);
      && (HasName(r) ==> (r.modelName == info.modelName || NameFromAssignment(targets, value, r.modelName)))
      && (r.inherits != info.inherits ==> Name("_inherit") in targets && r.inherits == ExtractInheritValue(value))
      && (Name("_name") in targets && Name("_inherit") !in targets ==> r.modelName == ExtractStringValue(value))
      && (Name("_name") !in targets && Name("_inherit") in targets ==>
            && (HasName(info) ==> r.modelName == info.modelName)
            && (!HasName(info) && ExtractInheritValue(value) != [] ==>
                  r.modelName == Some(ExtractInheritValue(value)[0])))
      && (Name("_name") in targets && NonEmptyLiteral(value) ==> r.modelName == Some(value.c.s))
  {
    AssignmentNameSources(targets, value, info, order);
    AssignmentNameRule(targets, value, info, order);
  }

  lemma {:induction false} AssignmentNameSources(targets: seq<Expr>, value: Expr, info: ModelInfo, order: seq<string>)
    requires IsIterationOrder(order)
    ensures var r := ParseAssignment(targets, value, info, order);
      && (HasName(r) ==> (r.modelName == info.modelName || NameFromAssignment(targets, value, r.modelName)))
      && (r.inherits != info.inherits ==> Name("_inherit") in targets && r.inherits == ExtractInheritValue(value))
    decreases |targets|
  {
    if targets != [] {
      TargetNames(targets[0], value, info, order);
      AssignmentNameSources(targets[1..], value, ParseTarget(targets[0], value, info, order), order);
      assert forall x :: x in targets[1..] ==> x in targets;
    }
  }

  /** `ParseBody` is the loop of `_parse_class` over the class body. */
  function ParseBody(body: seq<Stmt>, info: ModelInfo, order: seq<string>): ModelInfo
    requires IsIterationOrder(order)
    decreases |body|
  {
    if body == [] then info
    else ParseBody(body[1..], ParseStmt(body[0], info, order), order)
  }

  /** Scanning a class body keeps the record's location, and sets
      `is_base` exactly when some statement assigns `_name`, whatever the
      assigned value is. */
  lemma {:induction false} ParseBodyHeader(body: seq<Stmt>, info: ModelInfo, order: seq<string>)
    requires IsIterationOrder(order)
    ensures var r := ParseBody(body, info, order);
      && r.moduleName == info.moduleName && r.file == info.file && r.line == info.line
      && (r.isBase <==> info.isBase || exists i :: 0 <= i < |body| && AssignsName(body[i], "_name"))
    decreases |body|
  {
    if body != [] {
      var info1 := ParseStmt(body[0], info, order);
      ParseBodyHeader(body[1..], info1, order);
      if body[0].Assign? {
        AssignmentHeader(body[0].targets, body[0].value, info, order);
      }
      if exists i :: 0 <= i < |body[1..]| && AssignsName(body[1..][i], "_name") {
        var i :| 0 <= i < |body[1..]| && AssignsName(body[1..][i], "_name");
        assert AssignsName(body[i + 1], "_name");
      }
      if exists i :: 0 <= i < |body| && AssignsName(body[i], "_name") {
        var i :| 0 <= i < |body| && AssignsName(body[i], "_name");
        if i > 0 {
          assert AssignsName(body[1..][i - 1], "_name");
        }
      }
    }
  }

  /** Statement `s` is an assignment that records field `f`. */
  predicate RecordsField(s: Stmt, f: string, order: seq<string>)
    requires IsIterationOrder(order)
  {
    s.Assign? && DeclaresFieldIn(s.targets, f, s.value, order)
  }

  /** Statement `i` is the last one of the body that records field `f`. */
  predicate LastFieldDeclaration(body: seq<Stmt>, f: string, i: int, order: seq<string>)
    requires IsIterationOrder(order)
  {
    0 <= i < |body| && RecordsField(body[i], f, order) &&
    forall j :: i < j < |body| ==> !RecordsField(body[j], f, order)
  }

  /** Scanning a class body records exactly the fields it declares, each
      with the info of its LAST declaration, and every recorded field
      comes from a recognised declaration of the body. */
  lemma ParseBodyFields(body: seq<Stmt>, info: ModelInfo, order: seq<string>)
    requires IsIterationOrder(order)
    ensures var r := ParseBody(body, info, order);
      && (forall f :: f in r.fields ==>
            (f in info.fields && r.fields[f] == info.fields[f]) || DeclaresField(body, f, r.fields[f], order))
      && (forall f :: f in r.fields <==>
            f in info.fields || exists i :: 0 <= i < |body| && RecordsField(body[i], f, order))
      && (forall f, i :: LastFieldDeclaration(body, f, i, order) ==>
            f in r.fields && r.fields[f] == ExtractFieldInfo(body[i].value, order).value)
      && (forall f :: f in info.fields && (forall i :: 0 <= i < |body| ==> !RecordsField(body[i], f, order))
            ==> r.fields[f] == info.fields[f])
  {
    ParseBodyFieldSources(body, info, order);
    ParseBodyFieldRule(body, info, order);
  }

  lemma {:induction false} ParseBodyFieldSources(body: seq<Stmt>, info: ModelInfo, order: seq<string>)
    requires IsIterationOrder(order)
    ensures var r := ParseBody(body, info, order);
      forall f :: f in r.fields ==>
        (f in info.fields && r.fields[f] == info.fields[f]) || DeclaresField(body, f, r.fields[f], order)
    decreases |body|
  {
    if body != [] {
      var info1 := ParseStmt(body[0], info, order);
      var r := ParseBody(body, info, order);
      ParseBodyFieldSources(body[1..], info1, order);
      if body[0].Assign? {
        AssignmentFields(body[0].targets, body[0].value, info, order);
      }
      forall f | f in r.fields && !(f in info.fields && r.fields[f] == info.fields[f])
        ensures DeclaresField(body, f, r.fields[f], order)
      {
        if f in info1.fields && r.fields[f] == info1.fields[f] {
          assert AssignsName(body[0], f);
        } else {
          var i :| 0 <= i < |body[1..]| && AssignsName(body[1..][i], f) &&
                   ExtractFieldInfo(body[1..][i].value, order) == Some(r.fields[f]);
          assert body[1..][i] == body[i + 1];
        }
      }
    }
  }

  lemma ParseBodyFieldRule(body: seq<Stmt>, info: ModelInfo, order: seq<string>)
    requires IsIterationOrder(order)
    ensures var r := ParseBody(body, info, order);
      && (forall f :: f in r.fields <==>
            f in info.fields || exists i :: 0 <= i < |body| && RecordsField(body[i], f, order))
      && (forall f, i :: LastFieldDeclaration(body, f, i, order) ==>
            f in r.fields && r.fields[f] == ExtractFieldInfo(body[i].value, order).value)
      && (forall f :: f in info.fields && (forall i :: 0 <= i < |body| ==> !RecordsField(body[i], f, order))
            ==> r.fields[f] == info.fields[f])
  {
    var r := ParseBody(body, info, order);
    ParseBodyFieldKeys(body, info, order);
    forall f, i | LastFieldDeclaration(body, f, i, order)
      ensures f in r.fields && r.fields[f] == ExtractFieldInfo(body[i].value, order).value
    {
      LastDeclarationWins(body, info, f, i, order);
    }
    forall f | f in info.fields && (forall i :: 0 <= i < |body| ==> !RecordsField(body[i], f, order))
      ensures r.fields[f] == info.fields[f]
    {
      UndeclaredFieldKept(body, info, f, order);
    }
  }

  lemma {:induction false} ParseBodyFieldKeys(body: seq<Stmt>, info: ModelInfo, order: seq<string>)
    requires IsIterationOrder(order)
    ensures var r := ParseBody(body, info, order);
      forall f :: f in r.fields <==> f in info.fields || exists i :: 0 <= i < |body| && RecordsField(body[i], f, order)
    decreases |body|
  {
    if body != [] {
      var info1 := ParseStmt(body[0], info, order);
      var r := ParseBody(body, info, order);
      assert r == ParseBody(body[1..], info1, order);
      ParseBodyFieldKeys(body[1..], info1, order);
      StmtFields(body[0], info, order);
      forall f | f in r.fields
        ensures f in info.fields || exists i :: 0 <= i < |body| && RecordsField(body[i], f, order)
      {
        if f !in info1.fields {
          var i :| 0 <= i < |body[1..]| && RecordsField(body[1..][i], f, order);
          assert RecordsField(body[i + 1], f, order);
        } else if f !in info.fields {
          assert RecordsField(body[0], f, order);
        }
      }
      forall f | f in info.fields || exists i :: 0 <= i < |body| && RecordsField(body[i], f, order)
        ensures f in r.fields
      {
        if f !in info.fields {
          var i :| 0 <= i < |body| && RecordsField(body[i], f, order);
          if i > 0 {
            assert RecordsField(body[1..][i - 1], f, order);
          }
        }
      }
    }
  }

  /** No statement of the body records field `f`. */
  predicate NoFieldDeclaration(body: seq<Stmt>, f: string, order: seq<string>)
    requires IsIterationOrder(order)
  {
    forall i :: 0 <= i < |body| ==> !RecordsField(body[i], f, order)
  }

  lemma {:induction false} UndeclaredFieldKept(body: seq<Stmt>, info: ModelInfo, f: string, order: seq<string>)
    requires IsIterationOrder(order)
    requires f in info.fields && NoFieldDeclaration(body, f, order)
    ensures var r := ParseBody(body, info, order);
      f in r.fields && r.fields[f] == info.fields[f]
    decreases |body|
  {
    if body != [] {
      var info1 := ParseStmt(body[0], info, order);
      assert ParseBody(body, info, order) == ParseBody(body[1..], info1, order);
      StmtFields(body[0], info, order);
      assert !RecordsField(body[0], f, order);
      assert f in info1.fields && info1.fields[f] == info.fields[f];
      forall j | 0 <= j < |body[1..]|
        ensures !RecordsField(body[1..][j], f, order)
      {
        assert body[1..][j] == body[j + 1];
      }
      UndeclaredFieldKept(body[1..], info1, f, order);
    }
  }

  lemma {:induction false} LastDeclarationWins(body: seq<Stmt>, info: ModelInfo, f: string, i: int, order: seq<string>)
    requires IsIterationOrder(order)
    requires LastFieldDeclaration(body, f, i, order)
    ensures var r := ParseBody(body, info, order);
      f in r.fields && r.fields[f] == ExtractFieldInfo(body[i].value, order).value
    decreases |body|
  {
    var info1 := ParseStmt(body[0], info, order);
    assert ParseBody(body, info, order) == ParseBody(body[1..], info1, order);
    if i == 0 {
      StmtFields(body[0], info, order);
      forall j | 0 <= j < |body[1..]|
        ensures !RecordsField(body[1..][j], f, order)
      {
        assert body[1..][j] == body[j + 1];
      }
      UndeclaredFieldKept(body[1..], info1, f, order);
    } else {
      assert body[1..][i - 1] == body[i];
      assert LastFieldDeclaration(body[1..], f, i - 1, order);
      LastDeclarationWins(body[1..], info1, f, i - 1, order);
    }
  }

  /** One statement adds or overwrites only the fields it declares. */
  lemma StmtFields(s: Stmt, info: ModelInfo, order: seq<string>)
    requires IsIterationOrder(order)
    ensures var r := ParseStmt(s, info, order);
      && (forall f :: f in r.fields <==> f in info.fields || RecordsField(s, f, order))
      && (forall f :: RecordsField(s, f, order) ==> r.fields[f] == ExtractFieldInfo(s.value, order).value)
      && (forall f :: f in info.fields && !RecordsField(s, f, order) ==> r.fields[f] == info.fields[f])
  {
    if s.Assign? {
      AssignmentFields(s.targets, s.value, info, order);
    }
  }

  /** Scanning a class body records exactly the non-dunder methods it
      defines, each with the `has_super` flag of its LAST definition. */
  lemma {:induction false} ParseBodyMethods(body: seq<Stmt>, info: ModelInfo, order: seq<string>)
    requires IsIterationOrder(order)
    ensures var r := ParseBody(body, info, order);
      && (forall m :: m in r.methods <==>
            m in info.methods || exists i :: 0 <= i < |body| && DefinesMethod(body[i], m))
      && (forall m, i :: LastDefinition(body, m, i) ==> m in r.methods && r.methods[m] == HasSuperCall(body[i]))
      && (forall m :: m in info.methods && (forall i :: 0 <= i < |body| ==> !DefinesMethod(body[i], m))
            ==> r.methods[m] == info.methods[m])
    decreases |body|
  {
    if body != [] {
      var info1 := ParseStmt(body[0], info, order);
      var r := ParseBody(body, info, order);
      ParseBodyMethods(body[1..], info1, order);
      StmtMethods(body[0], info, order);
      forall m, i | LastDefinition(body, m, i)
        ensures m in r.methods && r.methods[m] == HasSuperCall(body[i])
      {
        forall j | i - 1 < j < |body[1..]| ensures !DefinesMethod(body[1..][j], m) {
          assert body[1..][j] == body[j + 1];
        }
        if i > 0 {
          assert LastDefinition(body[1..], m, i - 1);
        }
      }
      forall m | m in r.methods
        ensures m in info.methods || exists i :: 0 <= i < |body| && DefinesMethod(body[i], m)
      {
        if m !in info1.methods {
          var i :| 0 <= i < |body[1..]| && DefinesMethod(body[1..][i], m);
          assert DefinesMethod(body[i + 1], m);
        } else if m !in info.methods {
          assert DefinesMethod(body[0], m);
        }
      }
      forall m | m in info.methods || exists i :: 0 <= i < |body| && DefinesMethod(body[i], m)
        ensures m in r.methods
      {
        if m !in info.methods {
          var i :| 0 <= i < |body| && DefinesMethod(body[i], m);
          if i > 0 {
            assert DefinesMethod(body[1..][i - 1], m);
          }
        }
      }
      forall m | m in info.methods && (forall i :: 0 <= i < |body| ==> !DefinesMethod(body[i], m))
        ensures r.methods[m] == info.methods[m]
      {
        assert !DefinesMethod(body[0], m);
        assert info1.methods[m] == info.methods[m];
        forall j | 0 <= j < |body[1..]| ensures !DefinesMethod(body[1..][j], m) {
          assert body[1..][j] == body[j + 1];
        }
      }
    }
  }

  /** One statement adds or overwrites only the method it defines. */
  lemma StmtMethods(s: Stmt, info: ModelInfo, order: seq<string>)
    requires IsIterationOrder(order)
    ensures var r := ParseStmt(s, info, order);
      && (forall m :: m in r.methods <==> m in info.methods || DefinesMethod(s, m))
      && (forall m :: DefinesMethod(s, m) ==> r.methods[m] == HasSuperCall(s))
      && (forall m :: m in info.methods && !DefinesMethod(s, m) ==> r.methods[m] == info.methods[m])
  {
    if s.Assign? {
      AssignmentHeader(s.targets, s.value, info, order);
    }
  }

  /** No statement of the body assigns to the plain name `n`. */
  predicate NoAssign(body: seq<Stmt>, n: string) {
    forall i :: 0 <= i < |body| ==> !AssignsName(body[i], n)
  }

  /** Statement `i` is the last one of the body that assigns to `n`. */
  predicate LastAssign(body: seq<Stmt>, n: string, i: int) {
    0 <= i < |body| && AssignsName(body[i], n) &&
    forall j :: i < j < |body| ==> !AssignsName(body[j], n)
  }

  /** Statement `s` assigns `_inherit` a value that names some model. */
  predicate GivesInherit(s: Stmt) {
    AssignsName(s, "_inherit") && ExtractInheritValue(s.value) != []
  }

  /** Statement `k` is the first after statement `i` that gives a
      non-empty `_inherit` (`i` is -1 for "from the start"). */
  predicate NextGivesInherit(body: seq<Stmt>, i: int, k: int) {
    -1 <= i < k < |body| && GivesInherit(body[k]) &&
    forall j :: i < j < k ==> !GivesInherit(body[j])
  }

  /** No statement after statement `i` gives a non-empty `_inherit`. */
  predicate NoGivesInheritAfter(body: seq<Stmt>, i: int) {
    forall j :: i < j < |body| && 0 <= j ==> !GivesInherit(body[j])
  }

  /** Statement `i` is the last `_name` assignment, it does not also
      assign `_inherit`, and it leaves no usable name (its value is not a
      non-empty string literal). */
  predicate UnusableLastName(body: seq<Stmt>, i: int) {
    LastAssign(body, "_name", i) && !AssignsName(body[i], "_inherit") && !NonEmptyLiteral(body[i].value)
  }

  /** The naming rule of `_parse_class`'s loop over the body: the last
      `_inherit` assignment fixes `inherits`; the last `_name` assignment
      fixes the name when it assigns a non-empty string (whatever
      `_inherit` statements follow it); after a `_name` that assigns
      nothing usable, or when there is no `_name` at all and no name was
      set, the head of the first non-empty `_inherit` becomes the name. */
  lemma ParseBodyNames(body: seq<Stmt>, info: ModelInfo, order: seq<string>)
    requires IsIterationOrder(order)
    ensures var r := ParseBody(body, info, order);
      && (HasName(r) ==> r.modelName == info.modelName || NameSource(body, r.modelName.value))
      && (r.inherits != info.inherits ==>
            exists i :: 0 <= i < |body| && AssignsName(body[i], "_inherit") &&
                        r.inherits == ExtractInheritValue(body[i].value))
      && (forall i :: LastAssign(body, "_inherit", i) ==> r.inherits == ExtractInheritValue(body[i].value))
      && (NoAssign(body, "_inherit") ==> r.inherits == info.inherits)
      && (forall i :: LastAssign(body, "_name", i) && NonEmptyLiteral(body[i].value) ==>
            r.modelName == Some(body[i].value.c.s))
      && (forall i :: UnusableLastName(body, i) && NoGivesInheritAfter(body, i) ==>
            r.modelName == ExtractStringValue(body[i].value))
      && (forall i, k :: UnusableLastName(body, i) && NextGivesInherit(body, i, k) ==>
            r.modelName == Some(ExtractInheritValue(body[k].value)[0]))
      && (NoAssign(body, "_name") && HasName(info) ==> r.modelName == info.modelName)
      && (forall k :: NoAssign(body, "_name") && !HasName(info) && NextGivesInherit(body, -1, k) ==>
            r.modelName == Some(ExtractInheritValue(body[k].value)[0]))
      && (NoAssign(body, "_name") && NoGivesInheritAfter(body, -1) ==> r.modelName == info.modelName)
  {
    ParseBodyNameSources(body, info, order);
    ParseBodyInherits(body, info, order);
    if NoAssign(body, "_name") {
      UnnamedBodyNames(body, info, order);
    }
    var r := ParseBody(body, info, order);
    forall i | LastAssign(body, "_name", i) && NonEmptyLiteral(body[i].value)
      ensures r.modelName == Some(body[i].value.c.s)
    {
      NamedBodyLiteral(body, info, order, i);
    }
    forall i | UnusableLastName(body, i) && NoGivesInheritAfter(body, i)
      ensures r.modelName == ExtractStringValue(body[i].value)
    {
      NamedBodyUnusable(body, info, order, i);
    }
    forall i, k | UnusableLastName(body, i) && NextGivesInherit(body, i, k)
      ensures r.modelName == Some(ExtractInheritValue(body[k].value)[0])
    {
      NamedBodyUnusable(body, info, order, i);
    }
  }

  lemma {:induction false} ParseBodyNameSources(body: seq<Stmt>, info: ModelInfo, order: seq<string>)
    requires IsIterationOrder(order)
    ensures var r := ParseBody(body, info, order);
      && (HasName(r) ==> r.modelName == info.modelName || NameSource(body, r.modelName.value))
      && (r.inherits != info.inherits ==>
            exists i :: 0 <= i < |body| && AssignsName(body[i], "_inherit") &&
                        r.inherits == ExtractInheritValue(body[i].value))
    decreases |body|
  {
    if body != [] {
      var info1 := ParseStmt(body[0], info, order);
      var r := ParseBody(body, info, order);
      ParseBodyNameSources(body[1..], info1, order);
      if body[0].Assign? {
        AssignmentNames(body[0].targets, body[0].value, info, order);
      }
      if HasName(r) && r.modelName != info.modelName {
        var n := r.modelName.value;
        if r.modelName == info1.modelName {
          assert body[0].Assign? && NameFromAssignment(body[0].targets, body[0].value, r.modelName);
          assert AssignsName(body[0], "_name") || AssignsName(body[0], "_inherit");
        } else {
          var i :| 0 <= i < |body[1..]| &&
            ((AssignsName(body[1..][i], "_name") && ExtractStringValue(body[1..][i].value) == Some(n)) ||
             (AssignsName(body[1..][i], "_inherit") && ExtractInheritValue(body[1..][i].value) != [] &&
              ExtractInheritValue(body[1..][i].value)[0] == n));
          assert body[1..][i] == body[i + 1];
        }
      }
      if r.inherits != info.inherits {
        if r.inherits == info1.inherits {
          assert AssignsName(body[0], "_inherit");
        } else {
          var i :| 0 <= i < |body[1..]| && AssignsName(body[1..][i], "_inherit") &&
                   r.inherits == ExtractInheritValue(body[1..][i].value);
          assert body[1..][i] == body[i + 1];
        }
      }
    }
  }

  /** One statement's effect on the name and `inherits`. */
  lemma StmtNames(s: Stmt, info: ModelInfo, order: seq<string>)
    requires IsIterationOrder(order)
    ensures var r := ParseStmt(s, info, order);
      && (AssignsName(s, "_inherit") ==> r.inherits == ExtractInheritValue(s.value))
      && (!AssignsName(s, "_inherit") ==> r.inherits == info.inherits)
      && (!AssignsName(s, "_name") && !GivesInherit(s) ==> r.modelName == info.modelName)
      && (!AssignsName(s, "_name") && GivesInherit(s) && HasName(info) ==> r.modelName == info.modelName)
      && (!AssignsName(s, "_name") && GivesInherit(s) && !HasName(info) ==>
            r.modelName == Some(ExtractInheritValue(s.value)[0]))
      && (AssignsName(s, "_name") && !AssignsName(s, "_inherit") ==> r.modelName == ExtractStringValue(s.value))
      && (AssignsName(s, "_name") && NonEmptyLiteral(s.value) ==> r.modelName == Some(s.value.c.s))
  {
    if s.Assign? {
      AssignmentNameRule(s.targets, s.value, info, order);
    }
  }

  /** Scanning `a + b` is scanning `a` and then `b`. */
  lemma {:induction false} ParseBodyAppend(a: seq<Stmt>, b: seq<Stmt>, info: ModelInfo, order: seq<string>)
    requires IsIterationOrder(order)
    ensures ParseBody(a + b, info, order) == ParseBody(b, ParseBody(a, info, order), order)
    decreases |a|
  {
    if a == [] {
      assert a + b == b;
    } else {
      assert (a + b)[0] == a[0] && (a + b)[1..] == a[1..] + b;
      ParseBodyAppend(a[1..], b, ParseStmt(a[0], info, order), order);
    }
  }

  /** `inherits` ends as the value of the last `_inherit` assignment. */
  lemma {:induction false} ParseBodyInherits(body: seq<Stmt>, info: ModelInfo, order: seq<string>)
    requires IsIterationOrder(order)
    ensures var r := ParseBody(body, info, order);
      && (forall i :: LastAssign(body, "_inherit", i) ==> r.inherits == ExtractInheritValue(body[i].value))
      && (NoAssign(body, "_inherit") ==> r.inherits == info.inherits)
    decreases |body|
  {
    if body != [] {
      var info1 := ParseStmt(body[0], info, order);
      StmtNames(body[0], info, order);
      ParseBodyInherits(body[1..], info1, order);
      forall i | LastAssign(body, "_inherit", i)
        ensures ParseBody(body, info, order).inherits == ExtractInheritValue(body[i].value)
      {
        if i == 0 {
          assert NoAssign(body[1..], "_inherit") by {
            forall j | 0 <= j < |body[1..]| ensures !AssignsName(body[1..][j], "_inherit") {
              assert body[1..][j] == body[j + 1];
            }
          }
        } else {
          assert LastAssign(body[1..], "_inherit", i - 1) by {
            forall j | i - 1 < j < |body[1..]| ensures !AssignsName(body[1..][j], "_inherit") {
              assert body[1..][j] == body[j + 1];
            }
          }
        }
      }
      if NoAssign(body, "_inherit") {
        assert !AssignsName(body[0], "_inherit");
        assert NoAssign(body[1..], "_inherit") by {
          forall j | 0 <= j < |body[1..]| ensures !AssignsName(body[1..][j], "_inherit") {
            assert body[1..][j] == body[j + 1];
          }
        }
      }
    }
  }

  /** Without a `_name` assignment, a name already set stays, and
      otherwise the head of the first non-empty `_inherit` becomes the
      name. */
  lemma {:induction false} UnnamedBodyNames(body: seq<Stmt>, info: ModelInfo, order: seq<string>)
    requires IsIterationOrder(order)
    requires NoAssign(body, "_name")
    ensures var r := ParseBody(body, info, order);
      && (HasName(info) ==> r.modelName == info.modelName)
      && (forall k :: !HasName(info) && NextGivesInherit(body, -1, k) ==>
            r.modelName == Some(ExtractInheritValue(body[k].value)[0]))
      && (NoGivesInheritAfter(body, -1) ==> r.modelName == info.modelName)
    decreases |body|
  {
    if body != [] {
      var info1 := ParseStmt(body[0], info, order);
      StmtNames(body[0], info, order);
      assert !AssignsName(body[0], "_name");
      assert NoAssign(body[1..], "_name") by {
        forall j | 0 <= j < |body[1..]| ensures !AssignsName(body[1..][j], "_name") {
          assert body[1..][j] == body[j + 1];
        }
      }
      UnnamedBodyNames(body[1..], info1, order);
      forall k | !HasName(info) && NextGivesInherit(body, -1, k)
        ensures ParseBody(body, info, order).modelName == Some(ExtractInheritValue(body[k].value)[0])
      {
        if k > 0 {
          assert NextGivesInherit(body[1..], -1, k - 1) by {
            forall j | -1 < j < k - 1 ensures !GivesInherit(body[1..][j]) {
              assert body[1..][j] == body[j + 1];
            }
          }
        }
      }
      if NoGivesInheritAfter(body, -1) {
        assert !GivesInherit(body[0]);
        assert NoGivesInheritAfter(body[1..], -1) by {
          forall j | 0 <= j < |body[1..]| ensures !GivesInherit(body[1..][j]) {
            assert body[1..][j] == body[j + 1];
          }
        }
      }
    }
  }

  /** Scanning up to the last `_name` assignment and then the rest, which
      assigns no `_name`. */
  lemma SplitAtLastName(body: seq<Stmt>, info: ModelInfo, order: seq<string>, i: int)
    requires IsIterationOrder(order)
    requires LastAssign(body, "_name", i)
    ensures ParseBody(body, info, order) ==
            ParseBody(body[i + 1..], ParseStmt(body[i], ParseBody(body[..i], info, order), order), order)
    ensures NoAssign(body[i + 1..], "_name")
  {
    var pre := body[..i];
    var post := body[i + 1..];
    assert body == pre + [body[i]] + post;
    ParseBodyAppend(pre + [body[i]], post, info, order);
    ParseBodyAppend(pre, [body[i]], info, order);
    var mid := ParseBody(pre, info, order);
    assert ParseBody([body[i]], mid, order) == ParseBody([], ParseStmt(body[i], mid, order), order);
    forall j | 0 <= j < |post| ensures !AssignsName(post[j], "_name") {
      assert post[j] == body[i + 1 + j];
    }
  }

  /** A non-empty string literal in the last `_name` assignment is the
      final name, whatever `_inherit` statements come before or after. */
  lemma NamedBodyLiteral(body: seq<Stmt>, info: ModelInfo, order: seq<string>, i: int)
    requires IsIterationOrder(order)
    requires LastAssign(body, "_name", i)
    ensures NonEmptyLiteral(body[i].value) ==> ParseBody(body, info, order).modelName == Some(body[i].value.c.s)
  {
    SplitAtLastName(body, info, order, i);
    var after := ParseStmt(body[i], ParseBody(body[..i], info, order), order);
    StmtNames(body[i], ParseBody(body[..i], info, order), order);
    UnnamedBodyNames(body[i + 1..], after, order);
  }

  /** After a last `_name` that leaves no usable name, the head of the
      next non-empty `_inherit` becomes the name, or the `_name` value
      stays when there is none. */
  lemma NamedBodyUnusable(body: seq<Stmt>, info: ModelInfo, order: seq<string>, i: int)
    requires IsIterationOrder(order)
    requires LastAssign(body, "_name", i)
    ensures UnusableLastName(body, i) && NoGivesInheritAfter(body, i) ==>
              ParseBody(body, info, order).modelName == ExtractStringValue(body[i].value)
    ensures forall k :: UnusableLastName(body, i) && NextGivesInherit(body, i, k) ==>
              ParseBody(body, info, order).modelName == Some(ExtractInheritValue(body[k].value)[0])
  {
    if UnusableLastName(body, i) {
      SplitAtLastName(body, info, order, i);
      var post := body[i + 1..];
      var after := ParseStmt(body[i], ParseBody(body[..i], info, order), order);
      StmtNames(body[i], ParseBody(body[..i], info, order), order);
      assert !HasName(after);
      UnnamedBodyNames(post, after, order);
      if NoGivesInheritAfter(body, i) {
        assert NoGivesInheritAfter(post, -1) by {
          forall j | 0 <= j < |post| ensures !GivesInherit(post[j]) {
            assert post[j] == body[i + 1 + j];
          }
        }
      }
      forall k | NextGivesInherit(body, i, k)
        ensures ParseBody(body, info, order).modelName == Some(ExtractInheritValue(body[k].value)[0])
      {
        assert post[k - i - 1] == body[k];
        assert NextGivesInherit(post, -1, k - i - 1) by {
          forall j | -1 < j < k - i - 1 ensures !GivesInherit(post[j]) {
            assert post[j] == body[i + 1 + j];
          }
        }
      }
    }
  }

  /** Some base of the class resolves exactly to one of the three model
      markers. */
  predicate IsModelClass(bases: seq<Expr>) {
    exists i :: 0 <= i < |bases| && AttributeName(bases[i]).Some? &&
                AttributeName(bases[i]).value in ModelMarkers
  }

  /** The empty record `_parse_class` starts from. */
  function EmptyInfo(moduleName: string, file: string, line: nat): ModelInfo {
    ModelInfo(moduleName, file, line, None, [], false, map[], map[])
  }

  /** Some statement assigning `n` means there is a last one. */
  lemma {:induction false} LastAssignExists(body: seq<Stmt>, n: string, i0: int)
    requires 0 <= i0 < |body| && AssignsName(body[i0], n)
    ensures exists i :: LastAssign(body, n, i)
    decreases |body| - i0
  {
    if !LastAssign(body, n, i0) {
      var j :| i0 < j < |body| && AssignsName(body[j], n);
      LastAssignExists(body, n, j);
    }
  }

  /** Some statement giving a non-empty `_inherit` means there is a first
      one. */
  lemma {:induction false} FirstGivesInheritExists(body: seq<Stmt>, k0: int)
    requires 0 <= k0 < |body| && GivesInherit(body[k0])
    ensures exists k :: NextGivesInherit(body, -1, k)
    decreases k0
  {
    if !NextGivesInherit(body, -1, k0) {
      var j :| -1 < j < k0 && GivesInherit(body[j]);
      FirstGivesInheritExists(body, j);
    }
  }

  /** When a class body yields a record (a name or a non-empty
      `inherits`): without `_inherit`, exactly when its last `_name`
      assigns a non-empty string; without `_name`, exactly when some
      `_inherit` names a model. */
  lemma ClassBodyFound(body: seq<Stmt>, moduleName: string, file: string, line: nat, order: seq<string>)
    requires IsIterationOrder(order)
    ensures var r := ParseBody(body, EmptyInfo(moduleName, file, line), order);
      && (NoAssign(body, "_inherit") ==>
            (HasName(r) || r.inherits != [] <==>
             exists i :: LastAssign(body, "_name", i) && NonEmptyLiteral(body[i].value)))
      && (NoAssign(body, "_name") ==>
            (HasName(r) || r.inherits != [] <==> exists k :: NextGivesInherit(body, -1, k)))
  {
    var info := EmptyInfo(moduleName, file, line);
    var r := ParseBody(body, info, order);
    ParseBodyNames(body, info, order);
    if NoAssign(body, "_inherit") && HasName(r) {
      assert NoGivesInheritAfter(body, -1);
      if !NoAssign(body, "_name") {
        var i0 :| 0 <= i0 < |body| && AssignsName(body[i0], "_name");
        LastAssignExists(body, "_name", i0);
        var i :| LastAssign(body, "_name", i);
        if !NonEmptyLiteral(body[i].value) {
          assert UnusableLastName(body, i) && NoGivesInheritAfter(body, i);
          assert false;
        }
      }
    }
    if NoAssign(body, "_name") && !exists k :: NextGivesInherit(body, -1, k) {
      forall j | 0 <= j < |body| ensures !GivesInherit(body[j]) {
        if GivesInherit(body[j]) {
          FirstGivesInheritExists(body, j);
        }
      }
      assert NoGivesInheritAfter(body, -1);
      if !NoAssign(body, "_inherit") {
        var i0 :| 0 <= i0 < |body| && AssignsName(body[i0], "_inherit");
        LastAssignExists(body, "_inherit", i0);
        var i :| LastAssign(body, "_inherit", i);
        assert !GivesInherit(body[i]);
      }
    }
  }

  /** `_parse_class`: a record only for a model class that ends up with a
      model name or a non-empty `_inherit` (ParseClassSpec states what the
      record holds). */
  function ParseClass(cls: ClassDef, moduleName: string, file: string, order: seq<string>): (r: Option<ModelInfo>)
    requires IsIterationOrder(order)
    ensures r.Some? ==> IsModelClass(cls.bases)
    ensures r.Some? ==> HasName(r.value) || r.value.inherits != []
    ensures r.Some? ==> r.value.moduleName == moduleName && r.value.file == file && r.value.line == cls.line
  {
    if !IsModelClass(cls.bases) then None
    else
      var info0 := EmptyInfo(moduleName, file, cls.line);
      var info := ParseBody(cls.body, info0, order);
      ParseBodyHeader(cls.body, info0, order);
      if HasName(info) || info.inherits != [] then Some(info) else None
  }

  /** Which classes `_parse_class` keeps and under which name: a record
      only for a model class; the last `_inherit` value; the name the
      naming rule gives (a non-empty `_name` literal, else the head of the
      first non-empty `_inherit`); and, for a class that assigns only one
      of `_name` and `_inherit`, exactly when a record exists. */
  lemma ParseClassNames(cls: ClassDef, moduleName: string, file: string, order: seq<string>)
    requires IsIterationOrder(order)
    ensures var r := ParseClass(cls, moduleName, file, order);
      && (r.Some? ==> IsModelClass(cls.bases) && (HasName(r.value) || r.value.inherits != []))
      && (forall i :: IsModelClass(cls.bases) && LastAssign(cls.body, "_inherit", i) && GivesInherit(cls.body[i])
            ==> r.Some? && r.value.inherits == ExtractInheritValue(cls.body[i].value))
      && (forall i :: IsModelClass(cls.bases) && LastAssign(cls.body, "_name", i) && NonEmptyLiteral(cls.body[i].value)
            ==> r.Some? && r.value.modelName == Some(cls.body[i].value.c.s))
      && (IsModelClass(cls.bases) && NoAssign(cls.body, "_inherit") ==>
            (r.Some? <==> exists i :: LastAssign(cls.body, "_name", i) && NonEmptyLiteral(cls.body[i].value)))
      && (IsModelClass(cls.bases) && NoAssign(cls.body, "_name") ==>
            (r.Some? <==> exists k :: NextGivesInherit(cls.body, -1, k)))
      && (forall k :: r.Some? && NoAssign(cls.body, "_name") && NextGivesInherit(cls.body, -1, k) ==>
            r.value.modelName == Some(ExtractInheritValue(cls.body[k].value)[0]))
  {
    var info0 := EmptyInfo(moduleName, file, cls.line);
    ParseBodyNames(cls.body, info0, order);
    ClassBodyFound(cls.body, moduleName, file, cls.line, order);
  }

  /** What a kept record holds: its location, `is_base` exactly when the
      body assigns `_name`, and exactly the fields and methods the body
      declares, each from its last declaration. */
  lemma ParseClassContents(cls: ClassDef, moduleName: string, file: string, order: seq<string>)
    requires IsIterationOrder(order)
    ensures var r := ParseClass(cls, moduleName, file, order);
      && (r.Some? ==> r.value.moduleName == moduleName && r.value.file == file && r.value.line == cls.line)
      && (r.Some? ==> (r.value.isBase <==> exists i :: 0 <= i < |cls.body| && AssignsName(cls.body[i], "_name")))
      && (r.Some? ==> forall f :: f in r.value.fields ==> DeclaresField(cls.body, f, r.value.fields[f], order))
      && (r.Some? ==> forall f :: f in r.value.fields <==>
            exists i :: 0 <= i < |cls.body| && RecordsField(cls.body[i], f, order))
      && (r.Some? ==> forall f, i :: LastFieldDeclaration(cls.body, f, i, order) ==>
            r.value.fields[f] == ExtractFieldInfo(cls.body[i].value, order).value)
      && (r.Some? ==> forall m :: m in r.value.methods <==>
            exists i :: 0 <= i < |cls.body| && DefinesMethod(cls.body[i], m))
      && (r.Some? ==> forall m, i :: LastDefinition(cls.body, m, i) ==>
            r.value.methods[m] == HasSuperCall(cls.body[i]))
  {
    var info0 := EmptyInfo(moduleName, file, cls.line);
    ParseBodyHeader(cls.body, info0, order);
    ParseBodyFields(cls.body, info0, order);
    ParseBodyMethods(cls.body, info0, order);
  }

  // ---------------------------------------------------------------------
  // Files and modules (parse_file, find_models_in_module)
  // ---------------------------------------------------------------------

  /** One `*.py` file under a module's `models/` directory; `classes` is
      None when the file does not parse, otherwise its class definitions
      in `ast.walk` order. */
  datatype SourceFile = SourceFile(path: string, name: string, classes: Option<seq<ClassDef>>)

  /** `parse_file`: the records of the file's model classes, in order; an
      unparsable file gives []. */
  function ParseFile(f: SourceFile, moduleName: string, order: seq<string>): (r: seq<ModelInfo>)
    requires IsIterationOrder(order)
    ensures forall m :: m in r ==> m.moduleName == moduleName && m.file == f.path && (HasName(m) || m.inherits != [])
    ensures f.classes.None? ==> r == []
    ensures f.classes.Some? ==> forall m :: m in r <==>
              exists i :: 0 <= i < |f.classes.value| && ParseClass(f.classes.value[i], moduleName, f.path, order) == Some(m)
  {
    if f.classes.None? then []
    else
      ParseClassesComplete(f.classes.value, moduleName, f.path, order);
      ParseClasses(f.classes.value, moduleName, f.path, order)
  }

  /** The loop of `parse_file` over the class definitions. */
  function ParseClasses(classes: seq<ClassDef>, moduleName: string, file: string, order: seq<string>): (r: seq<ModelInfo>)
    requires IsIterationOrder(order)
    ensures |r| <= |classes|
    ensures forall m :: m in r ==> m.moduleName == moduleName && m.file == file && (HasName(m) || m.inherits != [])
    decreases |classes|
  {
    if classes == [] then []
    else Kept(ParseClass(classes[0], moduleName, file, order)) + ParseClasses(classes[1..], moduleName, file, order)
  }

  /** The record of one class, if it was kept. */
  function Kept(o: Option<ModelInfo>): (r: seq<ModelInfo>)
    ensures |r| <= 1
    ensures forall m :: m in r <==> o == Some(m)
  {
    if o.Some? then [o.value] else []
  }

  /** A file's records are exactly the records of its model classes. */
  lemma {:induction false} ParseClassesComplete(classes: seq<ClassDef>, moduleName: string, file: string, order: seq<string>)
    requires IsIterationOrder(order)
    ensures forall m :: m in ParseClasses(classes, moduleName, file, order) <==>
              exists i :: 0 <= i < |classes| && ParseClass(classes[i], moduleName, file, order) == Some(m)
    decreases |classes|
  {
    if classes != [] {
      ParseClassesComplete(classes[1..], moduleName, file, order);
      var r := ParseClasses(classes, moduleName, file, order);
      var rest := ParseClasses(classes[1..], moduleName, file, order);
      var first := ParseClass(classes[0], moduleName, file, order);
      assert forall m :: m in r <==> first == Some(m) || m in rest;
      forall m | m in rest
        ensures exists i :: 0 <= i < |classes| && ParseClass(classes[i], moduleName, file, order) == Some(m)
      {
        var i :| 0 <= i < |classes[1..]| && ParseClass(classes[1..][i], moduleName, file, order) == Some(m);
        assert classes[1..][i] == classes[i + 1];
      }
      forall m | exists i :: 0 <= i < |classes| && ParseClass(classes[i], moduleName, file, order) == Some(m)
        ensures m in r
      {
        var i :| 0 <= i < |classes| && ParseClass(classes[i], moduleName, file, order) == Some(m);
        if i > 0 {
          assert classes[1..][i - 1] == classes[i];
        }
      }
    }
  }

  /** The classes are read one by one: the records of a concatenation are
      the records of each part, so they come in class order. */
  lemma {:induction false} ParseClassesAppend(a: seq<ClassDef>, b: seq<ClassDef>, moduleName: string, file: string,
                                              order: seq<string>)
    requires IsIterationOrder(order)
    ensures ParseClasses(a + b, moduleName, file, order) ==
            ParseClasses(a, moduleName, file, order) + ParseClasses(b, moduleName, file, order)
    decreases |a|
  {
    if a == [] {
      assert a + b == b;
    } else {
      var ab := a + b;
      assert ab[0] == a[0] && ab[1..] == a[1..] + b;
      ParseClassesAppend(a[1..], b, moduleName, file, order);
      var head := Kept(ParseClass(a[0], moduleName, file, order));
      assert ParseClasses(ab, moduleName, file, order) == head + ParseClasses(a[1..] + b, moduleName, file, order);
    }
  }

  /** The filter of `find_models_in_module`: records whose model name is
      the target or whose `_inherit` lists it (no filter for an empty
      target). */
  function FilterModels(models: seq<ModelInfo>, target: string): (r: seq<ModelInfo>)
    ensures |r| <= |models|
    ensures forall m :: m in r <==> m in models && (target == "" || m.modelName == Some(target) || target in m.inherits)
  {
    if target == "" then models
    else if models == [] then []
    else
      var rest := FilterModels(models[1..], target);
      if models[0].modelName == Some(target) || target in models[0].inherits then [models[0]] + rest else rest
  }

  /** The file is skipped by `find_models_in_module`. */
  predicate Dunder(f: SourceFile) {
    IsPrefix("__", f.name)
  }

  /** `find_models_in_module`: the filtered records of every file of the
      module's `models/` directory whose name does not start with `__`,
      file by file. */
  function FindModelsInModule(files: seq<SourceFile>, moduleName: string, target: string, order: seq<string>): (r: seq<ModelInfo>)
    requires IsIterationOrder(order)
    ensures forall m :: m in r ==> m.moduleName == moduleName && (HasName(m) || m.inherits != [])
    ensures forall m :: m in r ==> target == "" || m.modelName == Some(target) || target in m.inherits
    decreases |files|
  {
    if files == [] then []
    else
      FileRecords(files[0], moduleName, target, order) + FindModelsInModule(files[1..], moduleName, target, order)
  }

  /** The matching records of one file; none for a file it skips. */
  function FileRecords(f: SourceFile, moduleName: string, target: string, order: seq<string>): (r: seq<ModelInfo>)
    requires IsIterationOrder(order)
    ensures Dunder(f) ==> r == []
    ensures forall m :: m in r ==> m.moduleName == moduleName && (HasName(m) || m.inherits != [])
    ensures forall m :: m in r ==> target == "" || m.modelName == Some(target) || target in m.inherits
  {
    if Dunder(f) then [] else FilterModels(ParseFile(f, moduleName, order), target)
  }

  /** File `i` is searched and yields record `m`. */
  predicate FoundIn(files: seq<SourceFile>, i: int, m: ModelInfo, moduleName: string, target: string, order: seq<string>)
    requires IsIterationOrder(order)
  {
    && 0 <= i < |files|
    && !Dunder(files[i])
    && m in FilterModels(ParseFile(files[i], moduleName, order), target)
  }

  /** The module search finds exactly the matching records of its
      non-`__` files: a record is found when and only when some such file
      holds it and it passes the target filter. */
  lemma {:induction false} FindModelsComplete(files: seq<SourceFile>, moduleName: string, target: string, order: seq<string>)
    requires IsIterationOrder(order)
    ensures var r := FindModelsInModule(files, moduleName, target, order);
      && (forall m :: m in r ==> m.moduleName == moduleName && (HasName(m) || m.inherits != []))
      && (forall m :: m in r ==> target == "" || m.modelName == Some(target) || target in m.inherits)
      && (forall m :: m in r <==> exists i :: FoundIn(files, i, m, moduleName, target, order))
    decreases |files|
  {
    forall m | m in FindModelsInModule(files, moduleName, target, order)
      ensures exists i :: FoundIn(files, i, m, moduleName, target, order)
    {
      FoundSomewhere(files, m, moduleName, target, order);
    }
    forall m | exists i :: FoundIn(files, i, m, moduleName, target, order)
      ensures m in FindModelsInModule(files, moduleName, target, order)
    {
      var i :| FoundIn(files, i, m, moduleName, target, order);
      FoundIsReturned(files, i, m, moduleName, target, order);
    }
  }

  lemma {:induction false} FoundSomewhere(files: seq<SourceFile>, m: ModelInfo, moduleName: string, target: string,
                                          order: seq<string>)
    requires IsIterationOrder(order)
    requires m in FindModelsInModule(files, moduleName, target, order)
    ensures exists i :: FoundIn(files, i, m, moduleName, target, order)
    decreases |files|
  {
    var here := FileRecords(files[0], moduleName, target, order);
    var rest := FindModelsInModule(files[1..], moduleName, target, order);
    assert FindModelsInModule(files, moduleName, target, order) == here + rest;
    if m in here {
      assert FoundIn(files, 0, m, moduleName, target, order);
    } else {
      FoundSomewhere(files[1..], m, moduleName, target, order);
      var i :| FoundIn(files[1..], i, m, moduleName, target, order);
      assert files[1..][i] == files[i + 1];
      assert FoundIn(files, i + 1, m, moduleName, target, order);
    }
  }

  lemma {:induction false} FoundIsReturned(files: seq<SourceFile>, i: int, m: ModelInfo, moduleName: string,
                                           target: string, order: seq<string>)
    requires IsIterationOrder(order)
    requires FoundIn(files, i, m, moduleName, target, order)
    ensures m in FindModelsInModule(files, moduleName, target, order)
    decreases |files|
  {
    var here := FileRecords(files[0], moduleName, target, order);
    var rest := FindModelsInModule(files[1..], moduleName, target, order);
    assert FindModelsInModule(files, moduleName, target, order) == here + rest;
    if i == 0 {
      assert m in here;
    } else {
      assert files[1..][i - 1] == files[i];
      assert FoundIn(files[1..], i - 1, m, moduleName, target, order);
      FoundIsReturned(files[1..], i - 1, m, moduleName, target, order);
      assert m in rest;
    }
  }

  /** Files are searched one by one: the records found in a concatenation
      of file lists are those of each part, so they come in file order. */
  lemma {:induction false} FindModelsAppend(a: seq<SourceFile>, b: seq<SourceFile>, moduleName: string, target: string,
                                            order: seq<string>)
    requires IsIterationOrder(order)
    ensures FindModelsInModule(a + b, moduleName, target, order) ==
            FindModelsInModule(a, moduleName, target, order) + FindModelsInModule(b, moduleName, target, order)
    decreases |a|
  {
    if a == [] {
      assert a + b == b;
    } else {
      var ab := a + b;
      assert ab[0] == a[0] && ab[1..] == a[1..] + b;
      FindModelsAppend(a[1..], b, moduleName, target, order);
      var here := FileRecords(a[0], moduleName, target, order);
      assert FindModelsInModule(ab, moduleName, target, order) == here + FindModelsInModule(a[1..] + b, moduleName, target, order);
    }
  }
}

=== FILE: pyast.dfy ===
/** An abstract rendering of the part of Python's `ast` module that the
    model inspector matches on. Only the node kinds the inspector
    distinguishes get their own constructor; every other expression or
    statement keeps just its children, so that a whole-subtree walk
    (`ast.walk`) still reaches everything below it. */
module PyAst {
  import opened Wrappers

  /** The payload of an `ast.Constant` (floats, bytes and `...` are not
      modelled). */
  datatype Const = Str(s: string) | Int(i: int) | Bool(b: bool) | NoneConst

  /** Python's `bool(value)` for a constant. */
  predicate Truthy(c: Const) {
    match c
    case Str(s) => s != ""
    case Int(i) => i != 0
    case Bool(b) => b
    case NoneConst => false
  }

  datatype Expr =
    | Name(id: string)
    | Attribute(value: Expr, attr: string)
    | Constant(c: Const)
    | List(elts: seq<Expr>)
    | Tuple(elts: seq<Expr>)
    | Dict(items: seq<DictItem>)
    | Call(func: Expr, args: seq<Expr>, keywords: seq<Keyword>)
      /** Any other expression (comparison, lambda, comprehension, ...). */
    | OtherExpr(children: seq<Expr>)

  /** One `key: value` entry of a dict display; `key` is `None` for a
      `**mapping` entry, as in `ast.Dict.keys`. */
  datatype DictItem = DictItem(key: Option<Expr>, value: Expr)

  /** One keyword argument of a call; `arg` is `None` for `**kwargs`. */
  datatype Keyword = Keyword(arg: Option<string>, value: Expr)

  datatype Stmt =
      /** `t1 = t2 = ... = value`. */
    | Assign(targets: seq<Expr>, value: Expr)
      /** `def name(...)`: `header` holds decorators, defaults and
          annotations, `body` the statements. */
    | FunctionDef(name: string, header: seq<Expr>, body: seq<Stmt>)
      /** Any other statement (annotated assignment, `async def`, `if`,
          `for`, `return`, a nested `class`, ...) with its children. */
    | OtherStmt(exprs: seq<Expr>, body: seq<Stmt>)

  /** The list display `['a', 'b', ...]` of string literals. */
  function StringList(names: seq<string>): Expr {
    List(seq(|names|, i requires 0 <= i < |names| => Constant(Str(names[i]))))
  }

  /** An `ast.ClassDef`: its base expressions, body and line number. */
  datatype ClassDef = ClassDef(name: string, bases: seq<Expr>, body: seq<Stmt>, line: nat)
}

=== FILE: recursive_deps.dfy ===
/** The recursive dependency closure of the manifest reader
    (`get_all_dependencies_recursive` in parsers/manifest_parser.py),
    over the answers of `get_dependencies`: a module missing from the map
    has no dependencies. One `visited` set is shared by the whole
    recursion, so a module is expanded at most once and cycles end. */
module RecursiveDeps {
  import opened Seqs

  /** Module name to its `get_dependencies` answer. */
  type DepsMap = map<string, seq<string>>

  function Direct(deps: DepsMap, m: string): seq<string> {
    if m in deps then deps[m] else []
  }

  /** Every name the map mentions, as a module or as a dependency. */
  ghost function Universe(deps: DepsMap): set<string> {
    deps.Keys + set m, x | m in deps && x in deps[m] :: x
  }

  lemma DirectInUniverse(deps: DepsMap, m: string)
    ensures forall x :: x in Direct(deps, m) ==> x in Universe(deps)
  {
  }

  /** Expanding an unvisited module shrinks the unvisited universe. */
  lemma VisitShrinks(deps: DepsMap, m: string, visited: set<string>)
    requires m !in visited
    ensures |Universe(deps) - (visited + {m})| < |(Universe(deps) + {m}) - visited|
  {
    var a := Universe(deps) - (visited + {m});
    assert (Universe(deps) + {m}) - visited == a + {m};
  }

  /** A grown visited set leaves no more of the universe unvisited. */
  lemma GrowVisited(deps: DepsMap, visited: set<string>, v1: set<string>)
    requires visited <= v1
    ensures |Universe(deps) - v1| <= |Universe(deps) - visited|
  {
    var a := Universe(deps) - v1;
    var b := Universe(deps) - visited;
    assert b == a + (b - a);
    assert a * (b - a) == {};
  }

  /** `get_all_dependencies_recursive(m, visited)`: the closure list and
      the visited set after the call. */
  function From(deps: DepsMap, m: string, visited: set<string>): (res: (seq<string>, set<string>))
    ensures visited <= res.1 && m in res.1
    ensures m !in visited ==> |Direct(deps, m)| <= |res.0| && res.0[..|Direct(deps, m)|] == Direct(deps, m)
    ensures m in visited ==> res == ([], visited)
    decreases |(Universe(deps) + {m}) - visited|, 0
  {
    if m in visited then ([], visited)
    else
      var ds := Direct(deps, m);
      DirectInUniverse(deps, m);
      VisitShrinks(deps, m, visited);
      Loop(deps, ds, visited + {m}, ds)
  }

  /** The `for dep in direct_deps` loop, from the list `acc` built so far. */
  function Loop(deps: DepsMap, ds: seq<string>, visited: set<string>, acc: seq<string>): (res: (seq<string>, set<string>))
    requires forall x :: x in ds ==> x in Universe(deps)
    ensures visited <= res.1
    ensures forall x :: x in ds ==> x in res.1
    ensures |acc| <= |res.0| && res.0[..|acc|] == acc
    decreases |Universe(deps) - visited|, 1, |ds|
  {
    if ds == [] then (acc, visited)
    else
      assert Universe(deps) + {ds[0]} == Universe(deps);
      var (t, v1) := From(deps, ds[0], visited);
      GrowVisited(deps, visited, v1);
      var r := Loop(deps, ds[1..], v1, AppendNew(acc, t));
      r
  }

  /** The closure of `m` from a fresh visited set. */
  function AllDependencies(deps: DepsMap, m: string): seq<string> {
    From(deps, m, {}).0
  }

  // ---------------------------------------------------------------------
  // Reachability
  // ---------------------------------------------------------------------

  /** Consecutive modules of `p` are linked by depends edges. */
  predicate IsPath(deps: DepsMap, p: seq<string>) {
    forall i :: 0 <= i < |p| - 1 ==> p[i + 1] in Direct(deps, p[i])
  }

  /** `y` can be reached from `m` along at least one depends edge. */
  ghost predicate Reachable(deps: DepsMap, m: string, y: string) {
    exists p :: |p| >= 2 && p[0] == m && p[|p| - 1] == y && IsPath(deps, p)
  }

  lemma ReachableEdge(deps: DepsMap, m: string, y: string)
    requires y in Direct(deps, m)
    ensures Reachable(deps, m, y)
  {
    assert IsPath(deps, [m, y]);
  }

  lemma ReachablePrepend(deps: DepsMap, m: string, d: string, y: string)
    requires d in Direct(deps, m) && Reachable(deps, d, y)
    ensures Reachable(deps, m, y)
  {
    var p :| |p| >= 2 && p[0] == d && p[|p| - 1] == y && IsPath(deps, p);
    var q := [m] + p;
    assert forall i :: 1 <= i < |q| - 1 ==> q[i + 1] == p[i] && q[i] == p[i - 1];
    assert IsPath(deps, q);
  }

  // ---------------------------------------------------------------------
  // What the shared visited set guarantees
  // ---------------------------------------------------------------------

  /** Every module the call newly visits has its direct dependencies in
      the returned list, and every listed module has been visited. */
  lemma {:induction false} FromCovers(deps: DepsMap, m: string, visited: set<string>)
    ensures forall y :: y in From(deps, m, visited).0 ==> y in From(deps, m, visited).1
    ensures forall x, y :: x in From(deps, m, visited).1 && x !in visited && y in Direct(deps, x) ==>
              y in From(deps, m, visited).0
    decreases |(Universe(deps) + {m}) - visited|, 0
  {
    if m !in visited {
      var ds := Direct(deps, m);
      DirectInUniverse(deps, m);
      VisitShrinks(deps, m, visited);
      LoopCovers(deps, ds, visited + {m}, ds);
    }
  }

  lemma {:induction false} LoopCovers(deps: DepsMap, ds: seq<string>, visited: set<string>, acc: seq<string>)
    requires forall x :: x in ds ==> x in Universe(deps)
    ensures forall y :: y in Loop(deps, ds, visited, acc).0 ==> y in acc || y in Loop(deps, ds, visited, acc).1
    ensures forall x, y :: x in Loop(deps, ds, visited, acc).1 && x !in visited && y in Direct(deps, x) ==>
              y in Loop(deps, ds, visited, acc).0
    decreases |Universe(deps) - visited|, 1, |ds|
  {
    if ds != [] {
      assert Universe(deps) + {ds[0]} == Universe(deps);
      var t := From(deps, ds[0], visited).0;
      var v1 := From(deps, ds[0], visited).1;
      GrowVisited(deps, visited, v1);
      FromCovers(deps, ds[0], visited);
      var acc1 := AppendNew(acc, t);
      LoopCovers(deps, ds[1..], v1, acc1);
      var r := Loop(deps, ds, visited, acc).0;
      var v := Loop(deps, ds, visited, acc).1;
      assert Loop(deps, ds, visited, acc) == Loop(deps, ds[1..], v1, acc1);
      assert forall y :: y in acc1 ==> y in r by {
        forall y | y in acc1 ensures y in r {
          var i :| 0 <= i < |acc1| && acc1[i] == y;
          assert r[..|acc1|][i] == y;
        }
      }
      forall y | y in r ensures y in acc || y in v {
        if y in acc1 && y !in acc {
          assert y in t && y in v1;
        }
      }
      forall x, y | x in v && x !in visited && y in Direct(deps, x) ensures y in r {
        if x in v1 {
          assert y in t;
        }
      }
    }
  }

  /** Everything listed is reachable from the module the call started
      at (or, for the loop, from one of the modules still to expand). */
  lemma {:induction false} FromSound(deps: DepsMap, m: string, visited: set<string>)
    ensures forall y :: y in From(deps, m, visited).0 ==> Reachable(deps, m, y)
    decreases |(Universe(deps) + {m}) - visited|, 0
  {
    if m !in visited {
      var ds := Direct(deps, m);
      DirectInUniverse(deps, m);
      VisitShrinks(deps, m, visited);
      LoopSound(deps, ds, visited + {m}, ds);
      forall y | y in From(deps, m, visited).0 ensures Reachable(deps, m, y) {
        if y in ds {
          ReachableEdge(deps, m, y);
        } else {
          var d :| d in ds && Reachable(deps, d, y);
          ReachablePrepend(deps, m, d, y);
        }
      }
    }
  }

  lemma {:induction false} LoopSound(deps: DepsMap, ds: seq<string>, visited: set<string>, acc: seq<string>)
    requires forall x :: x in ds ==> x in Universe(deps)
    ensures forall y :: y in Loop(deps, ds, visited, acc).0 ==>
              y in acc || exists d :: d in ds && Reachable(deps, d, y)
    decreases |Universe(deps) - visited|, 1, |ds|
  {
    if ds != [] {
      assert Universe(deps) + {ds[0]} == Universe(deps);
      var (t, v1) := From(deps, ds[0], visited);
      GrowVisited(deps, visited, v1);
      FromSound(deps, ds[0], visited);
      LoopSound(deps, ds[1..], v1, AppendNew(acc, t));
      forall y | y in Loop(deps, ds, visited, acc).0
        ensures y in acc || exists d :: d in ds && Reachable(deps, d, y)
      {
        if y !in AppendNew(acc, t) {
          var d :| d in ds[1..] && Reachable(deps, d, y);
          assert d in ds;
        } else if y !in acc {
          assert y in t && ds[0] in ds;
        }
      }
    }
  }

  /** Walking a path whose second module is listed stays in the list,
      when every listed module is visited and every visited module has
      its dependencies listed. */
  lemma {:induction false} PathStaysListed(deps: DepsMap, p: seq<string>, r: seq<string>, v: set<string>)
    requires |p| >= 2 && IsPath(deps, p) && p[1] in r
    requires forall y :: y in r ==> y in v
    requires forall x, y :: x in v && y in Direct(deps, x) ==> y in r
    ensures p[|p| - 1] in r
    decreases |p|
  {
    if |p| > 2 {
      assert p[2] in Direct(deps, p[1]);
      PathStaysListed(deps, p[1..], r, v);
    }
  }

  /** The closure lists exactly the modules reachable from `m` along at
      least one depends edge; `m` itself is listed only when it lies on
      a cycle. */
  lemma ClosureIsReachable(deps: DepsMap, m: string)
    ensures forall y :: y in AllDependencies(deps, m) <==> Reachable(deps, m, y)
  {
    var r := From(deps, m, {}).0;
    var v := From(deps, m, {}).1;
    FromSound(deps, m, {});
    FromCovers(deps, m, {});
    forall y | Reachable(deps, m, y) ensures y in r {
      var p :| |p| >= 2 && p[0] == m && p[|p| - 1] == y && IsPath(deps, p);
      assert p[1] in Direct(deps, m);
      assert r[..|Direct(deps, m)|] == Direct(deps, m);
      PathStaysListed(deps, p, r, v);
    }
  }

  /** A module appears at most once in the closure when no manifest
      lists a dependency twice. */
  lemma {:induction false} ClosureNoDup(deps: DepsMap, m: string, visited: set<string>)
    requires forall x :: x in deps ==> NoDup(deps[x])
    ensures NoDup(From(deps, m, visited).0)
    decreases |(Universe(deps) + {m}) - visited|, 0
  {
    if m !in visited {
      var ds := Direct(deps, m);
      DirectInUniverse(deps, m);
      VisitShrinks(deps, m, visited);
      LoopNoDup(deps, ds, visited + {m}, ds);
    }
  }

  lemma {:induction false} LoopNoDup(deps: DepsMap, ds: seq<string>, visited: set<string>, acc: seq<string>)
    requires forall x :: x in deps ==> NoDup(deps[x])
    requires forall x :: x in ds ==> x in Universe(deps)
    requires NoDup(acc)
    ensures NoDup(Loop(deps, ds, visited, acc).0)
    decreases |Universe(deps) - visited|, 1, |ds|
  {
    if ds != [] {
      assert Universe(deps) + {ds[0]} == Universe(deps);
      var (t, v1) := From(deps, ds[0], visited);
      GrowVisited(deps, visited, v1);
      LoopNoDup(deps, ds[1..], v1, AppendNew(acc, t));
    }
  }

  /** A manifest listing a dependency twice makes the closure list it
      twice: the direct dependencies are copied without a check. */
  lemma DuplicateDependsSurvive()
    ensures AllDependencies(map["a" := ["b", "b"]], "a") == ["b", "b"]
  {
    var deps := map["a" := ["b", "b"]];
    DirectInUniverse(deps, "a");
    assert Direct(deps, "a") == ["b", "b"];
    assert Direct(deps, "b") == [];
    var v := {"a", "b"};
    assert From(deps, "b", v) == ([], v);
    assert Loop(deps, [], v, ["b", "b"]) == (["b", "b"], v);
    assert Loop(deps, ["b"], v, ["b", "b"]) == (["b", "b"], v);
    assert {"a"} + {"b"} == v;
    assert Loop(deps, [], {"a"} + {"b"}, []) == ([], v);
    assert From(deps, "b", {"a"}) == ([], v);
    assert Loop(deps, ["b", "b"], {"a"}, ["b", "b"]) == (["b", "b"], v);
    var none: set<string> := {};
    assert none + {"a"} == {"a"};
    assert From(deps, "a", none) == Loop(deps, ["b", "b"], none + {"a"}, ["b", "b"]);
  }

  /** A module depending on itself gets itself as its only dependency. */
  lemma SelfLoopClosure()
    ensures AllDependencies(map["a" := ["a"]], "a") == ["a"]
  {
    var deps := map["a" := ["a"]];
    DirectInUniverse(deps, "a");
    assert Direct(deps, "a") == ["a"];
    assert From(deps, "a", {"a"}) == ([], {"a"});
    assert Loop(deps, [], {"a"}, ["a"]) == (["a"], {"a"});
    assert Loop(deps, ["a"], {"a"}, ["a"]) == (["a"], {"a"});
    assert From(deps, "a", {}) == Loop(deps, ["a"], {} + {"a"}, ["a"]);
  }

  /** Two modules depending on each other: the closure of either holds
      both, the start module last. */
  lemma MutualClosure()
    ensures AllDependencies(map["p" := ["q"], "q" := ["p"]], "p") == ["q", "p"]
  {
    var deps := map["p" := ["q"], "q" := ["p"]];
    DirectInUniverse(deps, "p");
    DirectInUniverse(deps, "q");
    assert Direct(deps, "p") == ["q"];
    assert Direct(deps, "q") == ["p"];
    var v := {"p", "q"};
    assert From(deps, "p", v) == ([], v);
    assert Loop(deps, [], v, ["p"]) == (["p"], v);
    assert Loop(deps, ["p"], v, ["p"]) == (["p"], v);
    assert {"p"} + {"q"} == v;
    assert From(deps, "q", {"p"}) == Loop(deps, ["p"], {"p"} + {"q"}, ["p"]);
    assert From(deps, "q", {"p"}) == (["p"], v);
    assert AppendNew(["q"], ["p"]) == ["q", "p"];
    assert Loop(deps, [], v, ["q", "p"]) == (["q", "p"], v);
    assert Loop(deps, ["q"], {"p"}, ["q"]) == (["q", "p"], v);
    var none: set<string> := {};
    assert none + {"p"} == {"p"};
    assert From(deps, "p", none) == Loop(deps, ["q"], none + {"p"}, ["q"]);
  }
}

=== FILE: seqs.dfy ===
/** Sequence helpers standing in for Python list idioms: membership sets,
    duplicate freedom, `list.remove`, `reversed`, and list comprehensions
    that keep members of a collection. */
module Seqs {

  /** The set of elements of a sequence (Python's `set(xs)`). */
  function Elems<T(!new)>(s: seq<T>): (r: set<T>)
    ensures forall x :: x in r <==> x in s
  {
    set x | x in s
  }

  /** No element occurs twice. */
  predicate NoDup<T(==)>(s: seq<T>) {
    forall i, j :: 0 <= i < j < |s| ==> s[i] != s[j]
  }

  /** Number of occurrences of `x` in `s` (Python's `xs.count(x)`). */
  function Count<T(==)>(s: seq<T>, x: T): (n: nat)
    ensures n == 0 <==> x !in s
    ensures n <= |s|
  {
    if s == [] then 0
    else (if s[0] == x then 1 else 0) + Count(s[1..], x)
  }

  /** Python's `xs.remove(x)`: drops the first occurrence of `x`
      (the caller guarantees presence, as the source does by testing first). */
  function RemoveFirst<T(==,!new)>(s: seq<T>, x: T): (r: seq<T>)
    requires x in s
    ensures |r| == |s| - 1
    ensures forall y :: y != x ==> (y in r <==> y in s)
    ensures NoDup(s) ==> NoDup(r) && x !in r
    ensures IsSubsequence(r, s)
  {
    if s[0] == x then
      SubsequenceRefl(s[1..]);
      SubsequenceCons(s[1..], s[0], s[1..]);
      assert [s[0]] + s[1..] == s;
      s[1..]
    else
      var rest := RemoveFirst(s[1..], x);
      assert NoDup(s) ==> NoDup(s[1..]) && s[0] !in s[1..] && s[0] !in rest;
      assert ([s[0]] + rest)[1..] == rest;
      [s[0]] + rest
  }

  /** Python's `list(reversed(xs))`. */
  function Reverse<T>(s: seq<T>): (r: seq<T>)
    ensures |r| == |s|
    ensures forall i :: 0 <= i < |s| ==> r[i] == s[|s| - 1 - i]
  {
    if s == [] then [] else Reverse(s[1..]) + [s[0]]
  }

  lemma ReversePreservesElems<T(!new)>(s: seq<T>)
    ensures Elems(Reverse(s)) == Elems(s)
    ensures NoDup(s) ==> NoDup(Reverse(s))
  {
    var r := Reverse(s);
    forall x | x in s ensures x in r {
      var i :| 0 <= i < |s| && s[i] == x;
      assert r[|s| - 1 - i] == x;
    }
  }

  /** `[x for x in s if x in keys]`: the members of `s` that belong to
      `keys`, in order, duplicates kept. */
  function KeepMembers<T(==,!new)>(s: seq<T>, keys: set<T>): (r: seq<T>)
    ensures |r| <= |s|
    ensures forall x :: x in r <==> x in s && x in keys
  {
    if s == [] then []
    else if s[0] in keys then [s[0]] + KeepMembers(s[1..], keys)
    else KeepMembers(s[1..], keys)
  }

  /** The filter keeps every occurrence of a member of `keys` and nothing
      else. */
  lemma {:induction false} KeepMembersCount<T(!new)>(s: seq<T>, keys: set<T>)
    ensures forall x :: Count(KeepMembers(s, keys), x) == if x in keys then Count(s, x) else 0
    decreases |s|
  {
    if s != [] {
      KeepMembersCount(s[1..], keys);
      var rest := KeepMembers(s[1..], keys);
      if s[0] in keys {
        assert ([s[0]] + rest)[1..] == rest;
      }
    }
  }

  /** The filter works element by element: filtering a concatenation
      filters each part, so the kept elements stay in their order. */
  lemma {:induction false} KeepMembersAppend<T(!new)>(a: seq<T>, b: seq<T>, keys: set<T>)
    ensures KeepMembers(a + b, keys) == KeepMembers(a, keys) + KeepMembers(b, keys)
    decreases |a|
  {
    if a == [] {
      assert a + b == b;
    } else {
      var ab := a + b;
      assert ab[0] == a[0] && ab[1..] == a[1..] + b;
      KeepMembersAppend(a[1..], b, keys);
      if a[0] in keys {
        assert KeepMembers(ab, keys) == [a[0]] + KeepMembers(a[1..] + b, keys);
        assert KeepMembers(a, keys) == [a[0]] + KeepMembers(a[1..], keys);
      } else {
        assert KeepMembers(ab, keys) == KeepMembers(a[1..] + b, keys);
      }
    }
  }

  /** `r` is obtained from `s` by deleting some elements (order kept). */
  predicate IsSubsequence<T(==)>(r: seq<T>, s: seq<T>) {
    if r == [] then true
    else if s == [] then false
    else if r[0] == s[0] then IsSubsequence(r[1..], s[1..])
    else IsSubsequence(r, s[1..])
  }

  /** Every sequence is a subsequence of itself. */
  lemma {:induction false} SubsequenceRefl<T>(s: seq<T>)
    ensures IsSubsequence(s, s)
  {
    if s != [] {
      SubsequenceRefl(s[1..]);
    }
  }

  lemma {:induction false} KeepMembersIsSubsequence<T(!new)>(s: seq<T>, keys: set<T>)
    ensures IsSubsequence(KeepMembers(s, keys), s)
  {
    if s != [] {
      KeepMembersIsSubsequence(s[1..], keys);
      if s[0] !in keys {
        SubsequenceCons(KeepMembers(s[1..], keys), s[0], s[1..]);
        assert [s[0]] + s[1..] == s;
      }
    }
  }

  /** Deleting elements never adds occurrences. */
  lemma {:induction false} SubsequenceCount<T>(r: seq<T>, s: seq<T>, x: T)
    requires IsSubsequence(r, s)
    ensures Count(r, x) <= Count(s, x)
    decreases |s|
  {
    if r != [] {
      if r[0] == s[0] {
        SubsequenceCount(r[1..], s[1..], x);
      } else {
        SubsequenceCount(r, s[1..], x);
      }
    }
  }

  /** The filter is the only way to delete elements of `s` that keeps
      every occurrence of the members of `keys` and nothing else. */
  lemma {:induction false} KeepMembersUnique<T(!new)>(r: seq<T>, s: seq<T>, keys: set<T>)
    requires IsSubsequence(r, s)
    requires forall x :: Count(r, x) == if x in keys then Count(s, x) else 0
    ensures r == KeepMembers(s, keys)
    decreases |s|
  {
    if s == [] {
      assert r == [];
    } else {
      var x := s[0];
      if r != [] && r[0] == x {
        forall y ensures Count(r[1..], y) == if y in keys then Count(s[1..], y) else 0 {
          assert Count(r, y) == (if x == y then 1 else 0) + Count(r[1..], y);
        }
        KeepMembersUnique(r[1..], s[1..], keys);
        assert x in keys by {
          assert Count(r, x) >= 1;
        }
      } else {
        if r != [] {
          assert IsSubsequence(r, s[1..]);
        }
        assert Count(r, x) <= Count(s[1..], x) by {
          SubsequenceCount(r, s[1..], x);
        }
        assert x !in keys;
        forall y ensures Count(r, y) == if y in keys then Count(s[1..], y) else 0 {
        }
        KeepMembersUnique(r, s[1..], keys);
      }
    }
  }

  /** Prepending an element to the longer sequence keeps the relation. */
  lemma {:induction false} SubsequenceCons<T>(r: seq<T>, x: T, t: seq<T>)
    requires IsSubsequence(r, t)
    ensures IsSubsequence(r, [x] + t)
    decreases |t|, 1
  {
    var xt := [x] + t;
    assert xt[1..] == t;
    if r != [] && r[0] == x {
      SubsequenceTail(r, t);
    }
  }

  /** Dropping the head of the shorter sequence keeps the relation. */
  lemma {:induction false} SubsequenceTail<T>(r: seq<T>, t: seq<T>)
    requires r != []
    requires IsSubsequence(r, t)
    ensures IsSubsequence(r[1..], t)
    decreases |t|, 0
  {
    assert t != [];
    if r[0] == t[0] {
      SubsequenceCons(r[1..], t[0], t[1..]);
    } else {
      SubsequenceTail(r, t[1..]);
      SubsequenceCons(r[1..], t[0], t[1..]);
    }
    assert [t[0]] + t[1..] == t;
  }

  /** `for x in t: if x not in acc: acc.append(x)`: the elements of `t`
      not yet present, appended in order. */
  function AppendNew<T(==,!new)>(acc: seq<T>, t: seq<T>): (r: seq<T>)
    ensures |acc| <= |r| && r[..|acc|] == acc
    ensures forall x :: x in r <==> x in acc || x in t
    ensures NoDup(acc) ==> NoDup(r)
    decreases |t|
  {
    if t == [] then acc
    else AppendNew(if t[0] in acc then acc else acc + [t[0]], t[1..])
  }

  /** The appended elements come in the order they have in `t`. */
  lemma {:induction false} AppendNewOrder<T(!new)>(acc: seq<T>, t: seq<T>)
    ensures IsSubsequence(AppendNew(acc, t)[|acc|..], t)
    decreases |t|
  {
    var r := AppendNew(acc, t);
    if t != [] {
      assert [t[0]] + t[1..] == t;
      if t[0] in acc {
        AppendNewOrder(acc, t[1..]);
        SubsequenceCons(r[|acc|..], t[0], t[1..]);
      } else {
        var acc' := acc + [t[0]];
        AppendNewOrder(acc', t[1..]);
        assert r[..|acc'|] == acc';
        assert r[|acc|..][0] == t[0];
        assert r[|acc|..][1..] == r[|acc'|..];
      }
    }
  }

  /** Prepending an absent element keeps a sequence duplicate-free. */
  lemma NoDupCons<T>(x: T, s: seq<T>)
    requires x !in s && NoDup(s)
    ensures NoDup([x] + s)
  {
    forall i, j | 0 <= i < j < |[x] + s| ensures ([x] + s)[i] != ([x] + s)[j] {
      assert ([x] + s)[j] == s[j - 1];
      if i > 0 {
        assert ([x] + s)[i] == s[i - 1];
      }
    }
  }

  /** Python's `s[:k]`: a negative `k` counts from the end, and an end
      past the last element stops there. */
  function Take<T>(s: seq<T>, k: int): (r: seq<T>)
    ensures |r| <= |s| && r == s[..|r|]
    ensures 0 <= k <= |s| ==> |r| == k
    ensures k > |s| ==> r == s
    ensures k < 0 ==> |r| == if |s| + k < 0 then 0 else |s| + k
  {
    if k < 0 then s[..if |s| + k < 0 then 0 else |s| + k]
    else if k > |s| then s
    else s[..k]
  }
}

=== FILE: strings.dfy ===
/** String operations of Python's `str` that the inspector and the icon
    maker rely on: `in` (substring), `startswith`, `split`, `join`,
    ASCII case mapping, code-point ordering (`<`, used by `list.sort`)
    and decimal rendering (`str(n)`). */
module Strings {

  /** `s.startswith(p)`. */
  predicate IsPrefix(p: string, s: string) {
    |p| <= |s| && s[..|p|] == p
  }

  /** `needle in hay` for two strings. */
  predicate Contains(hay: string, needle: string)
    decreases |hay|
  {
    IsPrefix(needle, hay) || (|hay| > 0 && Contains(hay[1..], needle))
  }

  /** `needle` sits in `hay` starting at offset `i`. */
  predicate OccursAt(hay: string, needle: string, i: int) {
    0 <= i <= |hay| - |needle| && hay[i..i + |needle|] == needle
  }

  /** `needle in hay` holds exactly when `needle` occurs at some offset. */
  lemma {:induction false} ContainsIffOccurs(hay: string, needle: string)
    ensures Contains(hay, needle) <==> exists i :: OccursAt(hay, needle, i)
    decreases |hay|
  {
    if |hay| > 0 {
      ContainsIffOccurs(hay[1..], needle);
      if Contains(hay, needle) {
        if IsPrefix(needle, hay) {
          assert OccursAt(hay, needle, 0);
        } else {
          var i :| OccursAt(hay[1..], needle, i);
          assert hay[i + 1..i + 1 + |needle|] == hay[1..][i..i + |needle|];
          assert OccursAt(hay, needle, i + 1);
        }
      }
      if exists i :: OccursAt(hay, needle, i) {
        var i :| OccursAt(hay, needle, i);
        if i > 0 {
          assert hay[1..][i - 1..i - 1 + |needle|] == hay[i..i + |needle|];
          assert OccursAt(hay[1..], needle, i - 1);
        } else {
          assert IsPrefix(needle, hay);
        }
      }
    } else {
      if Contains(hay, needle) {
        assert OccursAt(hay, needle, 0);
      }
      if exists i :: OccursAt(hay, needle, i) {
        var i :| OccursAt(hay, needle, i);
        assert needle == [];
        assert IsPrefix(needle, hay);
      }
    }
  }

  /** A string contains everything its suffix contains. */
  lemma {:induction false} ContainsInSuffix(a: string, b: string, needle: string)
    requires Contains(b, needle)
    ensures Contains(a + b, needle)
    decreases |a|
  {
    if a != [] {
      ContainsInSuffix(a[1..], b, needle);
      assert (a + b)[1..] == a[1..] + b;
      assert |a + b| > 0 && Contains((a + b)[1..], needle);
    } else {
      assert a + b == b;
    }
  }

  /** A string contains everything its prefix contains. */
  lemma {:induction false} ContainsInPrefix(a: string, b: string, needle: string)
    requires Contains(a, needle)
    ensures Contains(a + b, needle)
    decreases |a|
  {
    if IsPrefix(needle, a) {
      assert (a + b)[..|needle|] == a[..|needle|];
    } else {
      ContainsInPrefix(a[1..], b, needle);
      assert (a + b)[1..] == a[1..] + b;
    }
  }

  function LowerChar(c: char): char {
    if 'A' <= c <= 'Z' then (c as int + 32) as char else c
  }

  function UpperChar(c: char): char {
    if 'a' <= c <= 'z' then (c as int - 32) as char else c
  }

  /** `s.lower()` restricted to the ASCII letters. */
  function Lower(s: string): (r: string)
    ensures |r| == |s|
    ensures forall i :: 0 <= i < |s| ==> r[i] == LowerChar(s[i])
  {
    seq(|s|, i requires 0 <= i < |s| => LowerChar(s[i]))
  }

  /** Lower-casing twice is lower-casing once. */
  lemma LowerTwice(s: string)
    ensures Lower(Lower(s)) == Lower(s)
  {
    assert forall i :: 0 <= i < |s| ==> LowerChar(LowerChar(s[i])) == LowerChar(s[i]);
  }

  /** `s.split(sep)` for a one-character separator: `k` separators give
      `k + 1` parts, empty parts included. */
  function Split(s: string, sep: char): (parts: seq<string>)
    ensures |parts| >= 1
    ensures forall i :: 0 <= i < |parts| ==> sep !in parts[i]
    decreases |s|
  {
    if s == [] then [""]
    else if s[0] == sep then [""] + Split(s[1..], sep)
    else
      var rest := Split(s[1..], sep);
      [[s[0]] + rest[0]] + rest[1..]
  }

  /** `sep.join(parts)`. */
  function Join(parts: seq<string>, sep: char): string
    requires |parts| >= 1
    decreases |parts|
  {
    if |parts| == 1 then parts[0] else parts[0] + [sep] + Join(parts[1..], sep)
  }

  /** Joining the parts of a split gives back the original string. */
  lemma {:induction false} JoinSplit(s: string, sep: char)
    ensures Join(Split(s, sep), sep) == s
    decreases |s|
  {
    if s != [] {
      JoinSplit(s[1..], sep);
      var rest := Split(s[1..], sep);
      if s[0] != sep {
        var parts := Split(s, sep);
        assert parts[0] == [s[0]] + rest[0];
        assert parts[1..] == rest[1..];
        if |rest| > 1 {
          assert Join(rest, sep) == rest[0] + [sep] + Join(rest[1..], sep);
        }
      }
    }
  }

  /** Splitting a join of separator-free parts gives back the parts. */
  lemma {:induction false} SplitJoin(parts: seq<string>, sep: char)
    requires |parts| >= 1
    requires forall i :: 0 <= i < |parts| ==> sep !in parts[i]
    ensures Split(Join(parts, sep), sep) == parts
    decreases |parts|, |parts[0]|
  {
    var p := parts[0];
    if p == [] {
      if |parts| > 1 {
        SplitJoin(parts[1..], sep);
        assert Join(parts, sep) == [sep] + Join(parts[1..], sep);
      }
    } else {
      var shorter := [p[1..]] + parts[1..];
      assert forall i :: 0 <= i < |shorter| ==> sep !in shorter[i];
      SplitJoin(shorter, sep);
      if |parts| > 1 {
        assert Join(parts, sep) == [p[0]] + Join(shorter, sep);
      } else {
        assert Join(parts, sep) == [p[0]] + Join(shorter, sep);
      }
      assert [p[0]] + p[1..] == p;
    }
  }

  /** Python's `<` on `str`: lexicographic by code point, a proper
      prefix coming first. */
  predicate Less(a: string, b: string)
    decreases |a|
  {
    |b| > 0 && (|a| == 0 || a[0] < b[0] || (a[0] == b[0] && Less(a[1..], b[1..])))
  }

  lemma {:induction false} LessIrreflexive(a: string)
    ensures !Less(a, a)
    decreases |a|
  {
    if |a| > 0 {
      LessIrreflexive(a[1..]);
    }
  }

  lemma {:induction false} LessTransitive(a: string, b: string, c: string)
    requires Less(a, b) && Less(b, c)
    ensures Less(a, c)
    decreases |a|
  {
    if |a| > 0 && a[0] == b[0] && b[0] == c[0] {
      LessTransitive(a[1..], b[1..], c[1..]);
    }
  }

  lemma {:induction false} LessTotal(a: string, b: string)
    requires a != b
    ensures Less(a, b) || Less(b, a)
    decreases |a|
  {
    if |a| > 0 && |b| > 0 && a[0] == b[0] {
      assert a == [a[0]] + a[1..] && b == [b[0]] + b[1..];
      LessTotal(a[1..], b[1..]);
    }
  }

  lemma {:induction false} LessAsymmetric(a: string, b: string)
    requires Less(a, b)
    ensures !Less(b, a)
  {
    if Less(b, a) {
      LessTransitive(a, b, a);
      LessIrreflexive(a);
    }
  }

  function DigitChar(d: nat): char
    requires d < 10
  {
    "0123456789"[d]
  }

  /** `str(n)` for a non-negative integer. */
  function NatToString(n: nat): (r: string)
    ensures |r| >= 1
    ensures forall i :: 0 <= i < |r| ==> '0' <= r[i] <= '9'
    ensures |r| > 1 ==> r[0] != '0'
  {
    if n < 10 then [DigitChar(n)] else NatToString(n / 10) + [DigitChar(n % 10)]
  }

  /** `int(s)` for a string of decimal digits. */
  function ParseDecimal(s: string): nat
    requires forall i :: 0 <= i < |s| ==> '0' <= s[i] <= '9'
    decreases |s|
  {
    if s == [] then 0
    else ParseDecimal(s[..|s| - 1]) * 10 + (s[|s| - 1] as int - '0' as int)
  }

  /** Rendering a count and reading it back gives the count. */
  lemma {:induction false} ParseNatToString(n: nat)
    ensures ParseDecimal(NatToString(n)) == n
  {
    var r := NatToString(n);
    if n >= 10 {
      ParseNatToString(n / 10);
      assert r[..|r| - 1] == NatToString(n / 10);
    }
  }

  /** `s.endswith(p)`. */
  predicate IsSuffix(p: string, s: string) {
    |p| <= |s| && s[|s| - |p|..] == p
  }

  /** Strictly increasing in code-point order. */
  predicate Ascending(s: seq<string>) {
    forall i, j :: 0 <= i < j < |s| ==> Less(s[i], s[j])
  }

  /** `x` is the least element of `s`. */
  predicate IsLeast(x: string, s: set<string>) {
    x in s && forall y :: y in s && y != x ==> Less(x, y)
  }

  lemma {:induction false} LeastExists(s: set<string>)
    requires s != {}
    ensures exists x :: IsLeast(x, s)
    decreases |s|
  {
    var e :| e in s;
    if s - {e} == {} {
      assert s == {e};
      assert IsLeast(e, s);
    } else {
      LeastExists(s - {e});
      var m :| IsLeast(m, s - {e});
      if Less(e, m) {
        forall y | y in s && y != e ensures Less(e, y) {
          if y != m { LessTransitive(e, m, y); }
        }
        assert IsLeast(e, s);
      } else {
        LessTotal(e, m);
        assert IsLeast(m, s);
      }
    }
  }

  lemma LeastUnique(s: set<string>)
    ensures forall x, y :: IsLeast(x, s) && IsLeast(y, s) ==> x == y
  {
    forall x, y | IsLeast(x, s) && IsLeast(y, s) ensures x == y {
      if x != y {
        LessAsymmetric(x, y);
      }
    }
  }

  /** `sorted(names)` for a set of names (the keys of a dict): every name
      once; `SortedElemsAscending` gives the order. */
  function SortedElems(s: set<string>): (r: seq<string>)
    ensures |r| == |s|
    ensures forall x :: x in r <==> x in s
    decreases |s|
  {
    if s == {} then []
    else
      LeastExists(s);
      LeastUnique(s);
      var x :| IsLeast(x, s);
      var rest := SortedElems(s - {x});
      [x] + rest
  }

  /** `sorted` lists the names in ascending order. */
  lemma {:induction false} SortedElemsAscending(s: set<string>)
    ensures Ascending(SortedElems(s))
    decreases |s|
  {
    if s != {} {
      LeastExists(s);
      LeastUnique(s);
      var x :| IsLeast(x, s);
      var rest := SortedElems(s - {x});
      SortedElemsAscending(s - {x});
      var r := SortedElems(s);
      assert r == [x] + rest;
      forall i, j | 0 <= i < j < |r| ensures Less(r[i], r[j]) {
        if i == 0 {
          assert r[j] in rest;
        } else {
          assert r[i] == rest[i - 1] && r[j] == rest[j - 1];
        }
      }
    }
  }
}

=== FILE: topo_sort.dfy ===
/** `_topological_sort` of the dependency resolver
    (parsers/dependency_resolver.py) as written: Kahn's algorithm with a
    name-ordered queue whose release step lowers the in-degree of the
    nodes that DEPEND ON the popped node. A node enters the queue only
    with in-degree 0, that is with no dependents, so the release step
    never finds anything: the result is exactly the nodes nobody depends
    on, in descending name order. */
module TopoSort {
  import opened Seqs
  import opened Strings

  /** The graph dict: `nodes` are its keys in insertion order and
      `adj[n]` the dependencies of `n`. */
  datatype Graph = Graph(nodes: seq<string>, adj: map<string, seq<string>>)

  /** A dict has each key once, and `adj` has exactly the keys. */
  predicate WellFormed(g: Graph) {
    && NoDup(g.nodes)
    && (forall n :: n in g.nodes ==> n in g.adj)
    && (forall n :: n in g.adj ==> n in g.nodes)
  }

  /** Some node of the graph lists `x` among its dependencies. */
  predicate HasDependent(g: Graph, x: string)
    requires WellFormed(g)
  {
    exists k :: k in g.nodes && x in g.adj[k]
  }

  /** The number of times `x` occurs in the lists of the nodes `ks`. */
  function Occurrences(g: Graph, ks: seq<string>, x: string): (n: nat)
    requires WellFormed(g)
    requires forall k :: k in ks ==> k in g.nodes
    ensures n == 0 <==> forall k :: k in ks ==> x !in g.adj[k]
    decreases |ks|
  {
    if ks == [] then 0
    else Count(g.adj[ks[0]], x) + Occurrences(g, ks[1..], x)
  }

  /** The `in_degree` dict after its two counting loops: for each key,
      how often it occurs in the dependency lists (entries that are not
      keys are not counted). */
  function InDegrees(g: Graph): (deg: map<string, int>)
    requires WellFormed(g)
    ensures forall n :: n in deg <==> n in g.nodes
    ensures forall n :: n in deg ==> (deg[n] == 0 <==> !HasDependent(g, n))
  {
    map n | n in g.adj :: Occurrences(g, g.nodes, n)
  }

  /** `[node for node, degree in in_degree.items() if degree == 0]`. */
  function ZeroIn(ks: seq<string>, deg: map<string, int>): (r: seq<string>)
    requires forall k :: k in ks ==> k in deg
    ensures |r| <= |ks|
    ensures |r| == |ks| <==> forall k :: k in ks ==> deg[k] == 0
    ensures forall x :: x in r <==> x in ks && deg[x] == 0
    ensures NoDup(ks) ==> NoDup(r)
    decreases |ks|
  {
    if ks == [] then []
    else
      var rest := ZeroIn(ks[1..], deg);
      assert forall x :: x in ks <==> x == ks[0] || x in ks[1..];
      if deg[ks[0]] == 0 then [ks[0]] + rest else rest
  }

  /** `queue.sort(); queue.pop(0)` takes the least name of the queue. */
  function Least(q: seq<string>): (r: string)
    requires q != []
    ensures r in q
    ensures forall x :: x in q ==> x == r || Less(r, x)
    decreases |q|
  {
    if |q| == 1 then q[0]
    else
      var m := Least(q[1..]);
      assert forall x :: x in q ==> x == q[0] || x in q[1..];
      if Less(q[0], m) then
        assert forall x :: x in q[1..] && x != m ==> Less(q[0], x) by {
          forall x | x in q[1..] && x != m ensures Less(q[0], x) {
            LessTransitive(q[0], m, x);
          }
        }
        q[0]
      else
        assert q[0] == m || Less(m, q[0]) by {
          if q[0] != m { LessTotal(q[0], m); }
        }
        m
  }

  /** The release loop `for other_node in graph` run after `node` is
      popped: every node whose list contains `node` loses one in-degree
      and joins the queue when it drops to zero. When no node lists
      `node` it changes nothing. */
  function Release(g: Graph, node: string, others: seq<string>, deg: map<string, int>, q: seq<string>)
    : (res: (map<string, int>, seq<string>))
    requires WellFormed(g)
    requires forall o :: o in others ==> o in g.nodes && o in deg
    ensures (forall o :: o in others ==> node !in g.adj[o]) ==> res == (deg, q)
    decreases |others|
  {
    if others == [] then (deg, q)
    else
      var o := others[0];
      if node in g.adj[o] then
        var d := deg[o] - 1;
        Release(g, node, others[1..], deg[o := d], if d == 0 then q + [o] else q)
      else Release(g, node, others[1..], deg, q)
  }

  /** The release step finds nothing to release for a node that nobody
      depends on. */
  lemma ReleaseNothing(g: Graph, node: string, deg: map<string, int>, q: seq<string>)
    requires WellFormed(g)
    requires forall n :: n in deg <==> n in g.nodes
    requires !HasDependent(g, node)
    ensures Release(g, node, g.nodes, deg, q) == (deg, q)
  {
    assert forall o :: o in g.nodes ==> node !in g.adj[o];
  }

  /** The `while queue` loop. Every queued node has no dependents, so
      each round pops the least one and releases nothing. */
  function KahnLoop(g: Graph, deg: map<string, int>, queue: seq<string>, result: seq<string>): (r: seq<string>)
    requires WellFormed(g)
    requires forall n :: n in deg <==> n in g.nodes
    requires forall x :: x in queue ==> x in g.nodes && !HasDependent(g, x)
    requires NoDup(queue)
    ensures |r| == |result| + |queue|
    decreases |queue|
  {
    if queue == [] then result
    else
      var node := Least(queue);
      var rest := RemoveFirst(queue, node);
      var released := Release(g, node, g.nodes, deg, rest);
      ReleaseNothing(g, node, deg, rest);
      KahnLoop(g, released.0, released.1, result + [node])
  }

  /** The queue invariant of the loop: queued nodes are distinct graph
      nodes without dependents, and the in-degree dict keeps its keys. */
  ghost predicate Pending(g: Graph, deg: map<string, int>, queue: seq<string>)
    requires WellFormed(g)
  {
    && (forall n :: n in deg <==> n in g.nodes)
    && (forall x :: x in queue ==> x in g.nodes && !HasDependent(g, x))
    && NoDup(queue)
  }

  /** Popping least names until the queue is empty, appending each to
      `result`: what the loop does once releasing is known to do nothing. */
  function Drain(queue: seq<string>, result: seq<string>): (r: seq<string>)
    ensures |r| == |result| + |queue|
    decreases |queue|
  {
    if queue == [] then result
    else
      var node := Least(queue);
      Drain(RemoveFirst(queue, node), result + [node])
  }

  /** Releasing never finds anything, so the loop only drains its queue. */
  lemma {:induction false} KahnLoopDrains(g: Graph, deg: map<string, int>, queue: seq<string>, result: seq<string>)
    requires WellFormed(g) && Pending(g, deg, queue)
    ensures KahnLoop(g, deg, queue, result) == Drain(queue, result)
    decreases |queue|
  {
    if queue != [] {
      var node := Least(queue);
      var rest := RemoveFirst(queue, node);
      ReleaseNothing(g, node, deg, rest);
      KahnLoopDrains(g, deg, rest, result + [node]);
    }
  }

  /** Draining keeps `result` and appends only queued nodes. */
  lemma {:induction false} DrainPrefix(queue: seq<string>, result: seq<string>)
    ensures var r := Drain(queue, result);
      && r[..|result|] == result
      && (forall i :: |result| <= i < |r| ==> r[i] in queue)
    decreases |queue|
  {
    if queue != [] {
      var node := Least(queue);
      var rest := RemoveFirst(queue, node);
      DrainPrefix(rest, result + [node]);
      var r := Drain(queue, result);
      assert r[..|result|] == r[..|result| + 1][..|result|];
    }
  }

  /** Draining appends every queued node. */
  lemma {:induction false} DrainCovers(queue: seq<string>, result: seq<string>)
    ensures var r := Drain(queue, result);
      forall x :: x in queue ==> x in r[|result|..]
    decreases |queue|
  {
    if queue != [] {
      var node := Least(queue);
      var rest := RemoveFirst(queue, node);
      DrainCovers(rest, result + [node]);
      DrainPrefix(rest, result + [node]);
      var r := Drain(queue, result);
      assert r[|result|] == node;
      assert r[|result| + 1..] == r[|result|..][1..];
    }
  }

  /** Draining a duplicate-free queue appends it in ascending name order. */
  lemma {:induction false} DrainAscending(queue: seq<string>, result: seq<string>)
    requires NoDup(queue)
    ensures var r := Drain(queue, result);
      forall i, j :: |result| <= i < j < |r| ==> Less(r[i], r[j])
    decreases |queue|
  {
    if queue != [] {
      var node := Least(queue);
      var rest := RemoveFirst(queue, node);
      var r := Drain(queue, result);
      assert r == Drain(rest, result + [node]);
      DrainAscending(rest, result + [node]);
      DrainPrefix(rest, result + [node]);
      assert r[|result|] == (result + [node])[|result|] == node;
      forall i, j | |result| <= i < j < |r| ensures Less(r[i], r[j]) {
        if i == |result| {
          assert r[j] in rest && node !in rest;
          assert r[j] in queue;
        }
      }
    }
  }

  /** The answer of `_topological_sort` and whether it printed the
      circular-dependency warning. */
  datatype TopoResult = TopoResult(order: seq<string>, circularWarning: bool)

  /** Strictly descending by name. */
  predicate Descending(s: seq<string>) {
    forall i, j :: 0 <= i < j < |s| ==> Less(s[j], s[i])
  }

  /** `_topological_sort`: the nodes no other node depends on, from the
      greatest name to the least; the warning fires exactly when some
      node has a dependent. */
  function TopologicalSort(g: Graph): (r: TopoResult)
    requires WellFormed(g)
    ensures NoDup(r.order)
    ensures forall x :: x in r.order <==> x in g.nodes && !HasDependent(g, x)
    ensures Descending(r.order)
    ensures r.circularWarning <==> exists x :: x in g.nodes && HasDependent(g, x)
  {
    var deg := InDegrees(g);
    var queue := ZeroIn(g.nodes, deg);
    var result := KahnLoop(g, deg, queue, []);
    KahnLoopDrains(g, deg, queue, []);
    var order := Reverse(result);
    DrainedDescending(queue);
    TopoResult(order, |result| != |g.nodes|)
  }

  /** Draining a duplicate-free queue and reversing the result lists the
      queue from the greatest name to the least. */
  lemma DrainedDescending(queue: seq<string>)
    requires NoDup(queue)
    ensures var order := Reverse(Drain(queue, []));
      && NoDup(order)
      && (forall x :: x in order <==> x in queue)
      && Descending(order)
  {
    var result := Drain(queue, []);
    DrainPrefix(queue, []);
    DrainCovers(queue, []);
    DrainAscending(queue, []);
    assert result[0..] == result;
    ReversePreservesElems(result);
    ReverseAscending(result);
    DescendingNoDup(Reverse(result));
  }

  lemma ReverseAscending(s: seq<string>)
    requires forall i, j :: 0 <= i < j < |s| ==> Less(s[i], s[j])
    ensures Descending(Reverse(s))
  {
    var r := Reverse(s);
    forall i, j | 0 <= i < j < |r| ensures Less(r[j], r[i]) {
      assert r[j] == s[|s| - 1 - j] && r[i] == s[|s| - 1 - i];
    }
  }

  lemma DescendingNoDup(s: seq<string>)
    requires Descending(s)
    ensures NoDup(s)
  {
    forall i, j | 0 <= i < j < |s| ensures s[i] != s[j] {
      if s[i] == s[j] {
        LessIrreflexive(s[i]);
      }
    }
  }

  /** Two strictly descending sequences with the same elements are equal. */
  lemma {:induction false} DescendingUnique(a: seq<string>, b: seq<string>)
    requires Descending(a) && Descending(b)
    requires forall x :: x in a <==> x in b
    ensures a == b
    decreases |a|
  {
    assert |b| == 0 || b[0] in a;
    if a != [] {
      assert a[0] in b && b[0] in a;
      if a[0] != b[0] {
        var i :| 0 <= i < |a| && a[i] == b[0];
        var j :| 0 <= j < |b| && b[j] == a[0];
        assert i > 0 && j > 0;
        LessAsymmetric(a[i], a[0]);
      }
      DescendingNoDup(a);
      DescendingNoDup(b);
      assert forall x :: x in a[1..] <==> x in a && x != a[0];
      assert forall x :: x in b[1..] <==> x in b && x != b[0];
      DescendingUnique(a[1..], b[1..]);
      assert a == [a[0]] + a[1..] && b == [b[0]] + b[1..];
    }
  }

  /** The sort's answer is THE descending list of the nodes without
      dependents: any such list is the one it returns. */
  lemma TopoSortCharacterised(g: Graph, s: seq<string>)
    requires WellFormed(g)
    requires Descending(s)
    requires forall x :: x in s <==> x in g.nodes && !HasDependent(g, x)
    ensures TopologicalSort(g).order == s
  {
    DescendingUnique(TopologicalSort(g).order, s);
  }
}

=== FILE: wrappers.dfy ===
/** Failure-compatible wrappers used across the model.
    - Option<T> stands for Python's `Optional[T]` (a value or `None`).
    - Result<T> stands for a computation that either yields a value or
      raises; the error carries the name of the Python exception. */
module Wrappers {

  datatype Option<+T> = None | Some(value: T) {

    /** The value, or `default` when absent (Python's `x or default` for
        non-falsy payloads, `dict.get(k, default)` for lookups). */
    function GetOr(default: T): T {
      match this
      case Some(v) => v
      case None => default
    }
  }

  datatype Result<+T> = Success(value: T) | Failure(error: string) {

    predicate IsFailure() {
      Failure?
    }

    function PropagateFailure<U>(): Result<U>
      requires Failure?
    {
      Failure(error)
    }

    function Extract(): T
      requires Success?
    {
      value
    }

    function ToOption(): Option<T> {
      match this
      case Success(v) => Some(v)
      case Failure(_) => None
    }
  }
}
